=== FILE: README.md ===
# Book library: a Dafny model of its core

A small book-library web application has an Express backend and a Next.js
frontend. This project models the deterministic core of both halves as
pure Dafny functions over immutable data, and proves what the code
promises about them.

**Backend.**
- **Credential and token lifecycle.** Registration with an e-mail verification token, redemption of that token, password-reset requests and their redemption, and refresh-token creation, verification and revocation.
- **Store and side effects.** The store is one immutable value. Each table is a sequence of records in insertion order, and all tables draw ids from one counter (`Db`). A service call yields the new store, the mails it handed over and the error it threw (`Effects`). An error does not roll back earlier writes, since the code uses no transaction.
- **Hashing and signing.** `sha256` and `bcrypt` are free constructors, so distinct inputs give distinct digests and nothing more is known about them. A JSON Web Token (RFC 7519) is its claims together with the key that signed it (`Jwt`).
- **HTTP handlers.** The status decisions of the auth, password, book and user controllers and of the access-token middleware.
- **Builders.** The response envelope and the verification e-mail's HTML.

**Frontend.**
- **Request interceptor.** The axios interceptor's 401-retry decision.
- **Page gate.** The route gate in `middleware.ts`.
- **Request assembly.** The query and multipart assembly of the three request services, as sequences of key/value pairs (`Query`).
- **Forms.** The Zod schemas of the register, login, profile and book forms. Issues are reported per field, and the e-mail check is an abstract predicate (`FormSchema`).
- **Profile page.** The password-strength meter and the profile page's submit.
- **Dashboard tables.** The generic data table's filter map, pager and "Showing" line, and the books and users tables built on it.
- **Public catalogue.** Its list, filter panel, cards and star ratings.
- **Shared text helpers.** `getUserInitials`, and JavaScript's white space, trim and split (`Text`, `Initials`).

**Inputs passed as parameters.** Every effect the code reaches for is a parameter of the function that needs it:
- the clock (`now`, in milliseconds);
- the fresh random token;
- `NODE_ENV` (`production`);
- whether the mailer delivers;
- `NEXT_PUBLIC_API_URL`;
- the year printed in the e-mail;
- the outcome of a request;
- the cookie string;
- JavaScript's text of a number (`show`).

**Modelled as the code behaves.** Several behaviours are modelled exactly as written:
- A duplicate registration gets 500 from the controller but 409 from the service.
- Every URL beginning with "/" counts as public for the retry.
- "/apix" passes the route gate.
- A book card cuts the first "/api" out of the API URL, so a host beginning with "api" loses part of its name.
- The public list always asks for page 1.
- A negative `limit` such as `?limit=-3` is served, not refused: the ORM reads that many rows from the other end of the order, and the page count comes out zero or negative.
- A page with a negative skip, such as `?page=0` with a positive limit, is answered with 500.
- String lengths in the schemas and the strength meter are JavaScript's, in UTF-16 code units (`Text.Utf16Length`).
- An empty data table reads "Showing 1 to 0 of 0".
- The register and login forms only ever clear their server error.

Three defects of the public catalogue page are listed under "## Findings". Each is modelled both as written and corrected.

## Model

| member | source | states |
|---|---|---|
| `Envelope.Success` | apps/backend/src/utils/response.ts:8-15 | a success envelope has the flag set, keeps the message and data, and has null errors |
| `Envelope.Error` | apps/backend/src/utils/response.ts:17-24 | an error envelope has the flag cleared and null data, and keeps the message and errors |
| `Jwt.Sign` | apps/backend/src/controllers/auth.controller.ts:54 | a signed token carries the given subject and key, is issued at the current second and expires the lifetime later |
| `Jwt.Verify` | apps/backend/src/middlewares/auth.middleware.ts:10 | verification yields the token's claims exactly when the key matches and the expiry is still ahead; otherwise it fails |
| `Jwt.SignAccessToken` | apps/backend/src/utils/jwt.ts:2-4 | an access token's subject is the decimal text of the user id |
| `Jwt.SignThenVerify` | apps/backend/src/utils/jwt.ts:2-4 | a signed token verifies under its own key exactly until its lifetime has run out |
| `Jwt.WrongKeyRejected` | apps/backend/src/middlewares/auth.middleware.ts:10 | a token never verifies under a key other than the one that signed it |
| `AuthController.RegisterIssues` | apps/backend/src/controllers/auth.controller.ts:8-12 | the register schema fails exactly on a name under 2 UTF-16 code units, a bad e-mail or a password under 6, and names those fields |
| `AuthController.LoginIssues` | apps/backend/src/controllers/auth.controller.ts:36-39 | the login schema fails exactly on a bad e-mail or a password under 6 UTF-16 code units |
| `AuthController.AstralNameCountsTwo` | apps/backend/src/controllers/auth.controller.ts:8-12 | one character outside the Basic Multilingual Plane is a name long enough for `min(2)`, as Zod counts code units |
| `AuthController.Register` | apps/backend/src/controllers/auth.controller.ts:14-34 | 400 with the failing fields exactly on a schema failure; 500 "Email already exists" exactly when the address is taken; 201 appends exactly one user with the next id and the hashed password, advances the id counter, changes nothing else and returns only id and e-mail; nothing is written unless 201 |
| `AuthController.Login` | apps/backend/src/controllers/auth.controller.ts:41-57 | 400 on a schema failure; 401 "Invalid credentials" for an unknown address or a wrong password; 200 exactly when the password matches, with a 15-minute token whose subject is the numeric id |
| `AuthController.DuplicateStatusDiffers` | apps/backend/src/controllers/auth.controller.ts:31-32 | a taken address gets 500 from this handler but a 409 error from the registration service |
| `AuthController.NoEnumeration` | apps/backend/src/controllers/auth.controller.ts:48-52 | an unknown address and a known address with the wrong password get the same response |
| `AuthController.RegisterThenLogin` | apps/backend/src/controllers/auth.controller.ts:14-57 | a user just registered logs in with that password and gets a token for their id that verifies for 15 minutes only |
| `AuthMiddleware.SubjectNumber` | apps/backend/src/middlewares/auth.middleware.ts:11 | a numeric subject is kept; a text subject is read as a number, NaN when it is not one |
| `AuthMiddleware.RequireAuth` | apps/backend/src/middlewares/auth.middleware.ts:5-16 | a missing or empty cookie, or a token that does not verify, gets 401 "Unauthorized"; otherwise the request goes on, exactly once, with the subject as user id |
| `AuthMiddleware.SignedAccessTokenAdmits` | apps/backend/src/middlewares/auth.middleware.ts:10-11 | a token from `signAccessToken(id)` admits user `id` until it expires and is refused afterwards |
| `AuthMiddleware.LoginTokenNeedsSameKey` | apps/backend/src/middlewares/auth.middleware.ts:10 | a login token passes the middleware exactly when the login and access secrets are the same key |
| `Db.IntId` | apps/backend/src/controllers/user.controller.ts:10-13 | an id from the middleware is accepted by the ORM exactly when it is a whole number, and then stands for that number; NaN and fractions are refused |
| `Db.UserByEmail` | apps/backend/src/services/auth.service.ts:21 | the lookup by e-mail finds a stored user with that address, or reports that no stored user has it |
| `Db.UserById` | apps/backend/src/controllers/user.controller.ts:12-15 | the lookup by id finds a stored user with that id, or reports that none has it |
| `Db.ReplaceUser` | apps/backend/src/services/auth.service.ts:89 | writing a user back changes exactly the records with its id and keeps the table's length and order |
| `Db.UpdateUser` | apps/backend/src/services/auth.service.ts:89 | an update of a missing id fails with RecordNotFound and changes nothing; otherwise it writes the changed record back and returns it |
| `Db.FindRow` | apps/backend/src/services/auth.service.ts:74-76 | the lookup by owner and digest returns a stored row matching both, or reports that no row matches both |
| `Db.FindByHash` | apps/backend/src/services/token.service.ts:27 | the lookup by digest returns a stored row with that digest, or reports that none has it |
| `Db.DeleteRow` | apps/backend/src/services/auth.service.ts:90 | deleting by id keeps exactly the rows with other ids |
| `Db.DeleteRowsOfUser` | apps/backend/src/services/password.service.ts:15 | deleting by owner keeps exactly the other users' rows |
| `Db.DeleteRowsWithHash` | apps/backend/src/services/token.service.ts:34 | deleting by digest keeps exactly the rows with other digests |
| `Db.CreateUser` | apps/backend/src/services/auth.service.ts:29-32 | creating a user fails on a taken address (the unique constraint) and otherwise appends a user with a fresh id, no avatar and no verification stamp |
| `Db.NewRow` | apps/backend/src/services/auth.service.ts:39-45 | a new token row takes the next free id and the given owner, digest and expiry |
| `Db.CreateUserKeepsValid` | apps/backend/src/services/auth.service.ts:29-32 | creating a user keeps ids below the counter and ids and addresses unique |
| `Db.AddVerificationKeepsValid` | apps/backend/src/services/auth.service.ts:39-45 | a token row with the counter's id, for an existing user, keeps the store valid |
| `Db.UserByEmailAppend` | apps/backend/src/services/auth.service.ts:21-32 | a user appended with an address nobody had is the one the lookup by that address finds |
| `Db.UserByIdAppend` | apps/backend/src/services/auth.service.ts:29-32 | appending a user with a fresh id leaves every other id's lookup unchanged, and the new id finds the new user |
| `Db.FindRowAppend` | apps/backend/src/services/auth.service.ts:39-45 | a row appended after rows of which none matches is the row that the lookup then finds, if it matches |
| `Db.DeleteOnlyRow` | apps/backend/src/services/auth.service.ts:90 | deleting the only row with a digest leaves no row with that digest |
| `Db.UserByIdOfMember` | apps/backend/src/controllers/user.controller.ts:12-15 | with unique ids, looking up a stored user's id finds that user |
| `Db.UserByIdReplace` | apps/backend/src/services/auth.service.ts:89 | after writing a user back, its id finds the new record (if the id was stored) and every other id finds what it found before |
| `AuthService.RegisterUser` | apps/backend/src/services/auth.service.ts:11-70 | a taken address is refused with 409 before any write; otherwise exactly one user (with the password's bcrypt) and one 24-hour verification row (with the token's sha256) are added, the link is mailed, and the plaintext token is returned only outside production; a mailer failure is thrown with both writes kept |
| `AuthService.VerifyEmail` | apps/backend/src/services/auth.service.ts:72-93 | a missing or expired verification row is refused with 400 and changes nothing; it succeeds exactly when the row is live and the user exists, and then stamps the user verified and deletes only that row |
| `AuthService.RegisterKeepsValid` | apps/backend/src/services/auth.service.ts:11-45 | registration keeps ids below the counter and ids and addresses unique |
| `AuthService.RegisterCreatesOneRow` | apps/backend/src/services/auth.service.ts:34-45 | after registering, the new user has exactly one verification row, holding the token's hash and expiring 24 hours on |
| `AuthService.OtherUsersTokenRejected` | apps/backend/src/services/auth.service.ts:74-81 | a token whose rows all belong to one user is refused for every other user id |
| `AuthService.VerifyEmailSingleUse` | apps/backend/src/services/auth.service.ts:88-90 | a redeemed token is refused when it is used again, at any time |
| `AuthService.RegisteredStore` | apps/backend/src/services/auth.service.ts:29-45 | the store after registering a new address is the old one with one user and one verification row appended and the counter two further on |
| `AuthService.RegisterThenVerify` | apps/backend/src/services/auth.service.ts:11-93 | the token mailed at registration verifies the new user at any time up to its expiry, stamping them with that time |
| `AuthService.VerifyNewUser` | apps/backend/src/services/auth.service.ts:72-93 | a fresh user and their freshly appended live row verify successfully, stamping the user with the time of the request |
| `PasswordService.RequestPasswordReset` | apps/backend/src/services/password.service.ts:10-38 | an unknown address returns nothing and changes nothing; for a known user all their earlier reset rows are replaced by one new one-hour row, the link is mailed, and the token is returned only outside production |
| `PasswordService.ResetPassword` | apps/backend/src/services/password.service.ts:40-51 | a missing or expired reset row throws with no status and changes nothing; success happens exactly when the row is live and the user exists, and then sets the password to the new bcrypt and deletes only that row |
| `PasswordService.RequestLeavesOneRow` | apps/backend/src/services/password.service.ts:15-23 | after a request, the user has exactly one reset row, the new one, and every other user's rows are as before |
| `PasswordService.OlderTokenDead` | apps/backend/src/services/password.service.ts:15 | a newer request makes every older token of that user fail |
| `PasswordService.ResetSingleUse` | apps/backend/src/services/password.service.ts:50 | a redeemed reset token is refused when it is used again |
| `PasswordService.RequestThenReset` | apps/backend/src/services/password.service.ts:10-51 | within the hour, the token of the latest request sets the user's password to the bcrypt of the new one |
| `PasswordService.ResetFreshRow` | apps/backend/src/services/password.service.ts:40-51 | a user's only live reset row redeems their password change |
| `TokenService.CreateRefreshToken` | apps/backend/src/services/token.service.ts:13-23 | creating a token appends one seven-day row with the token's sha256 and returns the plaintext; a digest already stored violates the unique constraint, and an unknown user the foreign key, and then nothing changes; it succeeds exactly when neither applies |
| `TokenService.VerifyRefreshToken` | apps/backend/src/services/token.service.ts:25-30 | a token verifies exactly when the row found for its digest has not expired, and yields that row's owner; an unknown token never verifies |
| `TokenService.RevokeRefreshToken` | apps/backend/src/services/token.service.ts:32-35 | revoking keeps exactly the refresh rows with another digest and touches no other table |
| `TokenService.FindByOtherHash` | apps/backend/src/services/token.service.ts:32-35 | deleting one digest's rows leaves the lookup of every other digest unchanged |
| `TokenService.CreateThenVerify` | apps/backend/src/services/token.service.ts:13-30 | a token just created verifies for its owner for seven days |
| `TokenService.FindByHashAppend` | apps/backend/src/services/token.service.ts:18-20 | a row appended with a digest no row had is the one the lookup by that digest finds |
| `TokenService.RevokeThenVerify` | apps/backend/src/services/token.service.ts:32-35 | a revoked token never verifies again |
| `TokenService.RevokeIdempotent` | apps/backend/src/services/token.service.ts:32-35 | revoking twice is revoking once, and revoking an unknown token changes nothing |
| `TokenService.DeleteHashTwice` | apps/backend/src/services/token.service.ts:34 | deleting a digest's rows twice is the same as deleting them once |
| `TokenService.DeleteAbsentHash` | apps/backend/src/services/token.service.ts:34 | deleting a digest that no row has leaves the rows as they were |
| `TokenService.RevokeLeavesOthers` | apps/backend/src/services/token.service.ts:32-35 | revoking one token does not change whether any other token verifies |
| `UserService.Summary` | apps/backend/src/services/user.service.ts:25-30 | a list entry shows the user's id, name, e-mail and verification stamp, and no password |
| `UserService.GetUsers` | apps/backend/src/services/user.service.ts:3-34 | exactly the summaries of the users meeting the verification constraint (if given) and the search over name or e-mail ignoring case (if non-empty) are listed |
| `UserService.NoFilterListsAll` | apps/backend/src/services/user.service.ts:10-31 | with neither filter, every user is listed, in table order |
| `UserService.Conjunctive` | apps/backend/src/services/user.service.ts:12-21 | the two filters combine as a conjunction: an entry is listed with both exactly when it is listed with each alone |
| `UserService.VerifiedSplit` | apps/backend/src/services/user.service.ts:12-14 | `isVerified = true` keeps exactly the verified users, and `false` exactly the others |
| `UserController.ProfileOf` | apps/backend/src/controllers/user.controller.ts:14 | the profile shows id, name, e-mail, avatar and creation time, and no password |
| `UserController.ViewOf` | apps/backend/src/controllers/user.controller.ts:38 | the update's reply shows id, name, e-mail and avatar only |
| `UserController.GetProfile` | apps/backend/src/controllers/user.controller.ts:8-23 | 404 "User not found" exactly for a missing user, 500 exactly for an id the ORM refuses, and otherwise 200 with the password-free profile |
| `UserController.ProfileHidesPassword` | apps/backend/src/controllers/user.controller.ts:12-19 | changing a user's stored password does not change anybody's profile response |
| `UserController.ApplyProfile` | apps/backend/src/controllers/user.controller.ts:30-33 | only truthy fields are changed, a new password is stored as its bcrypt, and id, avatar, verification and creation time are kept |
| `UserController.UpdateProfile` | apps/backend/src/controllers/user.controller.ts:25-45 | 200 exactly when the user exists and no other user has the new address, and then only that user's record changes; every failure is a 500 "Failed to update profile" with the store unchanged |
| `UserController.ReplaceBySelf` | apps/backend/src/controllers/user.controller.ts:35-39 | writing back a user unchanged leaves the table as it was |
| `UserController.ReplaceNone` | apps/backend/src/controllers/user.controller.ts:35-39 | writing back a user whose id is not stored leaves the table as it was |
| `UserController.EmptyUpdateChangesNothing` | apps/backend/src/controllers/user.controller.ts:30-39 | an update with no truthy field leaves the store as it was |
| `UserController.UpdateTouchesOnlySelf` | apps/backend/src/controllers/user.controller.ts:35-39 | a profile update leaves every other user's record untouched |
| `UserController.UploadAvatar` | apps/backend/src/controllers/user.controller.ts:46-74 | no file gives 400 and a missing user 404, both with nothing changed; otherwise the old avatar file is removed and the avatar becomes "/uploads/" plus the file name |
| `UserController.UploadThenProfile` | apps/backend/src/controllers/user.controller.ts:57-68 | after an upload, the profile shows the new avatar, the previous file is gone, and every other file is kept |
| `BookController.IntOr` | apps/backend/src/controllers/book.controller.ts:7-8 | a missing parameter, one with no leading integer, or one reading as 0 gives the default; any other value gives its leading integer |
| `BookController.Filter` | apps/backend/src/controllers/book.controller.ts:11-18 | exactly the books whose title or author contains the search (ignoring case) are kept, or all of them for an empty search |
| `BookController.Insert` | apps/backend/src/controllers/book.controller.ts:26 | inserting a book adds exactly that book to the list |
| `BookController.InsertNewestFirst` | apps/backend/src/controllers/book.controller.ts:26 | inserting into a newest-first list keeps it newest first |
| `BookController.SortNewestFirst` | apps/backend/src/controllers/book.controller.ts:26 | the ordered books are newest first and a permutation of the input |
| `BookController.Window` | apps/backend/src/controllers/book.controller.ts:22-26 | for a positive `take`, a page holds at most `take` rows, the consecutive run starting at `skip`, and is empty past the end; it keeps the newest-first order |
| `BookController.Reverse` | apps/backend/src/controllers/book.controller.ts:26 | the reversed rows hold the same rows, the last first |
| `BookController.WindowBack` | apps/backend/src/controllers/book.controller.ts:24-25 | for a negative `take`, the rows come from the end: at most `-take` of them, none once `skip` passes the end, and still newest first |
| `BookController.WindowBackReversed` | apps/backend/src/controllers/book.controller.ts:24-26 | reading from the end is reversing the order, skipping and taking, and reversing the page back |
| `BookController.Skip` | apps/backend/src/controllers/book.controller.ts:24 | the rows skipped are `(page - 1) * limit`, negative exactly when the page is below 1 with a positive limit or above 1 with a negative one |
| `BookController.PageOf` | apps/backend/src/controllers/book.controller.ts:20-39 | for a limit the ORM accepts, the page reports the count of all matching books, the page number, `Math.ceil(total / limit)` and the window of the matching books newest first, read from the end for a negative limit; it never holds more rows than the limit's size |
| `BookController.ListBooks` | apps/backend/src/controllers/book.controller.ts:5-44 | 500 "Failed to fetch books" exactly when the skip `(page - 1) * limit` is negative; otherwise 200 with that page of the matching books |
| `BookController.EmptySearchKeepsAll` | apps/backend/src/controllers/book.controller.ts:9-18 | an empty search keeps every book, in order |
| `BookController.FilterAppend` | apps/backend/src/controllers/book.controller.ts:11-18 | filtering a table with one book appended is filtering the old table, then keeping the book if it matches |
| `BookController.ContainsSelf` | apps/backend/src/controllers/book.controller.ts:14 | every title contains itself ignoring case, so a search for a book's title finds it |
| `BookController.DefaultQuery` | apps/backend/src/controllers/book.controller.ts:7-9 | with no query parameters, the first ten books of the whole table are listed, newest first, on page 1 |
| `BookController.NegativeLimitServed` | apps/backend/src/controllers/book.controller.ts:7-8 | `?limit=-k` is not refused: with no page nothing is skipped, and the `k` oldest books come back, newest first |
| `BookController.RatingOf` | apps/backend/src/controllers/book.controller.ts:60 | an absent or empty rating is 0; any other is read as a JavaScript number, NaN when it is not one |
| `BookController.CreateBook` | apps/backend/src/controllers/book.controller.ts:45-70 | 400 exactly when title or author is missing; 201 exactly when the rating is a number and the uploader exists, and then one book with a fresh id is appended and returned; every failure leaves the store as it was |
| `BookController.Thumbnail` | apps/backend/src/controllers/book.controller.ts:61 | a thumbnail is stored exactly when a file came, as "/uploads/" plus its name |
| `BookController.CreatedDefaults` | apps/backend/src/controllers/book.controller.ts:55-63 | a book created without a rating is stored with rating 0, belongs to the uploader, and has no thumbnail without a file |
| `BookController.CreatedBookFound` | apps/backend/src/controllers/book.controller.ts:20-66 | after a creation, a search for the book's title counts one book more than before |
| `PasswordController.NumberOf` | apps/backend/src/controllers/password.controller.ts:22 | `Number` keeps a numeric id, reads a text id as a JavaScript number (NaN when it is not one), and takes null as 0 |
| `PasswordController.IntegralId` | apps/backend/src/controllers/password.controller.ts:22 | an id is usable exactly when its `Number` is an integer, and then it is that number |
| `PasswordController.ForgotPassword` | apps/backend/src/controllers/password.controller.ts:5-15 | a missing address or a thrown service error gives 500; otherwise 200 with the same message always, and the service's result or null as data |
| `PasswordController.ResetPassword` | apps/backend/src/controllers/password.controller.ts:17-27 | any falsy parameter gives 400 "Missing parameters" with nothing changed; an id whose `Number` is not an integer gives 400 with nothing changed; otherwise the store is what the service left, 200 on its success and 400 with its message on its failure, and 200 happens exactly then |
| `PasswordController.Failed` | apps/backend/src/controllers/password.controller.ts:25 | the error message is the thrown error's message, or "Reset failed" when that is empty; it is never empty |
| `PasswordController.ForgotSameResponse` | apps/backend/src/controllers/password.controller.ts:8-11 | in production, a registered and an unregistered address get the very same response |
| `PasswordController.ForgotDataOnlyInDevelopment` | apps/backend/src/controllers/password.controller.ts:9-11 | the response carries data exactly outside production, for a known address, with the mail delivered |
| `PasswordController.ResetErrorsCarryServiceMessage` | apps/backend/src/controllers/password.controller.ts:24-26 | a missing reset row gives 400 "Invalid or expired token" and an expired one 400 "Token expired" |
| `PasswordController.StringIdAccepted` | apps/backend/src/controllers/password.controller.ts:22 | an id sent as its decimal text is handled exactly like the number itself |
| `PasswordController.SameNumberSameReset` | apps/backend/src/controllers/password.controller.ts:20-22 | two ids that are equally truthy and have the same `Number` are handled the same way |
| `PasswordController.ForgotThenReset` | apps/backend/src/controllers/password.controller.ts:5-27 | the token `forgotPassword` issues for a registered address, sent back in time with the id as its decimal text, resets that user's password to the new one with a 200 |
| `PasswordController.StringIdIntegral` | apps/backend/src/controllers/password.controller.ts:20-22 | an id sent as its decimal text is truthy and reads back as that id |
| `EmailTemplate.InterpolatesVerbatim` | apps/backend/src/utils/email-template.ts:14-30 | title, greeting and message appear verbatim and in this order between the fixed markup |
| `EmailTemplate.ButtonIffBothGiven` | apps/backend/src/utils/email-template.ts:32-42 | the button block is present exactly when both its text and its URL are non-empty |
| `EmailTemplate.ButtonLink` | apps/backend/src/utils/email-template.ts:34-40 | with a button, the link's `href` is the URL and its label the text, between the fixed markup |
| `EmailTemplate.ButtonMarkupNonEmpty` | apps/backend/src/utils/email-template.ts:34 | the template's button block starts with markup, so its presence shows in the length |
| `EmailTemplate.NoticeAlwaysPresent` | apps/backend/src/utils/email-template.ts:44-46 | the "ignore this email" notice is always present |
| `EmailTemplate.FooterHasYear` | apps/backend/src/utils/email-template.ts:50-52 | the footer holds the copyright line with the current year |
| `EmailTemplate.RenderedEmail` | apps/backend/src/utils/email-template.ts:14-55 | the rendered e-mail holds the "safely ignore" notice and the copyright line for the year |
| `Decimal.NatToString` | apps/backend/src/services/auth.service.ts:48 | a number's decimal text is non-empty, all digits and has no leading zero |
| `Decimal.IntToString` | apps/backend/src/services/auth.service.ts:48 | an integer's decimal text is non-empty and starts with "-" exactly when the number is negative |
| `Decimal.DigitsValueOfNatToString` | apps/backend/src/services/auth.service.ts:48 | reading back a number's decimal text gives the number |
| `Decimal.NumberOfBlank` | apps/backend/src/controllers/book.controller.ts:60 | `Number` of blank text is 0 |
| `Decimal.NumberOfTrimmed` | apps/backend/src/controllers/book.controller.ts:60 | text with no white space to trim is read as it stands |
| `Decimal.NumberOfDigits` | apps/backend/src/controllers/book.controller.ts:60 | a string of digits reads as its value |
| `Decimal.NumberOfNegDigits` | apps/backend/src/controllers/book.controller.ts:60 | a minus sign before digits reads as their negated value, so "-3" is -3 |
| `Decimal.NumberOfPointed` | apps/backend/src/controllers/book.controller.ts:60 | digits, a point and more digits read as the whole part plus the fraction |
| `Decimal.NegatedReads` | apps/backend/src/controllers/book.controller.ts:60 | a minus sign before a literal that starts with a digit and has nothing to trim negates its value |
| `Decimal.HalfRatingReads` | apps/backend/src/controllers/book.controller.ts:60 | the half-star rating "4.5" reads as 4.5 |
| `Decimal.NumberOfIntToString` | apps/backend/src/controllers/password.controller.ts:22 | `Number(String(i))` is `i` for every integer |
| `Decimal.LeadingDigits` | apps/backend/src/controllers/book.controller.ts:7 | the digits `parseInt` reads form the longest run of digits at the front |
| `Decimal.ParseIntPrefix` | apps/backend/src/controllers/book.controller.ts:7 | `parseInt` of a string of digits is its value, read in base 10 |
| `Decimal.IntPrefixReads` | apps/backend/src/controllers/book.controller.ts:7-8 | `parseInt` skips leading white space, reads an optional sign and then digits up to the first non-digit |
| `Decimal.IntPrefixOfNegative` | apps/backend/src/controllers/book.controller.ts:8 | `parseInt` of a minus sign and digits is the negated value |
| `Decimal.IntPrefixStopsAtLetter` | apps/backend/src/controllers/book.controller.ts:7 | `parseInt("12abc")` is 12 |
| `Decimal.IntPrefixSkipsWs` | apps/backend/src/controllers/book.controller.ts:7 | `parseInt(" -3")` is -3 |
| `Decimal.LeadingDigitsStop` | apps/backend/src/controllers/book.controller.ts:7 | the digits read are exactly those before the first non-digit |
| `Decimal.CeilDiv` | apps/backend/src/controllers/book.controller.ts:37 | for a positive limit the page count is the least number of pages that holds every row; for a negative limit it is the least integer not below `total / limit`, zero or negative |
| `Initials.WordsAreWords` | apps/frontend/lib/utils.ts:27 | every word of a name is non-empty and holds no white space |
| `Initials.CollapseFrom` | apps/frontend/lib/utils.ts:20 | collapsing white-space runs never lengthens the text |
| `Initials.NonEmpty` | apps/frontend/lib/utils.ts:27 | the filter leaves only non-empty pieces |
| `Initials.SplitIsWords` | apps/frontend/lib/utils.ts:27 | on text whose only white space is spaces, the non-empty pieces of a split on spaces are exactly its words |
| `Initials.CollapseKeepsWords` | apps/frontend/lib/utils.ts:20 | replacing every white-space run by one space does not change the words |
| `Initials.CollapseOnlySpaces` | apps/frontend/lib/utils.ts:20 | after collapsing, the only white space left is the plain space |
| `Initials.LeadingWsSkipped` | apps/frontend/lib/utils.ts:20 | white space before the first word adds no word |
| `Initials.TrailingWsSkipped` | apps/frontend/lib/utils.ts:20 | white space after the last word adds no word |
| `Initials.BlankHasNoWords` | apps/frontend/lib/utils.ts:22-24 | a blank name has no words |
| `Initials.OnlyWs` | apps/frontend/lib/utils.ts:22-24 | white space alone only closes the word being read |
| `Initials.TrimKeepsWords` | apps/frontend/lib/utils.ts:20 | trimming does not change the words |
| `Initials.PipelineIsWords` | apps/frontend/lib/utils.ts:20-27 | trim, collapse, split on spaces and drop empty pieces yields exactly the white-space-separated words of the name |
| `Initials.SubstringEnd` | apps/frontend/lib/utils.ts:40 | `substring`'s end is clamped into the word, and a count within the word is kept |
| `Initials.SliceEnd` | apps/frontend/lib/utils.ts:45 | `slice`'s end is clamped into the list, and a negative count is taken from the end |
| `Initials.Firsts` | apps/frontend/lib/utils.ts:46-47 | one letter per word: each word's first character, upper-cased, in order |
| `Initials.GetUserInitials` | apps/frontend/lib/utils.ts:14-50 | "?" for an absent, empty or blank name; otherwise the initials depend on the name's words alone; and never more than `maxInitials` characters for `maxInitials` of at least 1 |
| `Initials.WordsNonEmptyHolds` | apps/frontend/lib/utils.ts:27 | no word of any name is empty |
| `Initials.IgnoresSurroundingWs` | apps/frontend/lib/utils.ts:20 | white space around a name does not change its initials |
| `Initials.IgnoresRepeatedWs` | apps/frontend/lib/utils.ts:20 | a run of white space inside a name gives the same initials as one space |
| `Initials.RunIsOneSpace` | apps/frontend/lib/utils.ts:20 | a white-space run and a single space separate the same words |
| `Initials.SeveralWords` | apps/frontend/lib/utils.ts:43-49 | a name of several words gives the upper-cased first letters of its first `maxInitials` words, in order |
| `FormSchema.On` | apps/frontend/app/dashboard/profile/page.tsx:28-49 | the messages reported on a field are exactly those of the issues carrying that field |
| `FormSchema.MinLength` | apps/frontend/app/dashboard/profile/page.tsx:29-31 | a minimum-length check passes exactly on a value of at least that many UTF-16 code units, and otherwise reports its one message on its field |
| `FormSchema.EmailField` | apps/frontend/app/dashboard/profile/page.tsx:32-34 | an e-mail check passes exactly on a valid address, and otherwise reports its one message on its field |
| `ProfileForm.NewPasswordIssues` | apps/frontend/app/dashboard/profile/page.tsx:36-47 | an empty or absent new password has no issue; otherwise each rule it breaks (8 UTF-16 code units, a lower-case letter, a digit) is reported on the field, and only those |
| `ProfileForm.Present` | apps/frontend/app/dashboard/profile/page.tsx:28-34 | a missing required field reports "Required", and a present one is checked |
| `ProfileForm.ProfileSchemaAccepts` | apps/frontend/app/dashboard/profile/page.tsx:28-49 | the schema accepts exactly a name of at least 2 UTF-16 code units, a valid e-mail, and a new password that is empty or meets all three rules |
| `ProfileForm.EmptyNewPasswordPasses` | apps/frontend/app/dashboard/profile/page.tsx:39-47 | an empty or absent new password never blocks the form |
| `ProfileForm.PasswordStrength` | apps/frontend/app/dashboard/profile/page.tsx:51-72 | an empty password scores 0 with no hints; otherwise score and hints add up to 40, with a hint for each failed check (8 UTF-16 code units, then lower case) |
| `ProfileForm.StrengthText` | apps/frontend/app/dashboard/profile/page.tsx:76-82 | the label and its colour are empty exactly for a score of 0 |
| `ProfileForm.OnlyWeakReachable` | apps/frontend/app/dashboard/profile/page.tsx:51-84 | the meter never shows more than "Weak", and shows nothing exactly for an empty password or one failing both checks |
| `ProfileForm.AcceptedPasswordFullScore` | apps/frontend/app/dashboard/profile/page.tsx:36-72 | a new password the schema accepts scores the full 40 with no hints |
| `ProfileForm.FullScoreNotAccepted` | apps/frontend/app/dashboard/profile/page.tsx:45-72 | eight lower-case letters score the full 40, yet the schema refuses them for want of a digit |
| `ProfileForm.Submit` | apps/frontend/app/dashboard/profile/page.tsx:127-154 | an invalid form issues no request; a valid one sends the update last, with a login first exactly when a current password is given; the spinner stays on exactly when the update answered without success; the success toast appears exactly on success; the password fields are cleared exactly after an answer to a form with a new password |
| `ProfileForm.Watched` | apps/frontend/app/dashboard/profile/page.tsx:126 | the watched new password is its text when given, and "" otherwise |
| `ProfileForm.MatchIffSameText` | apps/frontend/app/dashboard/profile/page.tsx:413 | the "Passwords match" hint shows exactly when both fields hold the same non-empty text |
| `ProfileForm.SubmitClearsPasswordHints` | apps/frontend/app/dashboard/profile/page.tsx:145-149 | after an answered update with a new password, the match hint is gone and the strength meter is blank |
| `BooksApi.BooksSlots` | apps/frontend/services/books.service.ts:29-35 | the query's candidate keys are the seven parameters, in the order they are appended, each once |
| `BooksApi.BooksQuery` | apps/frontend/services/books.service.ts:26-39 | the keys sent are among the seven parameters and in the order they are appended |
| `BooksApi.SearchSent` | apps/frontend/services/books.service.ts:29 | the search is sent exactly when it is non-empty, as given |
| `BooksApi.FiltersSent` | apps/frontend/services/books.service.ts:30-32 | author, date and rating are each sent exactly when non-empty, as given |
| `BooksApi.NumbersSent` | apps/frontend/services/books.service.ts:33-35 | page, limit and uploader are each sent exactly when non-zero, as their decimal text |
| `BooksApi.ZeroOmitted` | apps/frontend/services/books.service.ts:33-35 | page 0 and uploader 0 are falsy and are not sent |
| `BooksApi.FormSlots` | apps/frontend/services/books.service.ts:48-53 | the form's candidate fields are title, author, description, rating and thumbnail, in that order, each once |
| `BooksApi.BookForm` | apps/frontend/services/books.service.ts:47-53 | title and author are always sent, the description when non-empty, the rating whenever it is defined, and the thumbnail when a file is chosen |
| `BooksApi.ZeroRatingSent` | apps/frontend/services/books.service.ts:52 | a rating of 0 is still sent |
| `BooksApi.CreateBook` | apps/frontend/services/books.service.ts:40-65 | a POST of the form to /books that yields the created book, and any failure becomes "Failed to create book" |
| `BooksApi.UpdateBook` | apps/frontend/services/books.service.ts:66-93 | a PUT of the same form to the book's own path that succeeds exactly when the request does, and any failure becomes "Failed to update book" |
| `BooksApi.DeleteBook` | apps/frontend/services/books.service.ts:95-101 | a DELETE of the book's own path with no form, and any failure becomes "Failed to delete book" |
| `BooksApi.FailureMessageFixed` | apps/frontend/services/books.service.ts:62-64 | the thrown message does not depend on what the server said |
| `BooksApi.CreateAndUpdateAgree` | apps/frontend/services/books.service.ts:47-82 | creating and updating send identical form data |
| `UsersApi.UsersSlots` | apps/frontend/services/user.service.ts:14-17 | the query's candidate keys are search, isVerified, page and limit, in that order, each once |
| `UsersApi.GetUsers` | apps/frontend/services/user.service.ts:11-21 | search and isVerified are sent exactly when non-empty, page and limit exactly when non-zero, and the role never is |
| `UsersApi.RoleIgnored` | apps/frontend/services/user.service.ts:6 | the role makes no difference to the request |
| `Query.LookupFinds` | apps/frontend/services/books.service.ts:27-37 | the value looked up for a key is that of a pair with that key, and there is none exactly when no pair has the key |
| `Query.Keys` | apps/frontend/services/books.service.ts:27-37 | the keys of the pairs, one per pair, in order |
| `Query.SlotKeys` | apps/frontend/services/books.service.ts:29-35 | the candidate keys, one per candidate, in order |
| `Query.Assemble` | apps/frontend/services/books.service.ts:29-35 | no more pairs are appended than there are candidates |
| `Query.AssembleFromSlots` | apps/frontend/services/books.service.ts:29-35 | the pairs appended are candidates whose guard held, in candidate order |
| `Query.AssembleLookup` | apps/frontend/services/books.service.ts:29-35 | with distinct candidate keys, a key is sent exactly when its guard holds, and then with its value |
| `Query.SubsequenceDistinct` | apps/frontend/services/books.service.ts:29-35 | keys taken in order from distinct candidates are distinct and are candidates |
| `Query.NoStrayKey` | apps/frontend/services/user.service.ts:14-17 | a key that is not a candidate is never sent |
| `Text.TrimStart` | apps/backend/src/controllers/book.controller.ts:7 | trimming the start never lengthens the string, and what is left does not start with white space |
| `Text.Trim` | apps/frontend/lib/utils.ts:20 | trimming never lengthens the string, and what is left neither starts nor ends with white space |
| `Text.Utf16Length` | apps/frontend/app/dashboard/profile/page.tsx:39 | JavaScript's `length`: one code unit per character of the Basic Multilingual Plane and two for any other, so never fewer than the characters and never more than twice as many |
| `Text.TrimWindow` | apps/frontend/lib/utils.ts:20 | the trimmed string is the window of the input that begins where `trimStart` ends, with only white space before and after it |
| `Text.TrimBlank` | apps/frontend/services/bookspublic.service.ts:21 | a string trims to "" exactly when it is all white space |
| `Text.TrimNonBlank` | apps/frontend/services/bookspublic.service.ts:21 | a string with a visible character does not trim to "" |
| `Text.TrimNoWsEnds` | apps/frontend/lib/axios.ts:27 | a string with no white space at either end is left alone by trimming |
| `Text.IndexOfFrom` | apps/frontend/components/book/book-card.tsx:7 | the index is the first match at or after the start position, or -1 when there is none |
| `Text.IndexOf` | apps/frontend/components/book/book-card.tsx:7 | the index is the first position where the pattern occurs, or -1 when it occurs nowhere |
| `Text.FirstMatch` | apps/frontend/components/book/book-card.tsx:7 | a position where the pattern occurs with no earlier occurrence is the index found |
| `Text.ContainsWitness` | apps/backend/src/controllers/book.controller.ts:14 | a string contains any text placed inside it |
| `Text.ReplaceFirst` | apps/frontend/components/book/book-card.tsx:7 | only the first occurrence of the pattern is replaced, and a string without it is unchanged |
| `Text.Lower` | apps/backend/src/controllers/book.controller.ts:14 | lower-casing maps each character on its own and keeps the length |
| `Text.Upper` | apps/frontend/lib/utils.ts:46 | upper-casing maps each character on its own and keeps the length |
| `Text.Split` | apps/frontend/lib/axios.ts:27 | `split(";")` gives at least one piece, no piece holds the separator, and the pieces joined by it give the text back |
| `Text.SplitJoin` | apps/frontend/lib/axios.ts:27 | a round trip: the pieces of a split, joined by the separator, are the text read so far followed by the rest |
| `Text.SplitPrefix` | apps/frontend/lib/axios.ts:27 | the text before the first separator is the first piece, and what follows it splits on its own |
| `Text.JoinSplit` | apps/frontend/lib/axios.ts:27 | the other round trip: separator-free pieces, joined and split again, are the same pieces, so a split is determined by its two facts |
| `Text.SplitWithoutSep` | apps/frontend/lib/axios.ts:27 | a string without the separator splits into itself alone |
| `Text.SplitPiecesFree` | apps/frontend/lib/axios.ts:27 | no piece of a split holds the separator |
| `Text.LexLeTotal` | apps/frontend/components/book/book-list.tsx:31 | any two strings are ordered one way or the other |
| `Text.LexLeAntisymmetric` | apps/frontend/components/book/book-list.tsx:31 | two strings each ordered before the other are equal |
| `Text.LexLeTransitive` | apps/frontend/components/book/book-list.tsx:31 | the string order is transitive |
| `BookCard.ServerBase` | apps/frontend/components/book/book-card.tsx:7 | an unset API URL prints as "undefined"; otherwise its first "/api" is cut out, and a URL without one is kept |
| `BookCard.ImageUrl` | apps/frontend/components/book/book-card.tsx:6-8 | a book with a thumbnail shows the server base followed by the thumbnail path, and one without shows the placeholder |
| `BookCard.LocalImage` | apps/frontend/components/book/book-card.tsx:6-8 | with the usual API URL "http://localhost:4000/api", an uploaded path is served from "http://localhost:4000" |
| `BookCard.StripsApi` | apps/frontend/components/book/book-card.tsx:7 | for any API URL "scheme//host/api" with no slash in scheme or host and a host not starting with "a", an image path is served from "scheme//host" |
| `BookCard.ApiHostLosesSlash` | apps/frontend/components/book/book-card.tsx:7 | a host beginning with "api" is itself cut: "scheme//api.example.com" becomes "scheme/.example.com" |
| `BookCard.CardStars` | apps/frontend/components/book/book-card.tsx:38-46 | five stars, the first floor(rating) of them filled, and never a half star |
| `BookCard.FilledCount` | apps/frontend/components/book/book-card.tsx:38-46 | the number of filled stars is the rating's floor clamped to 0 to 5 |
| `BookCard.CardAgreesWithWidget` | apps/frontend/components/book/book-card.tsx:38-46 | for a whole-number rating the card draws the same stars as the rating widget |
| `StarRating.Kind` | apps/frontend/components/book/star-rating.tsx:12-18 | a star is full exactly below the floor, and half exactly at the floor when the rating has a fraction |
| `StarRating.StarsUpTo` | apps/frontend/components/book/star-rating.tsx:9-20 | one star per position, each of the kind its position calls for |
| `StarRating.Stars` | apps/frontend/components/book/star-rating.tsx:3-24 | five stars, each of the kind its position calls for under the rating |
| `StarRating.Count` | apps/frontend/components/book/star-rating.tsx:9-20 | a count of stars of one kind never exceeds the stars drawn |
| `StarRating.FullCountUpTo` | apps/frontend/components/book/star-rating.tsx:13 | the number of full stars among the first n is the floor clamped to 0 to n |
| `StarRating.HalfCountUpTo` | apps/frontend/components/book/star-rating.tsx:15 | there is one half star exactly when the rating has a fraction and its floor falls among the positions |
| `StarRating.FullCount` | apps/frontend/components/book/star-rating.tsx:13 | in any row of stars drawn position by position, the full ones number the floor clamped to the row |
| `StarRating.HalfCount` | apps/frontend/components/book/star-rating.tsx:15 | in any such row there is one half star exactly when the rating has a fraction and its floor is a position of the row |
| `StarRating.StarCounts` | apps/frontend/components/book/star-rating.tsx:3-24 | floor(rating) clamped to 0 to 5 stars are full, at most one is half and none for a whole rating, and the kinds add up to five |
| `StarRating.CountsAddUp` | apps/frontend/components/book/star-rating.tsx:9-20 | every star is full, half or empty |
| `StarRating.ThreeAndAHalf` | apps/frontend/components/book/star-rating.tsx:3-24 | 3.5 shows three full stars, one half star and one empty star |
| `PublicBooksApi.Defaults` | apps/frontend/services/bookspublic.service.ts:4-9 | a missing parameter takes its default: no author, no date, rating 0, page 1, limit 12 |
| `PublicBooksApi.PublicSlots` | apps/frontend/services/bookspublic.service.ts:17-29 | page and limit are always appended first, then author, date and rating under their guards |
| `PublicBooksApi.PublicQuery` | apps/frontend/services/bookspublic.service.ts:17-31 | page and limit are always sent first (defaults 1 and 12), and the keys sent are among the five parameters, in order |
| `PublicBooksApi.FiltersSent` | apps/frontend/services/bookspublic.service.ts:21-29 | author and date are sent exactly when they are not blank, as given, and the rating exactly when positive, as its text |
| `PublicBooksApi.BlankAuthorOmitted` | apps/frontend/services/bookspublic.service.ts:21-23 | an author of white space only is not sent |
| `PublicBooksApi.AuthorUntrimmed` | apps/frontend/services/bookspublic.service.ts:21-23 | an author with blanks around it is sent with them |
| `PublicBooksApi.Outcome` | apps/frontend/services/bookspublic.service.ts:33-55 | the envelope is returned exactly when the response is ok and reports success; a non-ok status throws "HTTP <status>: Failed to fetch books", an unsuccessful envelope throws its message (or a fixed one when empty), and a network error is rethrown |
| `RouteGate.Gate` | apps/frontend/middleware.ts:4-16 | a path beginning with a public prefix passes; any other passes exactly when a non-empty access-token cookie is set, and otherwise is redirected to /login |
| `RouteGate.Guarded` | apps/frontend/middleware.ts:18-20 | a path outside the matcher is never gated, and one inside it meets the gate |
| `RouteGate.ApixPasses` | apps/frontend/middleware.ts:6-9 | "/apix" begins with "/api", so it passes without a cookie |
| `RouteGate.MatchedNeverPublic` | apps/frontend/middleware.ts:6-19 | no matched path begins with a public prefix, so a matched page without a cookie, or with an empty one, is redirected |
| `RouteGate.AnyTokenPasses` | apps/frontend/middleware.ts:11-15 | any non-empty token, valid or not, opens every page |
| `RouteGate.LoginNotGated` | apps/frontend/middleware.ts:18-20 | the login page is outside the matcher, so the redirect cannot loop |
| `AxiosRetry.OnError` | apps/frontend/lib/axios.ts:15-53 | anything but a 401 on a non-public request not yet retried is rejected as it came; without a visible refresh cookie it is rejected and the browser is sent to /login; otherwise one refresh is made, after which the marked request is reissued, or the refresh error is rejected with a redirect to /login |
| `AxiosRetry.SlashNeverRetried` | apps/frontend/lib/axios.ts:11-19 | every URL beginning with "/" counts as public, so its 401 is passed on as it came |
| `AxiosRetry.RetriedUrls` | apps/frontend/lib/axios.ts:19-21 | a retry only happens for a request with no URL or one not beginning with "/" |
| `AxiosRetry.AtMostOnce` | apps/frontend/lib/axios.ts:21-22 | a reissued request that fails again is rejected as it came: at most one retry |
| `AxiosRetry.NoDocumentNoRefresh` | apps/frontend/lib/axios.ts:25-34 | without a document no refresh is tried and the error is rejected as it came |
| `AxiosRetry.SingleRefreshCookie` | apps/frontend/lib/axios.ts:25-27 | a lone "refreshToken=" cookie with nothing to trim around it is seen |
| `AxiosRetry.TwoCookiesSeen` | apps/frontend/lib/axios.ts:25-27 | with two cookies `a; b`, a second one that trims to start with "refreshToken=" is seen, as in "theme=dark; refreshToken=…" |
| `BookFilter.Cleared` | apps/frontend/components/book/filter.tsx:22-28 | clearing sets no author, no date range and a minimum rating of 0 |
| `BookFilter.PickAuthorAsWritten` | apps/frontend/components/book/filter.tsx:79 | as written, the chosen author value is stored as it is and nothing else changes |
| `BookFilter.PickDateAsWritten` | apps/frontend/components/book/filter.tsx:102 | as written, the chosen date value is stored as it is and nothing else changes |
| `BookFilter.Unless` | apps/frontend/components/book/filter.tsx:85 | the "all" entry is read as no filter, and any other value is kept |
| `BookFilter.PickAuthor` | apps/frontend/components/book/filter.tsx:77-92 | only the author changes, and choosing "all" clears it |
| `BookFilter.PickDate` | apps/frontend/components/book/filter.tsx:100-114 | only the date range changes, and choosing "all" clears it |
| `BookFilter.Slide` | apps/frontend/components/book/filter.tsx:123-130 | only the minimum rating changes |
| `BookFilter.PickAgreesBesidesAll` | apps/frontend/components/book/filter.tsx:77-114 | the corrected selects differ from the written ones only on the "all" entry |
| `BookFilter.AllEntriesClear` | apps/frontend/components/book/filter.tsx:22-130 | choosing "all" in both selects and sliding back to 0 is a full clear |
| `BookFilter.SliderValues` | apps/frontend/components/book/filter.tsx:125-128 | 0, 2.5 and 5 are slider positions; 0.3 and 5.5 are not |
| `StringSort.Dedup` | apps/frontend/components/book/book-list.tsx:29-32 | duplicates are dropped: each string of the input appears exactly once |
| `StringSort.Insert` | apps/frontend/components/book/book-list.tsx:29-32 | insertion adds exactly the one string to the list |
| `StringSort.InsertSorted` | apps/frontend/components/book/book-list.tsx:29-32 | inserting into a sorted list keeps it sorted |
| `StringSort.InsertDistinct` | apps/frontend/components/book/book-list.tsx:29-32 | inserting a new string into a list without repeats keeps it without repeats |
| `StringSort.Sort` | apps/frontend/components/book/book-list.tsx:29-32 | the sorted list is a permutation of the input |
| `StringSort.SortSorted` | apps/frontend/components/book/book-list.tsx:29-32 | the sort orders the strings and keeps them distinct when they were |
| `StringSort.SortedUnique` | apps/frontend/components/book/book-list.tsx:29-32 | two sorted lists without repeats holding the same strings are equal |
| `BookList.ShownAsWritten` | apps/frontend/components/book/book-list.tsx:24-25 | as written, the page always shows no books and a total of 0 |
| `BookList.AsWrittenShowsNothing` | apps/frontend/components/book/book-list.tsx:24-26 | a reply with books and more than one page still shows none, a single page and no authors |
| `BookList.Shown` | apps/frontend/components/book/book-list.tsx:24-25 | corrected: the books and total of the envelope's data, and none before a reply |
| `BookList.ShownAuthorsFromReply` | apps/frontend/components/book/book-list.tsx:24-32 | with the corrected read, the author select offers exactly the authors of the page's books |
| `BookList.TotalPages` | apps/frontend/components/book/book-list.tsx:26 | at least one page, and for a positive total just enough pages of nine to hold every book |
| `BookList.TotalPagesExamples` | apps/frontend/components/book/book-list.tsx:18-26 | 0 and 9 books take one page, 10 take two and 27 take three |
| `BookList.Authors` | apps/frontend/components/book/book-list.tsx:29-32 | the author list is sorted, has no repeats, and names exactly the authors of the books |
| `BookList.AuthorsCanonical` | apps/frontend/components/book/book-list.tsx:29-32 | the author list is the only sorted list naming each author of the books once |
| `BookList.ActiveFiltersCount` | apps/frontend/components/book/book-list.tsx:33-39 | the badge counts 0 to 3 filters: 0 exactly when none is set, 3 exactly when all are |
| `BookList.ClearedCountsNone` | apps/frontend/components/book/filter.tsx:22-28 | after "Clear all" nothing counts as active |
| `BookList.AsWrittenAllAuthorsCounts` | apps/frontend/components/book/filter.tsx:79-85 | as written, choosing "All authors" or "All dates" counts as one active filter |
| `BookList.AllEntryNotCounted` | apps/frontend/components/book/filter.tsx:77-114 | corrected: choosing an "all" entry takes that field out of the count |
| `BookList.QueryArgsAsWritten` | apps/frontend/components/book/book-list.tsx:22 | as written, only the author and page 1 reach the service; date, rating and page size take their defaults |
| `BookList.AsWrittenDropsFilters` | apps/frontend/components/book/book-list.tsx:20-23 | as written, a date range and a minimum rating are never sent even though the badge counts them, and a limit of 12 is sent |
| `BookList.QueryArgs` | apps/frontend/components/book/book-list.tsx:22 | corrected: the date range goes as date, the minimum rating as rating and the page size as limit 10 |
| `BookList.CountedFiltersSent` | apps/frontend/components/book/book-list.tsx:20-39 | corrected: the first page of ten is asked for, each counted filter is sent, nothing else is, and the badge equals the number of filters sent |
| `BookList.PageIgnored` | apps/frontend/components/book/book-list.tsx:22 | the request does not depend on the page the user selected |
| `AuthForms.RegisterIssues` | apps/frontend/components/register-form.tsx:17-21 | a name shorter than 3 UTF-16 code units, an invalid e-mail and a password shorter than 6 each give their own message, and the form is valid exactly when none applies |
| `AuthForms.LoginIssues` | apps/frontend/components/login-form.tsx:17-20 | an invalid e-mail and a password shorter than 6 UTF-16 code units each give their own message, and the form is valid exactly when neither applies |
| `AuthForms.Send` | apps/frontend/components/register-form.tsx:33-51 | one request is sent, the shown error is cleared, and the router moves to the target exactly when the reply reports success |
| `AuthForms.RegisterSubmit` | apps/frontend/components/register-form.tsx:33-51 | an invalid form sends nothing and changes nothing; a valid one sends the registration, clears the error and goes to /login exactly on success |
| `AuthForms.LoginSubmit` | apps/frontend/components/login-form.tsx:32-50 | an invalid form sends nothing and changes nothing; a valid one sends the credentials, clears the error and goes to /dashboard exactly on success |
| `AuthForms.FailureIsSilent` | apps/frontend/components/login-form.tsx:32-50 | a failed or rejected login leaves the user on the form and never shows a server message |
| `AuthForms.RegisterStricter` | apps/frontend/components/register-form.tsx:17-21 | every e-mail and password the register form accepts the login form accepts too |
| `DataTable.FilterChange` | apps/frontend/components/data-table/data-table.tsx:90-99 | "all" or an empty value removes the key, any other value sets it, and every other key is untouched |
| `DataTable.ClearFilters` | apps/frontend/components/data-table/data-table.tsx:106-109 | the reset leaves no filter set |
| `DataTable.ClearedIsInactive` | apps/frontend/components/data-table/data-table.tsx:106-132 | after a reset the Reset button stays only while there is search text |
| `DataTable.FilterChangeKeepsChosen` | apps/frontend/components/data-table/data-table.tsx:90-109 | no filter map the table builds ever holds "all" or an empty value |
| `DataTable.SetThenAll` | apps/frontend/components/data-table/data-table.tsx:90-99 | setting a filter and then choosing "all" for it is the same as never having set it |
| `DataTable.Displayed` | apps/frontend/components/data-table/data-table.tsx:165-166 | a select with no chosen value shows "all" |
| `DataTable.DisplayedAll` | apps/frontend/components/data-table/data-table.tsx:165-166 | on maps the table builds, a select shows "all" exactly when its key is absent and otherwise the chosen value |
| `DataTable.PagerOf` | apps/frontend/components/data-table/data-table.tsx:293-321 | first and previous are disabled exactly on page 0, next and last exactly on or past the last page |
| `DataTable.EnabledButtonsStayInRange` | apps/frontend/components/data-table/data-table.tsx:293-321 | on an existing page every enabled button asks for an existing page |
| `DataTable.Showing` | apps/frontend/components/data-table/data-table.tsx:330-331 | the range starts after the earlier pages and ends at the page's end or the total, never past the total |
| `DataTable.EmptyTableRange` | apps/frontend/components/data-table/data-table.tsx:330-331 | an empty table reads "Showing 1 to 0 of 0" |
| `DataTable.ShowingWithinPage` | apps/frontend/components/data-table/data-table.tsx:330-331 | on a page that holds rows the range is non-empty and no longer than the page size |
| `DataTable.PageChange` | apps/frontend/components/data-table/books-table.tsx:383 | a page change moves only the page index |
| `DataTable.PageSizeChange` | apps/frontend/components/data-table/books-table.tsx:384-385 | a page-size change sets the size and goes back to the first page, nothing else |
| `DataTable.Fetched` | apps/frontend/components/data-table/books-table.tsx:121-125 | a fetch result changes only the page count and the total |
| `DataTable.SizeChangeOnFirstPage` | apps/frontend/components/data-table/data-table.tsx:293-303 | after a page-size change the table is on an existing page with first and previous disabled |
| `BooksTable.RatingNumber` | apps/frontend/components/data-table/books-table.tsx:51-57 | a blank rating is undefined; any other text becomes its JavaScript number, NaN when it is not one |
| `BooksTable.RatingIssues` | apps/frontend/components/data-table/books-table.tsx:51-57 | the rating is refused, with its one message, exactly when it is defined and not a number from 0 to 5 |
| `BooksTable.BookIssues` | apps/frontend/components/data-table/books-table.tsx:47-59 | an empty title, an empty author and a bad rating each give their own message, and there is none exactly when all three are fine |
| `BooksTable.BookSchema` | apps/frontend/components/data-table/books-table.tsx:47-59 | the form validates exactly when title, author and rating are fine; then it keeps the fields and the rating is the number written, from 0 to 5 |
| `BooksTable.BlankRatingIsZero` | apps/frontend/components/data-table/books-table.tsx:51-57 | a rating of only spaces is accepted as 0 |
| `BooksTable.IntegerRating` | apps/frontend/components/data-table/books-table.tsx:51-57 | a written integer is accepted exactly when it is from 0 to 5, and kept as that number |
| `BooksTable.NotANumberRefused` | apps/frontend/components/data-table/books-table.tsx:51-57 | text that is not a number is refused with the rating message |
| `BooksTable.Filter` | apps/frontend/components/data-table/books-table.tsx:115-117 | a filter is passed on exactly when it is set and non-empty, with its value |
| `BooksTable.FetchParams` | apps/frontend/components/data-table/books-table.tsx:109-117 | the request always carries the 1-based page, the page size and the user's id, and search, author, rating and date only when non-empty |
| `BooksTable.FetchQuery` | apps/frontend/components/data-table/books-table.tsx:106-119 | on a valid pager the server receives the 1-based page, the size, the uploader when logged in, the search when non-empty and each chosen filter |
| `BooksTable.FetchSettled` | apps/frontend/components/data-table/books-table.tsx:106-131 | a reply replaces the rows, page count and total; a failure keeps the table and shows "Failed to fetch books"; loading ends either way |
| `BooksTable.FetchKeepsPage` | apps/frontend/components/data-table/books-table.tsx:121-125 | a fetch never moves the page or the page size |
| `BooksTable.EditValues` | apps/frontend/components/data-table/books-table.tsx:133-141 | the edit form holds the book's title and author, its description or "", and its rating as text or "" |
| `BooksTable.EditPreview` | apps/frontend/components/data-table/books-table.tsx:142-144 | the preview is the stored thumbnail's address on the server, and none without a thumbnail |
| `BooksTable.PreviewMatchesCard` | apps/frontend/components/data-table/books-table.tsx:249-251 | the edit preview shows the same address as the table's thumbnail cell |
| `BooksTable.EditRoundTrip` | apps/frontend/components/data-table/books-table.tsx:133-141 | saving an untouched edit form of a book with a title, an author and no or an integer rating from 0 to 5 gives back the book's own data |
| `UsersTable.FetchParams` | apps/frontend/components/data-table/users-table.tsx:157-162 | the request carries the search, the e-mail status filter when set, the 1-based page and the page size, and never a role |
| `UsersTable.PickKeepsOffered` | apps/frontend/components/data-table/users-table.tsx:195-200 | picking any entry of the e-mail status select, "all" included, keeps only offered values in the filter map |
| `UsersTable.FetchQuery` | apps/frontend/components/data-table/users-table.tsx:154-162 | on a valid pager the server receives the 1-based page, the size, the search when non-empty, and an e-mail status of "true", "false" or none, none exactly when unset |
| `UsersTable.FetchSettled` | apps/frontend/components/data-table/users-table.tsx:154-175 | a reply replaces the rows, page count and total; a failure keeps the table; loading ends either way |
| `UsersTable.FetchKeepsPage` | apps/frontend/components/data-table/users-table.tsx:165-169 | a fetch never moves the page or the page size |

## Left out

- Database access: Prisma queries become functions over `Db.Store`, and where-clauses become predicates. Query planning, transactions and `Promise.all` are not modelled.
- Cryptography: bcrypt, SHA-256 (FIPS 180-4) and JWT signatures are abstract. bcrypt's salt is not modelled, so `bcrypt.compare` is equality with the hash of the given password.
- `randomBytes`, `Date.now()` and `new Date().getFullYear()`: these are parameters, not computed.
- E-mail delivery (utils/mailer.ts): only whether the mailer succeeds is a parameter. The mail that is handed over is recorded.
- The file system: the avatar upload treats stored files as a set of paths. `existsSync` and `unlinkSync` failures are not modelled.
- Wiring: app.ts, index.ts and the route files are not part of this model. This covers Express, CORS, static serving and the router tables.
- The shared `refreshPromise` of lib/axios.ts (lines 9 and 37-41): this deduplicates concurrent refreshes, which is a concurrency effect, so each handler call is modelled alone. The case of an error with no `config` is left out too.
- The search debounce timer of the data table: this is timing, not logic.
- React state, effects, rendering and JSX markup; react-query and SWR hooks. Only the state each handler computes is modelled.
- JavaScript numbers: they are `real` or `int`, with NaN as `None`. `Number()` reads only plain decimal notation; exponents, hexadecimal and `Infinity` are read as NaN. `toString` of a non-integer is the parameter `show`, and `toFixed(1)` and `toLocaleDateString` are not modelled.
- Decimal.ParseIntPrefix: `parseInt` is read in base 10 only, so a `0x` prefix gives 0 where JavaScript reads hexadecimal (16 for "0x10"). Through `|| fallback` in `BookController.IntOr`, such a page or limit takes the default. An exponent stops the digits as in JavaScript ("1e3" reads as 1).
- Request values: a query parameter is a string or absent, and a JSON body field is a string, absent, or (for the reset id) a number or null. Arrays and objects, which Express's query parser gives for a repeated key such as `?page=1&page=2` and `express.json()` can deliver in a body, are not modelled; a truthy array `email`, for instance, passes `if (!email)` and reaches the database.
- Db.IntId: ids are unbounded integers in the model. The database schema is not part of this model; if its ids are 32-bit `Int`, an id beyond that range makes the ORM throw a range error, and `PasswordController.IntegralId` and `PasswordController.ResetPassword` then answer with "Invalid or expired token" where the server would answer with that error's message.
- String comparison: `Array.prototype.sort` compares UTF-16 code units, and the model compares Unicode scalar values. The two orders differ only on characters outside the Basic Multilingual Plane.
- Text.Lower: only the ASCII letters A to Z are folded. JavaScript's `toLowerCase` and the database's case-insensitive match fold other letters too.
- Text.Upper: only the ASCII letters a to z are folded. JavaScript's `toUpperCase` folds other letters too, some into two characters ("ß" becomes "SS").
- BookController.Filter: `mode: insensitive` is modelled as ASCII-only case folding. For a search with letters outside ASCII the model can keep fewer books than PostgreSQL's `ILIKE`, which folds by the database's locale.
- UserService.GetUsers: the same ASCII-only folding stands in for `mode: "insensitive"` on names and e-mails, with the same gap for other letters.
- BookController.SortNewestFirst: books with the same `uploadedAt` keep their table order. The database promises no order among them, and `WindowBack` assumes it reads such ties in the same order from either end.
- Initials.Firsts: an initial is a word's whole first character. `charAt(0)` takes the first UTF-16 code unit, which for a character outside the Basic Multilingual Plane is half a surrogate pair; a Dafny `char` cannot hold that half, so the model does not produce it.
- Initials.GetUserInitials: upper-casing is ASCII only, and `substring(0, n)` is taken in characters, not UTF-16 code units. The bound of at most `maxInitials` characters therefore holds in the model, though JavaScript's result can be longer, for instance when `toUpperCase` turns "ß" into "SS".
- Zod's e-mail regular expression: it is the abstract predicate `isEmail`.
- The profile page's avatar preview (`FileReader`) and its remove-avatar request: both are browser effects.
- BookList: the page imports its service from services/books.service.ts, while the `BookService` class lives in services/bookspublic.service.ts. The model uses the `BookService.getBooks` of bookspublic.service.ts, which is evidently the intended callee.
- The uploader's details and the upload date of a book are carried as plain fields. Their formatting is not modelled.
- `signAccessToken` of token.service.ts: it is the abstract `Jwt.Sign` and is used only by the middleware round trip.

## Findings

| source | as written | input that shows it | evidently intended | confidence | as-written member | corrected member |
|---|---|---|---|---|---|---|
| apps/frontend/components/book/book-list.tsx:24-25 | reads `data?.books` and `data?.total` from the top level of the response envelope, where only `success`, `message`, `data` and `errors` exist | any successful reply, e.g. one book with a total of 10 | read `data.data.books` and `data.data.total`, so the page shows the books and total the server sent | not executed | `BookList.AsWrittenShowsNothing` | `BookList.ShownAuthorsFromReply` |
| apps/frontend/components/book/book-list.tsx:22 | passes `dateRange`, `minRating` and `perPage`, names `getBooks` does not read, so those filters are never sent and the limit is the default 12 | date range "week" and minimum rating 3: the request carries no date and no rating, and limit 12 | send them as `date`, `rating` and `limit`, so that the filters the badge counts are applied | not executed | `BookList.AsWrittenDropsFilters` | `BookList.CountedFiltersSent` |
| apps/frontend/components/book/filter.tsx:79-85 | the "All authors" entry (and the "All dates" entry at lines 102-108) stores the text "all" as the filter value | cleared filters, then choosing "All authors": the badge reads 1 active, and the author "all" is sent | treat "all" as no filter, as the dashboard's data table does | not executed | `BookList.AsWrittenAllAuthorsCounts` | `BookList.AllEntryNotCounted` |

=== FILE: auth_controller.dfy ===
/**
 * controllers/auth.controller.ts: the `register` and `login` handlers. The
 * handler registers by writing the user itself (it does not go through the
 * registration service, so no verification token is issued here). Zod's
 * e-mail check is the predicate `isEmail`; request fields that are absent
 * or not strings are `None`.
 */
module AuthController {
  import opened Wrappers
  import opened Db
  import opened Envelope
  import Jwt
  import AuthService
  import Effects
  import opened Text

  datatype RegisterBody = RegisterBody(name: Option<string>, email: Option<string>, password: Option<string>)

  datatype LoginBody = LoginBody(email: Option<string>, password: Option<string>)

  /** A field `z.string().min(n)` accepts; the length is in UTF-16 code units. */
  predicate AtLeast(field: Option<string>, n: nat) {
    field.Some? && Utf16Length(field.value) >= n
  }

  predicate EmailOk(field: Option<string>, isEmail: string -> bool) {
    field.Some? && isEmail(field.value)
  }

  /** The fields `registerSchema` rejects: name under 2, a bad e-mail, password under 6. */
  function RegisterIssues(b: RegisterBody, isEmail: string -> bool): (r: set<string>)
    ensures r <= {"name", "email", "password"}
    ensures r == {} <==> AtLeast(b.name, 2) && EmailOk(b.email, isEmail) && AtLeast(b.password, 6)
  {
    (if AtLeast(b.name, 2) then {} else {"name"})
    + (if EmailOk(b.email, isEmail) then {} else {"email"})
    + (if AtLeast(b.password, 6) then {} else {"password"})
  }

  /** The fields `loginSchema` rejects: a bad e-mail, password under 6. */
  function LoginIssues(b: LoginBody, isEmail: string -> bool): (r: set<string>)
    ensures r <= {"email", "password"}
    ensures r == {} <==> EmailOk(b.email, isEmail) && AtLeast(b.password, 6)
  {
    (if EmailOk(b.email, isEmail) then {} else {"email"})
    + (if AtLeast(b.password, 6) then {} else {"password"})
  }

  /** A single character outside the Basic Multilingual Plane is a name of length 2, as Zod counts it. */
  lemma AstralNameCountsTwo(email: Option<string>, password: Option<string>, isEmail: string -> bool)
    ensures "name" !in RegisterIssues(RegisterBody(Some("\U{1D49C}"), email, password), isEmail)
  {
  }

  /**
   * `register(req, res)`: 400 with the failing fields, 500 "Email already
   * exists" whenever the insert fails, 201 with only id and e-mail.
   * Nothing is written unless the answer is 201.
   */
  function Register(s: Store, b: RegisterBody, isEmail: string -> bool, now: int): (r: (Store, Response))
    ensures r.1.status in {400, 500, 201}
    ensures r.1.status == 400 <==> RegisterIssues(b, isEmail) != {}
    ensures r.1.status == 400 ==>
      r.1.body == Error("Validation failed", Value(ValidationIssues(RegisterIssues(b, isEmail))))
    ensures r.1.status != 201 ==> r.0 == s
    ensures r.1.status == 500 ==> r.1.body == Error("Email already exists", Undefined)
    ensures r.1.status == 500 <==> RegisterIssues(b, isEmail) == {} && UserByEmail(s.users, b.email.value).Some?
    ensures r.1.status == 201 ==>
      && r.0 == s.(users := s.users + [User(s.nextId, b.name.value, b.email.value, Bcrypt(b.password.value), None, None, now)],
                   nextId := s.nextId + 1)
      && r.1.body == Success("User registered successfully", Value(NewUser(s.nextId, b.email.value)))
  {
    var issues := RegisterIssues(b, isEmail);
    if issues != {} then (s, Response(400, Error("Validation failed", Value(ValidationIssues(issues)))))
    else
      match CreateUser(s, b.name.value, b.email.value, Bcrypt(b.password.value), now)
      case Err(_) => (s, Response(500, Error("Email already exists", Undefined)))
      case Ok((s1, u)) => (s1, Response(201, Success("User registered successfully", Value(NewUser(u.id, u.email)))))
  }

  /**
   * `login(req, res)`: 400 with the failing fields; 401 "Invalid
   * credentials" for an unknown address and for a wrong password alike;
   * otherwise 200 with a 15-minute token whose subject is the numeric id,
   * signed with the JWT_SECRET key `loginKey`.
   */
  function Login(s: Store, b: LoginBody, isEmail: string -> bool, loginKey: string, nowMs: int): (r: Response)
    ensures r.status in {400, 401, 200}
    ensures r.status == 400 <==> LoginIssues(b, isEmail) != {}
    ensures r.status == 401 ==> r.body == Error("Invalid credentials", Undefined)
    ensures r.status == 200 <==>
      && LoginIssues(b, isEmail) == {}
      && UserByEmail(s.users, b.email.value).Some?
      && UserByEmail(s.users, b.email.value).value.password == Bcrypt(b.password.value)
    ensures r.status == 200 ==>
      r.body == Success("Login successful", Value(AccessToken(
        Jwt.Sign(Jwt.NumClaim(UserByEmail(s.users, b.email.value).value.id), loginKey, nowMs, Jwt.AccessTtlSeconds))))
  {
    var issues := LoginIssues(b, isEmail);
    if issues != {} then Response(400, Error("Validation failed", Value(ValidationIssues(issues))))
    else
      match UserByEmail(s.users, b.email.value)
      case None => Response(401, Error("Invalid credentials", Undefined))
      case Some(u) =>
        if u.password != Bcrypt(b.password.value) then Response(401, Error("Invalid credentials", Undefined))
        else Response(200, Success("Login successful", Value(AccessToken(
          Jwt.Sign(Jwt.NumClaim(u.id), loginKey, nowMs, Jwt.AccessTtlSeconds)))))
  }

  /**
   * The same duplicate address is refused with 409 by the registration
   * service but answered with 500 by this handler.
   */
  lemma DuplicateStatusDiffers(s: Store, b: RegisterBody, isEmail: string -> bool, now: int,
                               token: string, year: int, env: Effects.Env, mailOk: bool)
    requires RegisterIssues(b, isEmail) == {} && UserByEmail(s.users, b.email.value).Some?
    ensures Register(s, b, isEmail, now) == (s, Response(500, Error("Email already exists", Undefined)))
    ensures AuthService.RegisterUser(s, b.name.value, b.email.value, b.password.value, token, now, year, env, mailOk).result
      == Err(Effects.Thrown(Some(409), "Email already exists"))
  {
  }

  /**
   * No account enumeration: for a well-formed body, an address nobody has
   * and a known address with the wrong password get the same response.
   */
  lemma NoEnumeration(s1: Store, s2: Store, b: LoginBody, isEmail: string -> bool, key: string, nowMs: int)
    requires LoginIssues(b, isEmail) == {}
    requires UserByEmail(s1.users, b.email.value).None?
    requires UserByEmail(s2.users, b.email.value).Some?
    requires UserByEmail(s2.users, b.email.value).value.password != Bcrypt(b.password.value)
    ensures Login(s1, b, isEmail, key, nowMs) == Login(s2, b, isEmail, key, nowMs)
  {
  }

  /**
   * A registered user logs in with the password they registered with, and
   * the token verifies under the login key for the next 15 minutes only.
   */
  lemma RegisterThenLogin(s: Store, b: RegisterBody, isEmail: string -> bool, now: int,
                          key: string, nowMs: int, laterMs: int)
    requires Register(s, b, isEmail, now).1.status == 201
    ensures var s1 := Register(s, b, isEmail, now).0;
      var r := Login(s1, LoginBody(b.email, b.password), isEmail, key, nowMs);
      && r.status == 200
      && r.body.data.v.token.claims.sub == Jwt.NumClaim(s.nextId)
      && (Jwt.Verify(r.body.data.v.token, key, laterMs).Some? <==>
            Jwt.Seconds(laterMs) < Jwt.Seconds(nowMs) + Jwt.AccessTtlSeconds)
  {
    var u := User(s.nextId, b.name.value, b.email.value, Bcrypt(b.password.value), None, None, now);
    UserByEmailAppend(s.users, u);
  }
}

=== FILE: auth_forms.dfy ===
/**
 * The register and login forms (components/register-form.tsx,
 * components/login-form.tsx): their schemas and what a submit does. The
 * request is not awaited inside the `try`, so its rejection never reaches
 * the `catch`: the server error is only ever cleared.
 */
module AuthForms {
  import opened Wrappers
  import opened FormSchema
  import opened Text

  datatype RegisterValues = RegisterValues(name: string, email: string, password: string)

  datatype LoginValues = LoginValues(email: string, password: string)

  /** The schema of the register form. */
  function RegisterIssues(v: RegisterValues, isEmail: string -> bool): (r: seq<Issue>)
    ensures Issue("name", "Name minimal 3 karakter") in r <==> Utf16Length(v.name) < 3
    ensures Issue("email", "Email tidak valid") in r <==> !isEmail(v.email)
    ensures Issue("password", "Password minimal 6 karakter") in r <==> Utf16Length(v.password) < 6
    ensures r == [] <==> Utf16Length(v.name) >= 3 && isEmail(v.email) && Utf16Length(v.password) >= 6
  {
    MinLength("name", v.name, 3, "Name minimal 3 karakter")
    + EmailField("email", v.email, isEmail, "Email tidak valid")
    + MinLength("password", v.password, 6, "Password minimal 6 karakter")
  }

  /** The schema of the login form. */
  function LoginIssues(v: LoginValues, isEmail: string -> bool): (r: seq<Issue>)
    ensures Issue("email", "Email tidak valid") in r <==> !isEmail(v.email)
    ensures Issue("password", "Password minimal 6 karakter") in r <==> Utf16Length(v.password) < 6
    ensures r == [] <==> isEmail(v.email) && Utf16Length(v.password) >= 6
  {
    EmailField("email", v.email, isEmail, "Email tidak valid")
    + MinLength("password", v.password, 6, "Password minimal 6 karakter")
  }

  /** The request a form sends. */
  datatype Request = RegisterRequest(name: string, email: string, password: string)
                   | LoginRequest(email: string, password: string)

  /** How the request's promise settled: with a body carrying `success`, or rejected. */
  datatype Reply = Resolved(success: bool) | Rejected

  /** After a submit: the requests sent, the server error shown and where the router went. */
  datatype Submitted = Submitted(requests: seq<Request>, serverError: string, navigate: Option<string>)

  /** The common tail of both handlers: one request, the error cleared, navigation on success only. */
  function Send(req: Request, reply: Reply, target: string): (r: Submitted)
    ensures r.requests == [req] && r.serverError == ""
    ensures r.navigate.Some? <==> reply == Resolved(true)
    ensures r.navigate.Some? ==> r.navigate.value == target
  {
    Submitted([req], "", if reply == Resolved(true) then Some(target) else None)
  }

  /** `form.handleSubmit(onSubmit)` of the register form, `serverError` the error shown before. */
  function RegisterSubmit(v: RegisterValues, isEmail: string -> bool, serverError: string, reply: Reply): (r: Submitted)
    ensures RegisterIssues(v, isEmail) != [] ==> r == Submitted([], serverError, None)
    ensures RegisterIssues(v, isEmail) == [] ==>
      && r.requests == [RegisterRequest(v.name, v.email, v.password)]
      && r.serverError == ""
      && (r.navigate == Some("/login") <==> reply == Resolved(true))
    ensures r.navigate.Some? ==> r.navigate == Some("/login")
  {
    if RegisterIssues(v, isEmail) != [] then Submitted([], serverError, None)
    else Send(RegisterRequest(v.name, v.email, v.password), reply, "/login")
  }

  /** `form.handleSubmit(onSubmit)` of the login form. */
  function LoginSubmit(v: LoginValues, isEmail: string -> bool, serverError: string, reply: Reply): (r: Submitted)
    ensures LoginIssues(v, isEmail) != [] ==> r == Submitted([], serverError, None)
    ensures LoginIssues(v, isEmail) == [] ==>
      && r.requests == [LoginRequest(v.email, v.password)]
      && r.serverError == ""
      && (r.navigate == Some("/dashboard") <==> reply == Resolved(true))
    ensures r.navigate.Some? ==> r.navigate == Some("/dashboard")
  {
    if LoginIssues(v, isEmail) != [] then Submitted([], serverError, None)
    else Send(LoginRequest(v.email, v.password), reply, "/dashboard")
  }

  /** A rejected or unsuccessful request leaves the user on the form with no error message. */
  lemma FailureIsSilent(v: LoginValues, isEmail: string -> bool, serverError: string, reply: Reply)
    requires reply != Resolved(true)
    ensures var r := LoginSubmit(v, isEmail, serverError, reply);
      r.navigate.None? && (r.serverError == "" || r.serverError == serverError)
  {
  }

  /** Any form that registers also logs in: the register schema is the stricter one. */
  lemma RegisterStricter(v: RegisterValues, isEmail: string -> bool)
    requires RegisterIssues(v, isEmail) == []
    ensures LoginIssues(LoginValues(v.email, v.password), isEmail) == []
  {
  }
}

=== FILE: auth_middleware.dfy ===
/**
 * middlewares/auth.middleware.ts: `requireAuth` either answers 401 or
 * passes the request on with the caller's id taken from the access token.
 */
module AuthMiddleware {
  import opened Wrappers
  import opened Envelope
  import Jwt
  import Decimal

  /** Exactly one of: a 401 response, or `next()` with `req.user.id` (None is NaN). */
  datatype Decision = Reject(response: Response) | Next(userId: Option<real>)

  const Unauthorized := Response(401, Error("Unauthorized", Undefined))

  /** `Number(decoded.sub)`. */
  function SubjectNumber(c: Jwt.Claim): (r: Option<real>)
    ensures c.NumClaim? ==> r == Some(c.n as real)
    ensures c.StrClaim? ==> r == Decimal.ParseNumber(c.s)
  {
    match c
    case NumClaim(n) => Some(n as real)
    case StrClaim(s) => Decimal.ParseNumber(s)
  }

  /**
   * `requireAuth(req, res, next)` with the request's cookies and the
   * JWT_ACCESS_SECRET key `accessKey`: no (or an empty) `accessToken`
   * cookie, or a token that does not verify, is rejected with 401.
   */
  function RequireAuth(cookies: map<string, Jwt.Token>, accessKey: string, nowMs: int): (r: Decision)
    ensures r.Reject? ==> r.response == Unauthorized
    ensures ("accessToken" !in cookies || Jwt.Falsy(cookies["accessToken"])) ==> r.Reject?
    ensures r.Next? <==>
      && "accessToken" in cookies
      && Jwt.Verify(cookies["accessToken"], accessKey, nowMs).Some?
    ensures r.Next? ==> r.userId == SubjectNumber(cookies["accessToken"].claims.sub)
  {
    if "accessToken" !in cookies || Jwt.Falsy(cookies["accessToken"]) then Reject(Unauthorized)
    else
      match Jwt.Verify(cookies["accessToken"], accessKey, nowMs)
      case None => Reject(Unauthorized)
      case Some(claims) => Next(SubjectNumber(claims.sub))
  }

  /**
   * Round trip: a token from `signAccessToken(id)` (subject `String(id)`)
   * lets its holder through as user `id` until it expires, and is refused
   * afterwards.
   */
  lemma SignedAccessTokenAdmits(id: int, key: string, signedAt: int, nowMs: int)
    ensures var r := RequireAuth(map["accessToken" := Jwt.SignAccessToken(id, key, signedAt)], key, nowMs);
      && (r.Next? <==> Jwt.Seconds(nowMs) < Jwt.Seconds(signedAt) + Jwt.AccessTtlSeconds)
      && (r.Next? ==> r.userId == Some(id as real))
  {
    Decimal.NumberOfIntToString(id);
  }

  /** A login token (subject the numeric id) is accepted only if both secrets are the same key. */
  lemma LoginTokenNeedsSameKey(id: int, loginKey: string, accessKey: string, signedAt: int, nowMs: int)
    requires Jwt.Seconds(nowMs) < Jwt.Seconds(signedAt) + Jwt.AccessTtlSeconds
    ensures var r := RequireAuth(map["accessToken" := Jwt.Sign(Jwt.NumClaim(id), loginKey, signedAt, Jwt.AccessTtlSeconds)],
                                 accessKey, nowMs);
      && (r.Next? <==> loginKey == accessKey)
      && (r.Next? ==> r.userId == Some(id as real))
  {
  }
}

=== FILE: auth_service.dfy ===
/**
 * services/auth.service.ts: registration with an e-mail verification
 * token, and redemption of that token. The fresh random token, the clock,
 * the year printed in the e-mail, the environment and whether the mailer
 * delivers are parameters.
 */
module AuthService {
  import opened Wrappers
  import opened Db
  import opened Effects
  import Decimal
  import EmailTemplate

  /** A verification token lives 24 hours. */
  const VerificationTtlMs: nat := 24 * 60 * 60 * 1000

  /** The user as the service hands it back: id, e-mail and name only. */
  datatype PublicUser = PublicUser(id: nat, email: string, name: string)

  /** `verifyToken` is present only outside production. */
  datatype Registration = Registration(user: PublicUser, verifyToken: Option<string>)

  /** The link in the verification e-mail. */
  function VerifyUrl(env: Env, token: string, id: nat): string {
    EnvText(env.frontendUrl) + "/api/auth/verify-email?token=" + token + "&id=" + Decimal.NatToString(id)
  }

  function VerificationMail(to: string, url: string, year: int): Mail {
    Mail(to, "Please verify your email", "Click to verify: " + url,
      Templated(EmailTemplate.Letter(
        "Please verify your email", "Hi there!",
        "Thank you for signing up. Please " + "verify your email to activate your " + "account.",
        Some("Verify Email"), Some(url), year)))
  }

  /**
   * `registerUser({ name, email, password })` with `token` standing for
   * `randomBytes(32)` in hex. A taken address throws with status 409 before
   * any write. Otherwise the user (with the bcrypt of the password) and a
   * verification row (with the sha256 of the token) are written, and then
   * the e-mail is sent; a mailer failure is thrown with both writes kept.
   */
  function RegisterUser(s: Store, name: string, email: string, password: string,
                        token: string, now: int, year: int, env: Env, mailOk: bool)
    : (r: Step<Registration>)
    ensures UserByEmail(s.users, email).Some? ==>
      r == Step(s, Err(Thrown(Some(409), "Email already exists")), [])
    ensures UserByEmail(s.users, email).None? ==>
      && UserByEmail(r.store.users, email) == Some(User(s.nextId, name, email, Bcrypt(password), None, None, now))
      && |r.store.users| == |s.users| + 1 && r.store.users[..|s.users|] == s.users
      && r.store.verifications == s.verifications + [TokenRow(s.nextId + 1, s.nextId, Sha256(token), now + VerificationTtlMs)]
      && r.store.resets == s.resets && r.store.refreshTokens == s.refreshTokens && r.store.books == s.books
      && r.store.nextId == s.nextId + 2
      && r.mails == (if mailOk then [VerificationMail(email, VerifyUrl(env, token, s.nextId), year)] else [])
      && (r.result.Ok? <==> mailOk)
      && (r.result.Err? ==> r.result.error == MailerFailed)
      && (r.result.Ok? ==>
            r.result.value == Registration(PublicUser(s.nextId, email, name),
                                           if env.production then None else Some(token)))
  {
    match CreateUser(s, name, email, Bcrypt(password), now)
    case Err(_) => Step(s, Err(Thrown(Some(409), "Email already exists")), [])
    case Ok((s1, u)) =>
      UserByEmailAppend(s.users, u);
      var row := NewRow(s1, u.id, Sha256(token), now + VerificationTtlMs);
      var s2 := s1.(verifications := s1.verifications + [row], nextId := s1.nextId + 1);
      var url := VerifyUrl(env, token, u.id);
      if !mailOk then Step(s2, Err(MailerFailed), [])
      else
        var payload := PublicUser(u.id, u.email, u.name);
        Step(s2, Ok(Registration(payload, if env.production then None else Some(token))),
             [VerificationMail(u.email, url, year)])
  }

  /**
   * `verifyEmail({ id, token })`: the first verification row of user `id`
   * whose hash is the token's. No such row, or one that expired before
   * `now`, is rejected with status 400 and nothing changes; otherwise the
   * user is stamped as verified at `now` and the row deleted.
   */
  function VerifyEmail(s: Store, id: int, token: string, now: int): (r: Step<bool>)
    ensures r.mails == []
    ensures FindRow(s.verifications, id, Sha256(token)).None? ==>
      r == Step(s, Err(Thrown(Some(400), "Invalid verification token")), [])
    ensures FindRow(s.verifications, id, Sha256(token)).Some? &&
            FindRow(s.verifications, id, Sha256(token)).value.expiresAt < now ==>
      r == Step(s, Err(Thrown(Some(400), "Verification token expired")), [])
    ensures r.result.Ok? <==>
      && FindRow(s.verifications, id, Sha256(token)).Some?
      && FindRow(s.verifications, id, Sha256(token)).value.expiresAt >= now
      && UserById(s.users, id).Some?
    ensures r.result.Ok? ==>
      var rec := FindRow(s.verifications, id, Sha256(token)).value;
      var u := UserById(s.users, id).value;
      && r.store.users == ReplaceUser(s.users, u.(emailVerified := Some(now)))
      && (forall x :: x in r.store.verifications <==> x in s.verifications && x.id != rec.id)
      && r.store.resets == s.resets && r.store.refreshTokens == s.refreshTokens
      && r.store.books == s.books && r.store.nextId == s.nextId
  {
    match FindRow(s.verifications, id, Sha256(token))
    case None => Step(s, Err(Thrown(Some(400), "Invalid verification token")), [])
    case Some(rec) =>
      if rec.expiresAt < now then Step(s, Err(Thrown(Some(400), "Verification token expired")), [])
      else
        match UpdateUser(s, id, (u: User) => u.(emailVerified := Some(now)))
        case Err(e) => Step(s, Err(Orm(e)), [])
        case Ok((s1, _)) => Step(s1.(verifications := DeleteRow(s1.verifications, rec.id)), Ok(true), [])
  }

  /** Registration keeps the store's ids and addresses unique. */
  lemma RegisterKeepsValid(s: Store, name: string, email: string, password: string,
                           token: string, now: int, year: int, env: Env, mailOk: bool)
    requires Valid(s)
    ensures Valid(RegisterUser(s, name, email, password, token, now, year, env, mailOk).store)
  {
    if UserByEmail(s.users, email).None? {
      CreateUserKeepsValid(s, name, email, Bcrypt(password), now);
      var s1 := CreateUser(s, name, email, Bcrypt(password), now).value.0;
      AddVerificationKeepsValid(s1, TokenRow(s.nextId + 1, s.nextId, Sha256(token), now + VerificationTtlMs));
      RegisteredStore(s, name, email, password, token, now, year, env, mailOk);
    }
  }

  /**
   * After registering a new address the new user has exactly one
   * verification row, holding the token's hash and expiring 24 hours on.
   */
  lemma RegisterCreatesOneRow(s: Store, name: string, email: string, password: string,
                              token: string, now: int, year: int, env: Env, mailOk: bool)
    requires Valid(s) && UserByEmail(s.users, email).None?
    ensures var r := RegisterUser(s, name, email, password, token, now, year, env, mailOk);
      forall x :: x in r.store.verifications && x.userId == s.nextId <==>
        x == TokenRow(s.nextId + 1, s.nextId, Sha256(token), now + VerificationTtlMs)
  {
  }

  /**
   * A token whose rows all belong to user `owner` is rejected for any other
   * user id: one user's token cannot verify another's address.
   */
  lemma OtherUsersTokenRejected(s: Store, owner: nat, id: int, token: string, now: int)
    requires forall x :: x in s.verifications && x.tokenHash == Sha256(token) ==> x.userId == owner
    requires id != owner
    ensures VerifyEmail(s, id, token, now) == Step(s, Err(Thrown(Some(400), "Invalid verification token")), [])
  {
  }

  /**
   * Single use: once a token has been redeemed, redeeming it again (at any
   * time) is rejected, provided no other row carries the same hash.
   */
  lemma VerifyEmailSingleUse(s: Store, id: int, token: string, now: int, later: int)
    requires HashOnce(s.verifications, Sha256(token))
    requires VerifyEmail(s, id, token, now).result.Ok?
    ensures var s' := VerifyEmail(s, id, token, now).store;
      VerifyEmail(s', id, token, later).result == Err(Thrown(Some(400), "Invalid verification token"))
  {
    var rec := FindRow(s.verifications, id, Sha256(token)).value;
    DeleteOnlyRow(s.verifications, rec);
  }

  /** The store after registering a new address, written out. */
  lemma RegisteredStore(s: Store, name: string, email: string, password: string,
                        token: string, now: int, year: int, env: Env, mailOk: bool)
    requires UserByEmail(s.users, email).None?
    ensures RegisterUser(s, name, email, password, token, now, year, env, mailOk).store ==
      s.(users := s.users + [User(s.nextId, name, email, Bcrypt(password), None, None, now)],
         verifications := s.verifications + [TokenRow(s.nextId + 1, s.nextId, Sha256(token), now + VerificationTtlMs)],
         nextId := s.nextId + 2)
  {
  }

  /**
   * The happy path end to end: the token mailed at registration verifies
   * the new user at any time up to and including its expiry.
   */
  lemma RegisterThenVerify(s: Store, name: string, email: string, password: string,
                           token: string, now: int, year: int, env: Env, mailOk: bool, later: int)
    requires Valid(s) && UserByEmail(s.users, email).None?
    requires later <= now + VerificationTtlMs
    ensures var s1 := RegisterUser(s, name, email, password, token, now, year, env, mailOk).store;
      var r := VerifyEmail(s1, s.nextId, token, later);
      && r.result == Ok(true)
      && UserById(r.store.users, s.nextId).Some?
      && UserById(r.store.users, s.nextId).value.emailVerified == Some(later)
  {
    RegisteredStore(s, name, email, password, token, now, year, env, mailOk);
    var u := User(s.nextId, name, email, Bcrypt(password), None, None, now);
    var row := TokenRow(s.nextId + 1, s.nextId, Sha256(token), now + VerificationTtlMs);
    var s1 := s.(users := s.users + [u], verifications := s.verifications + [row], nextId := s.nextId + 2);
    VerifyNewUser(s, s1, u, row, token, later);
  }

  lemma VerifyNewUser(s: Store, s1: Store, u: User, row: TokenRow, token: string, later: int)
    requires Valid(s) && u.id == s.nextId
    requires row == TokenRow(s.nextId + 1, s.nextId, Sha256(token), row.expiresAt) && later <= row.expiresAt
    requires s1 == s.(users := s.users + [u], verifications := s.verifications + [row], nextId := s.nextId + 2)
    ensures var r := VerifyEmail(s1, s.nextId, token, later);
      && r.result == Ok(true)
      && UserById(r.store.users, s.nextId).Some?
      && UserById(r.store.users, s.nextId).value.emailVerified == Some(later)
  {
    FindRowAppend(s.verifications, row, s.nextId, Sha256(token));
    UserByIdAppend(s.users, u, s.nextId);
    UserByIdReplace(s1.users, u.(emailVerified := Some(later)), s.nextId);
  }
}

=== FILE: axios_retry.dfy ===
/**
 * lib/axios.ts: the response interceptor's handling of a failed request.
 * A 401 on a non-public request not yet retried marks the request, then
 * refreshes the session and reissues it, unless no `refreshToken` cookie
 * is visible. Everything else is rejected with the error as it came.
 * The refresh outcome is a parameter; the shared in-flight refresh
 * promise is not modelled.
 */
module AxiosRetry {
  import opened Wrappers
  import opened Text

  const PublicPaths := ["/", "/auth/login", "/auth/register", "/auth/refresh"]

  /** A request's config: its URL, if any, and the `_retry` mark. */
  datatype Request = Request(url: Option<string>, retried: bool)

  /** Where the handler runs: `document.cookie` when there is a document, and whether there is a window. */
  datatype Page = Page(cookie: Option<string>, hasWindow: bool)

  /** How the interceptor's promise settles. */
  datatype Settled<E> = Reissued(request: Request) | Rejected(error: E)

  /** The interceptor's effect: the settlement, whether it sent the browser to /login, and the refresh calls. */
  datatype Handled<E> = Handled(settled: Settled<E>, toLogin: bool, refreshCalls: nat)

  /** `publicPaths.some(p => url?.startsWith(p))`: an absent URL is not public. */
  predicate IsPublic(url: Option<string>) {
    url.Some? && StartsWithAny(url.value, PublicPaths)
  }

  /** The condition for a retry. */
  predicate Retries(status: Option<int>, req: Request) {
    status == Some(401) && !IsPublic(req.url) && !req.retried
  }

  /** Some `;`-separated cookie, trimmed, starts with "refreshToken=". */
  predicate HasRefreshCookie(page: Page) {
    page.cookie.Some? &&
    var parts := Split(page.cookie.value, ';');
    exists i :: 0 <= i < |parts| && StartsWith(Trim(parts[i]), "refreshToken=")
  }

  /**
   * The error handler, `refresh` the outcome of posting to
   * /auth/refresh-token (`Err` carries the refresh error).
   */
  function OnError<E>(err: E, status: Option<int>, req: Request, page: Page, refresh: Result<(), E>): (r: Handled<E>)
    ensures !Retries(status, req) ==> r == Handled(Rejected(err), false, 0)
    ensures Retries(status, req) && !HasRefreshCookie(page) ==>
      r == Handled(Rejected(err), page.hasWindow, 0)
    ensures Retries(status, req) && HasRefreshCookie(page) ==> (r.refreshCalls == 1
      && (refresh.Ok? ==> r.settled == Reissued(req.(retried := true)) && !r.toLogin)
      && (refresh.Err? ==> r.settled == Rejected(refresh.error) && r.toLogin == page.hasWindow))
    ensures r.settled.Reissued? ==> r.settled.request.retried
  {
    if !Retries(status, req) then Handled(Rejected(err), false, 0)
    else
      var marked := req.(retried := true);
      if !HasRefreshCookie(page) then Handled(Rejected(err), page.hasWindow, 0)
      else if refresh.Ok? then Handled(Reissued(marked), false, 1)
      else Handled(Rejected(refresh.error), page.hasWindow, 1)
  }

  /** Every URL beginning with "/" counts as public, so its 401 is passed on as it is. */
  lemma SlashNeverRetried<E>(err: E, status: Option<int>, req: Request, page: Page, refresh: Result<(), E>)
    requires req.url.Some? && StartsWith(req.url.value, "/")
    ensures IsPublic(req.url)
    ensures OnError(err, status, req, page, refresh) == Handled(Rejected(err), false, 0)
  {
    assert StartsWith(req.url.value, PublicPaths[0]);
  }

  /** A retry can only happen for a request with no URL or one not beginning with "/". */
  lemma RetriedUrls<E>(err: E, status: Option<int>, req: Request, page: Page, refresh: Result<(), E>)
    requires OnError(err, status, req, page, refresh).settled.Reissued?
    ensures req.url.None? || !StartsWith(req.url.value, "/")
  {
    if req.url.Some? && StartsWith(req.url.value, "/") {
      SlashNeverRetried(err, status, req, page, refresh);
    }
  }

  /** A reissued request that fails again is rejected as it is: at most one retry. */
  lemma AtMostOnce<E>(err: E, err2: E, status: Option<int>, status2: Option<int>, req: Request,
                      page: Page, refresh: Result<(), E>, refresh2: Result<(), E>)
    requires OnError(err, status, req, page, refresh).settled.Reissued?
    ensures var again := OnError(err, status, req, page, refresh).settled.request;
      OnError(err2, status2, again, page, refresh2) == Handled(Rejected(err2), false, 0)
  {
  }

  /** Without a document there is no cookie to see, so no refresh is tried. */
  lemma NoDocumentNoRefresh<E>(err: E, status: Option<int>, req: Request, hasWindow: bool, refresh: Result<(), E>)
    ensures OnError(err, status, req, Page(None, hasWindow), refresh).refreshCalls == 0
    ensures OnError(err, status, req, Page(None, hasWindow), refresh).settled == Rejected(err)
  {
  }

  /** A lone `refreshToken=` cookie, with nothing around it to trim, is seen. */
  lemma SingleRefreshCookie(cookie: string, hasWindow: bool)
    requires ';' !in cookie && StartsWith(cookie, "refreshToken=") && !IsWs(cookie[|cookie| - 1])
    ensures HasRefreshCookie(Page(Some(cookie), hasWindow))
  {
    SplitWithoutSep(cookie, ';', []);
    assert [] + cookie == cookie;
    assert cookie[0] == 'r';
    TrimNoWsEnds(cookie);
    var parts := Split(cookie, ';');
    assert parts[0] == cookie;
  }

  /** The usual `document.cookie` of several cookies: a `refreshToken=` after another one is seen. */
  lemma TwoCookiesSeen(a: string, b: string, hasWindow: bool)
    requires ';' !in a && ';' !in b && StartsWith(Trim(b), "refreshToken=")
    ensures HasRefreshCookie(Page(Some(a + ";" + b), hasWindow))
  {
    var cookie := a + ";" + b;
    assert cookie == a + [';'] + b;
    SplitPrefix(a, b, ';', []);
    SplitWithoutSep(b, ';', []);
    assert [] + a == a && [] + b == b;
    var parts := Split(cookie, ';');
    assert parts == [a, b];
    assert StartsWith(Trim(parts[1]), "refreshToken=");
  }
}

=== FILE: book_card.dfy ===
/**
 * components/book/book-card.tsx: the cover image of a book card and its
 * five rating stars, filled below `Math.floor(rating)`. The API base is
 * NEXT_PUBLIC_API_URL, `None` when unset.
 */
module BookCard {
  import opened Wrappers
  import opened Text
  import StarRating

  const Placeholder := "https://placehold.co/" + "400x600.png?text=No+Image"

  /**
   * `NEXT_PUBLIC_API_URL?.replace("/api", "")` in a template: the base with
   * its first "/api" removed, or the text "undefined" when unset.
   */
  function ServerBase(apiUrl: Option<string>): (r: string)
    ensures apiUrl.None? ==> r == "undefined"
    ensures apiUrl.Some? && IndexOf(apiUrl.value, "/api") == -1 ==> r == apiUrl.value
    ensures apiUrl.Some? && IndexOf(apiUrl.value, "/api") >= 0 ==>
      var i := IndexOf(apiUrl.value, "/api");
      r == apiUrl.value[..i] + apiUrl.value[i + 4..]
  {
    if apiUrl.None? then "undefined" else ReplaceFirst(apiUrl.value, "/api", "")
  }

  /** The server base followed by an uploaded file's path. */
  function AssetUrl(apiUrl: Option<string>, path: string): string {
    ServerBase(apiUrl) + path
  }

  /** `imageUrl`: the uploaded thumbnail when there is one, else the placeholder. */
  function ImageUrl(apiUrl: Option<string>, thumbnail: Option<string>): (r: string)
    ensures !Given(thumbnail) ==> r == Placeholder
    ensures Given(thumbnail) ==> r == AssetUrl(apiUrl, thumbnail.value)
  {
    if Given(thumbnail) then AssetUrl(apiUrl, thumbnail.value) else Placeholder
  }

  /**
   * A base of the form `scheme//host/api`, with no slash in scheme or host
   * and a host not beginning with "a", loses exactly its trailing "/api".
   */
  lemma StripsApi(scheme: string, host: string, path: string)
    requires '/' !in scheme && '/' !in host && (host == [] || host[0] != 'a')
    requires path != ""
    ensures ImageUrl(Some(scheme + "//" + host + "/api"), Some(path)) == scheme + "//" + host + path
  {
    var b := scheme + "//" + host;
    var u := b + "/api";
    var k := |b|;
    assert u[k..k + 4] == "/api" by {
      assert u[k..] == "/api";
    }
    forall j | 0 <= j < k
      ensures !MatchAt(u, "/api", j)
    {
      if j < |scheme| {
        assert u[j] == b[j] == scheme[j];
      } else if j == |scheme| {
        assert u[j + 1] == b[j + 1] == '/';
      } else if j == |scheme| + 1 {
        assert u[j + 1] == if host == [] then '/' else host[0];
      } else {
        assert u[j] == b[j] == host[j - |scheme| - 2];
      }
      NoMatchAt(u, "/api", j);
    }
    FirstMatch(u, "/api", k);
    assert u[..k] + u[k + 4..] == b by {
      assert u[..k] == b && u[k + 4..] == [];
    }
    assert ServerBase(Some(u)) == b;
  }

  /** The development server, "http://localhost:4000", spelt as scheme, "//" and host. */
  const LocalServer := "http:" + "//" + "localhost:4000"

  /** The usual base, the development server's "/api": its "/api" goes and the upload path follows. */
  lemma LocalImage(path: string)
    requires path != ""
    ensures ImageUrl(Some(LocalServer + "/api"), Some(path)) == LocalServer + path
  {
    StripsApi("http:", "localhost:4000", path);
  }

  /**
   * Only the first "/api" is removed: a host beginning with "api" loses the
   * slash before it and keeps the trailing "/api", so
   * "https://api.example.com/api" becomes "https:/.example.com/api".
   */
  lemma ApiHostLosesSlash(scheme: string, rest: string)
    requires '/' !in scheme
    ensures ServerBase(Some(scheme + "//api" + rest)) == scheme + "/" + rest
  {
    var u := scheme + "//api" + rest;
    var k := |scheme| + 1;
    assert u[k..k + 4] == "/api";
    forall j | 0 <= j < k
      ensures !MatchAt(u, "/api", j)
    {
      if j < |scheme| {
        assert u[j] == scheme[j];
      } else {
        assert u[j + 1] == '/';
      }
      NoMatchAt(u, "/api", j);
    }
    FirstMatch(u, "/api", k);
    assert u[..k] == scheme + "/";
    assert u[k + 4..] == rest;
  }

  /** The card's stars: filled exactly below the floor of the rating, never half. */
  function CardStars(rating: real): (r: seq<StarRating.Star>)
    ensures |r| == 5
    ensures forall i :: 0 <= i < 5 ==> (r[i] == StarRating.Full <==> i < rating.Floor)
    ensures forall i :: 0 <= i < 5 ==> r[i] != StarRating.Half
  {
    StarRating.StarsUpTo(5, rating.Floor, false)
  }

  /** The number of filled stars is `floor(rating)` clamped to `[0, 5]`. */
  lemma FilledCount(rating: real)
    ensures StarRating.Count(CardStars(rating), StarRating.Full) == StarRating.Clamp(rating.Floor, 0, 5)
  {
    StarRating.FullCountUpTo(5, rating.Floor, false);
  }

  /** For an integral rating the card and the rating widget draw the same stars. */
  lemma CardAgreesWithWidget(rating: real)
    requires StarRating.Integral(rating)
    ensures CardStars(rating) == StarRating.Stars(rating)
  {
  }
}

=== FILE: book_controller.dfy ===
/**
 * controllers/book.controller.ts: `listBooks` (search, newest first, one
 * page) and `createBook` (required fields and defaults).
 */
module BookController {
  import opened Wrappers
  import opened Text
  import opened Db
  import opened Effects
  import opened Envelope
  import Decimal

  // ---------------------------------------------------------------- listing

  /** The query string of `GET /books`; `None` is an absent parameter. */
  datatype ListQuery = ListQuery(page: Option<string>, limit: Option<string>, search: Option<string>)

  /** `parseInt(v) || fallback`: a missing, non-numeric or zero value gives the fallback. */
  function IntOr(v: Option<string>, fallback: int): (r: int)
    ensures fallback != 0 ==> r != 0
    ensures v.None? ==> r == fallback
    ensures v.Some? && Decimal.ParseIntPrefix(v.value).None? ==> r == fallback
    ensures v.Some? && Decimal.ParseIntPrefix(v.value) == Some(0) ==> r == fallback
    ensures v.Some? && Decimal.ParseIntPrefix(v.value).Some? && Decimal.ParseIntPrefix(v.value) != Some(0) ==>
      r == Decimal.ParseIntPrefix(v.value).value
  {
    if v.None? then fallback
    else match Decimal.ParseIntPrefix(v.value)
      case None => fallback
      case Some(n) => if n == 0 then fallback else n
  }

  /**
   * The `where` clause: no constraint for an empty search, otherwise the
   * title or the author contains the search, ignoring case.
   */
  predicate Matches(b: Book, search: string) {
    search == "" || ContainsInsensitive(b.title, search) || ContainsInsensitive(b.author, search)
  }

  /** The books satisfying the `where` clause, in table order. */
  function Filter(books: seq<Book>, search: string): (r: seq<Book>)
    ensures |r| <= |books|
    ensures forall x :: x in r <==> x in books && Matches(x, search)
  {
    if books == [] then []
    else if Matches(books[0], search) then [books[0]] + Filter(books[1..], search)
    else Filter(books[1..], search)
  }

  /** `orderBy: { uploadedAt: "desc" }`. */
  ghost predicate NewestFirst(xs: seq<Book>) {
    forall i, j :: 0 <= i < j < |xs| ==> xs[i].uploadedAt >= xs[j].uploadedAt
  }

  /** `b` placed before the first book not newer than it. */
  function Insert(b: Book, xs: seq<Book>): (r: seq<Book>)
    ensures multiset(r) == multiset(xs) + multiset{b}
    ensures forall x :: x in r <==> x in xs || x == b
  {
    if xs == [] || b.uploadedAt >= xs[0].uploadedAt then [b] + xs
    else
      assert xs == [xs[0]] + xs[1..];
      [xs[0]] + Insert(b, xs[1..])
  }

  lemma {:induction false} InsertNewestFirst(b: Book, xs: seq<Book>)
    requires NewestFirst(xs)
    ensures NewestFirst(Insert(b, xs))
  {
    if xs != [] && b.uploadedAt < xs[0].uploadedAt {
      var rest := Insert(b, xs[1..]);
      InsertNewestFirst(b, xs[1..]);
      assert forall x :: x in xs[1..] ==> x.uploadedAt <= xs[0].uploadedAt;
      forall k | 0 <= k < |rest|
        ensures rest[k].uploadedAt <= xs[0].uploadedAt
      {
        assert rest[k] in rest;
      }
      var r := Insert(b, xs);
      assert forall j :: 0 < j < |r| ==> r[j] == rest[j - 1];
    }
  }

  /** The ordered result: newest first and a permutation of the input. */
  function SortNewestFirst(xs: seq<Book>): (r: seq<Book>)
    ensures NewestFirst(r)
    ensures multiset(r) == multiset(xs)
    ensures forall x :: x in r <==> x in xs
  {
    if xs == [] then []
    else
      assert xs == [xs[0]] + xs[1..];
      var rest := SortNewestFirst(xs[1..]);
      InsertNewestFirst(xs[0], rest);
      Insert(xs[0], rest)
  }

  /** `skip`/`take` on the ordered rows, for a positive `take`. */
  function Window(xs: seq<Book>, skip: nat, take: nat): (r: seq<Book>)
    ensures |r| <= take
    ensures skip >= |xs| ==> r == []
    ensures skip < |xs| ==> r == xs[skip..if skip + take <= |xs| then skip + take else |xs|]
    ensures forall x :: x in r ==> x in xs
    ensures NewestFirst(xs) ==> NewestFirst(r)
  {
    if skip >= |xs| then []
    else if skip + take <= |xs| then xs[skip..skip + take]
    else xs[skip..]
  }

  /** The rows in the opposite order. */
  function Reverse(xs: seq<Book>): (r: seq<Book>)
    ensures |r| == |xs| && forall i :: 0 <= i < |xs| ==> r[i] == xs[|xs| - 1 - i]
  {
    seq(|xs|, i requires 0 <= i < |xs| => xs[|xs| - 1 - i])
  }

  /**
   * `skip`/`take` for a negative `take` of `-take`: the ORM reads the rows
   * from the other end, so it yields the `take` rows that come just before
   * the last `skip` ones, still newest first.
   */
  function WindowBack(xs: seq<Book>, skip: nat, take: nat): (r: seq<Book>)
    ensures |r| <= take
    ensures skip >= |xs| ==> r == []
    ensures forall x :: x in r ==> x in xs
    ensures NewestFirst(xs) ==> NewestFirst(r)
  {
    var hi := if skip >= |xs| then 0 else |xs| - skip;
    var lo := if hi >= take then hi - take else 0;
    xs[lo..hi]
  }

  /** Reading from the other end: reverse the rows, skip and take, and turn the page back. */
  lemma WindowBackReversed(xs: seq<Book>, skip: nat, take: nat)
    ensures WindowBack(xs, skip, take) == Reverse(Window(Reverse(xs), skip, take))
  {
    if skip < |xs| {
      var hi := |xs| - skip;
      var lo := if hi >= take then hi - take else 0;
      var e := if skip + take <= |xs| then skip + take else |xs|;
      assert |xs| - hi == skip && |xs| - lo == e;
      assert |Reverse(xs)| == |xs|;
      assert Window(Reverse(xs), skip, take) == Reverse(xs)[skip..e];
      ReverseSlice(xs, lo, hi);
      assert WindowBack(xs, skip, take) == xs[lo..hi];
    } else {
      var w := Window(Reverse(xs), skip, take);
      assert w == [] && WindowBack(xs, skip, take) == [];
      assert |Reverse(w)| == 0;
    }
  }

  /** Reversing a slice of the reversed rows gives back the matching slice of the rows. */
  lemma ReverseSlice(xs: seq<Book>, lo: nat, hi: nat)
    requires lo <= hi <= |xs|
    ensures Reverse(Reverse(xs)[|xs| - hi..|xs| - lo]) == xs[lo..hi]
  {
    var rx := Reverse(xs);
    var w := rx[|xs| - hi..|xs| - lo];
    var rw := Reverse(w);
    assert |w| == hi - lo;
    forall i | 0 <= i < |w|
      ensures rw[i] == xs[lo + i]
    {
      var j := |w| - 1 - i;
      assert rw[i] == w[j];
      assert w[j] == rx[|xs| - hi + j];
    }
  }

  /** `(page - 1) * limit`, the rows skipped before the page; the ORM refuses a negative one. */
  function Skip(page: int, limit: int): (r: int)
    ensures r == (page - 1) * limit
    ensures r < 0 <==> (page < 1 && limit > 0) || (page > 1 && limit < 0)
  {
    var a := page - 1;
    if a < 0 && limit > 0 then
      assert a * limit <= -limit by { assert a * limit == -((-a) * limit); }
      a * limit
    else if a > 0 && limit < 0 then
      assert a * limit <= -a by { assert a * limit == -(a * (-limit)); }
      a * limit
    else
      assert a * limit >= 0 by {
        if a < 0 { assert a * limit == (-a) * (-limit); }
      }
      a * limit
  }

  /**
   * The page of books for a page and limit the ORM accepts. A positive
   * limit yields the window `[(page - 1) * limit, page * limit)` of the
   * matching books, newest first; a negative limit makes the ORM read from
   * the other end (`WindowBack`). `total` counts all matching books, and
   * `totalPages` is `Math.ceil(total / limit)`, which is not positive for a
   * negative limit.
   */
  function PageOf(books: seq<Book>, search: string, page: int, limit: int): (p: Payload)
    requires limit != 0 && Skip(page, limit) >= 0
    ensures var matching := Filter(books, search);
      var ordered := SortNewestFirst(matching);
      && p.BookPage?
      && p.total == |matching| && p.page == page
      && p.totalPages == Decimal.CeilDiv(|matching|, limit)
      && p.books == (if limit > 0 then Window(ordered, Skip(page, limit), limit)
                     else WindowBack(ordered, Skip(page, limit), -limit))
    ensures |p.books| <= (if limit > 0 then limit else -limit)
    ensures NewestFirst(p.books)
    ensures forall x :: x in p.books ==> x in books && Matches(x, search)
  {
    var matching := Filter(books, search);
    var ordered := SortNewestFirst(matching);
    var skip := Skip(page, limit);
    var rows := if limit > 0 then Window(ordered, skip, limit) else WindowBack(ordered, skip, -limit);
    BookPage(|matching|, page, Decimal.CeilDiv(|matching|, limit), rows)
  }

  /**
   * `listBooks(req, res)`. Page and limit default to 1 and 10 (as does a
   * zero or non-numeric value), so neither is ever zero. The ORM refuses a
   * negative `skip`, answered with 500; otherwise the answer is the page.
   */
  function ListBooks(s: Store, q: ListQuery): (r: Response)
    ensures var page := IntOr(q.page, 1); var limit := IntOr(q.limit, 10);
      (r.status == 500 <==> (page < 1 && limit > 0) || (page > 1 && limit < 0))
      && (r.status == 500 ==> r == Response(500, Error("Failed to fetch books", Undefined)))
      && (r.status != 500 ==> r.status == 200)
    ensures r.status == 200 ==>
      var page := IntOr(q.page, 1); var limit := IntOr(q.limit, 10);
      && limit != 0 && Skip(page, limit) >= 0
      && r.body == Success("Books fetched successfully", Value(PageOf(s.books, q.search.GetOr(""), page, limit)))
  {
    var page := IntOr(q.page, 1);
    var limit := IntOr(q.limit, 10);
    if Skip(page, limit) < 0 then Response(500, Error("Failed to fetch books", Undefined))
    else Response(200, Success("Books fetched successfully", Value(PageOf(s.books, q.search.GetOr(""), page, limit))))
  }

  /**
   * A negative limit is served: with no page given nothing is skipped, and
   * `?limit=-k` yields the `k` oldest books, newest first.
   */
  lemma NegativeLimitServed(s: Store, digits: string)
    requires digits != [] && Decimal.AllDigits(digits) && Decimal.DigitsValue(digits) > 0
    ensures var r := ListBooks(s, ListQuery(None, Some("-" + digits), None));
      var ordered := SortNewestFirst(s.books);
      var k := Decimal.DigitsValue(digits);
      && r.status == 200
      && r.body.data.v.books == ordered[if |ordered| >= k then |ordered| - k else 0..]
  {
    var q := ListQuery(None, Some("-" + digits), None);
    var k := Decimal.DigitsValue(digits);
    Decimal.IntPrefixOfNegative(digits);
    assert IntOr(q.limit, 10) == -(k as int);
    NegativeLimitFirstPage(s, q, k);
    WindowBackFromEnd(SortNewestFirst(s.books), k);
  }

  /** With no page and no search, a limit of `-k` yields the window read back from the end. */
  lemma NegativeLimitFirstPage(s: Store, q: ListQuery, k: nat)
    requires q.page.None? && q.search.None? && k > 0 && IntOr(q.limit, 10) == -(k as int)
    ensures ListBooks(s, q).status == 200
    ensures ListBooks(s, q).body.data.v.books == WindowBack(SortNewestFirst(s.books), 0, k)
  {
    assert IntOr(q.page, 1) == 1;
    assert Skip(1, -(k as int)) == 0;
    EmptySearchKeepsAll(s.books);
  }

  /** Reading `take` rows back from the end, skipping none, gives the last `take` rows. */
  lemma WindowBackFromEnd(xs: seq<Book>, take: nat)
    ensures WindowBack(xs, 0, take) == xs[if |xs| >= take then |xs| - take else 0..]
  {
  }

  /** An empty search keeps every book. */
  lemma {:induction false} EmptySearchKeepsAll(books: seq<Book>)
    ensures Filter(books, "") == books
  {
    if books != [] {
      EmptySearchKeepsAll(books[1..]);
    }
  }

  /** Filtering a table with a book appended filters the old table, then keeps the book if it matches. */
  lemma {:induction false} FilterAppend(books: seq<Book>, b: Book, search: string)
    ensures Filter(books + [b], search) == Filter(books, search) + (if Matches(b, search) then [b] else [])
  {
    if books != [] {
      assert (books + [b])[1..] == books[1..] + [b];
      FilterAppend(books[1..], b, search);
    }
  }

  /** Every string contains itself, whatever its case. */
  lemma ContainsSelf(t: string)
    ensures ContainsInsensitive(t, t)
  {
    ContainsWitness([], Lower(t), []);
    assert [] + Lower(t) + [] == Lower(t);
  }

  /** With all query parameters absent the first ten books, newest first, are listed. */
  lemma DefaultQuery(s: Store)
    ensures var r := ListBooks(s, ListQuery(None, None, None));
      && r.status == 200
      && r.body.data.v.page == 1
      && r.body.data.v.total == |s.books|
      && r.body.data.v.books == Window(SortNewestFirst(s.books), 0, 10)
  {
    EmptySearchKeepsAll(s.books);
  }

  // --------------------------------------------------------------- creation

  /** The multipart fields of `POST /books`; `None` is an absent field. */
  datatype BookBody = BookBody(title: Option<string>, author: Option<string>,
                               description: Option<string>, rating: Option<string>)

  /** `rating ? Number(rating) : 0`; `None` is NaN. */
  function RatingOf(v: Option<string>): (r: Option<real>)
    ensures !Given(v) ==> r == Some(0.0)
    ensures Given(v) ==> r == Decimal.ParseNumber(v.value)
  {
    if Given(v) then Decimal.ParseNumber(v.value) else Some(0.0)
  }

  /**
   * `createBook(req, res)` for the authenticated user `uploader` (as the
   * access-token middleware set it) and the stored upload's file name.
   * A missing title or author is answered with 400 before any write. A
   * rating that is not a number, or an uploader that is not an existing
   * user, makes the insert fail, answered with 500 and the ORM's message.
   */
  function CreateBook(s: Store, b: BookBody, uploader: Option<real>, file: Option<string>, now: int)
    : (r: (Store, Response))
    ensures r.1.status in {400, 500, 201}
    ensures r.1.status != 201 ==> r.0 == s
    ensures r.1.status == 400 <==> !Given(b.title) || !Given(b.author)
    ensures r.1.status == 400 ==> r.1.body == Error("Title and author are required", Undefined)
    ensures r.1.status == 500 ==> !r.1.body.success && r.1.body.message == "Failed to create book"
    ensures r.1.status == 201 <==>
      Given(b.title) && Given(b.author) && RatingOf(b.rating).Some? &&
      IntId(uploader).Some? && UserById(s.users, IntId(uploader).value).Some?
    ensures r.1.status == 201 ==>
      var book := Book(s.nextId, b.title.value, b.author.value, b.description, Thumbnail(file),
                       RatingOf(b.rating).value, UserById(s.users, IntId(uploader).value).value.id, now);
      && r.0 == s.(books := s.books + [book], nextId := s.nextId + 1)
      && r.1.body == Success("Book created successfully", Value(BookRecord(book)))
  {
    if !Given(b.title) || !Given(b.author) then (s, Response(400, Error("Title and author are required", Undefined)))
    else
      var rating := RatingOf(b.rating);
      var id := IntId(uploader);
      if rating.None? || id.None? then
        (s, Response(500, Error("Failed to create book", Value(Cause(Message(Orm(InvalidValue)))))))
      else if UserById(s.users, id.value).None? then
        (s, Response(500, Error("Failed to create book", Value(Cause(Message(Orm(ForeignKeyViolation)))))))
      else
        var u := UserById(s.users, id.value).value;
        var book := Book(s.nextId, b.title.value, b.author.value, b.description, Thumbnail(file),
                         rating.value, u.id, now);
        (s.(books := s.books + [book], nextId := s.nextId + 1),
         Response(201, Success("Book created successfully", Value(BookRecord(book)))))
  }

  /** `file ? "/uploads/" + file.filename : null`. */
  function Thumbnail(file: Option<string>): (r: Option<string>)
    ensures file.None? <==> r.None?
    ensures file.Some? ==> r.value == "/uploads/" + file.value && StartsWith(r.value, "/uploads/")
  {
    if file.Some? then Some("/uploads/" + file.value) else None
  }

  /** A created book without a rating field is stored with rating 0 and belongs to the uploader. */
  lemma CreatedDefaults(s: Store, b: BookBody, uploader: nat, file: Option<string>, now: int)
    requires Given(b.title) && Given(b.author) && b.rating.None?
    requires UserById(s.users, uploader).Some?
    ensures var r := CreateBook(s, b, Some(uploader as real), file, now);
      && r.1.status == 201
      && r.1.body.data.v.book.rating == 0.0
      && r.1.body.data.v.book.uploaderId == uploader
      && (file.None? ==> r.1.body.data.v.book.thumbnail.None?)
  {
    assert (uploader as real).Floor == uploader;
  }

  /** A created book is counted by a search for its own title, one more than before. */
  lemma CreatedBookFound(s: Store, b: BookBody, uploader: Option<real>, file: Option<string>, now: int)
    requires CreateBook(s, b, uploader, file, now).1.status == 201
    ensures var s1 := CreateBook(s, b, uploader, file, now).0;
      var q := ListQuery(None, None, b.title);
      ListBooks(s1, q).body.data.v.total == ListBooks(s, q).body.data.v.total + 1
  {
    var r := CreateBook(s, b, uploader, file, now);
    var book := r.1.body.data.v.book;
    ContainsSelf(b.title.value);
    assert Matches(book, b.title.value);
    FilterAppend(s.books, book, b.title.value);
  }
}

=== FILE: book_filter.dfy ===
/**
 * components/book/filter.tsx: the public catalogue's filter panel. Each
 * control replaces one field of the `Filters` record; "Clear all" restores
 * the initial record. Both selects offer an "all" entry first; choosing it
 * stores the text "all" itself, which `PickAuthorAsWritten` and
 * `PickDateAsWritten` keep and `PickAuthor` and `PickDate` map back to "".
 */
module BookFilter {
  /** `Filters` of types/book.ts. */
  datatype Filters = Filters(author: string, dateRange: string, minRating: real)

  /** The value each select's first entry carries. */
  const AllEntry := "all"

  /** The slider: from 0 to 5 in steps of one half. */
  const SliderMin := 0.0
  const SliderMax := 5.0
  const SliderStep := 0.5

  /** A value the slider can produce. */
  predicate OnSlider(x: real) {
    SliderMin <= x <= SliderMax && ((x - SliderMin) / SliderStep).Floor as real == (x - SliderMin) / SliderStep
  }

  /** `clearFilters()`, also the list's initial state. */
  function Cleared(): (r: Filters)
    ensures r.author == "" && r.dateRange == "" && r.minRating == 0.0
  {
    Filters("", "", 0.0)
  }

  /** The author select, as written: the chosen value is stored as it is. */
  function PickAuthorAsWritten(f: Filters, value: string): (r: Filters)
    ensures r.author == value && r.dateRange == f.dateRange && r.minRating == f.minRating
  {
    f.(author := value)
  }

  /** The date select, as written. */
  function PickDateAsWritten(f: Filters, value: string): (r: Filters)
    ensures r.dateRange == value && r.author == f.author && r.minRating == f.minRating
  {
    f.(dateRange := value)
  }

  /** The "all" entry read as "no filter", as the dashboard's data table does. */
  function Unless(value: string): (r: string)
    ensures value == AllEntry ==> r == ""
    ensures value != AllEntry ==> r == value
  {
    if value == AllEntry then "" else value
  }

  /** The author select: only `author` changes, and "all" clears it. */
  function PickAuthor(f: Filters, value: string): (r: Filters)
    ensures r.author == Unless(value) && r.dateRange == f.dateRange && r.minRating == f.minRating
  {
    f.(author := Unless(value))
  }

  /** The date select: only `dateRange` changes, and "all" clears it. */
  function PickDate(f: Filters, value: string): (r: Filters)
    ensures r.dateRange == Unless(value) && r.author == f.author && r.minRating == f.minRating
  {
    f.(dateRange := Unless(value))
  }

  /** The slider: only `minRating` changes. */
  function Slide(f: Filters, value: real): (r: Filters)
    ensures r.minRating == value && r.author == f.author && r.dateRange == f.dateRange
  {
    f.(minRating := value)
  }

  /** The two versions differ only on the "all" entry. */
  lemma PickAgreesBesidesAll(f: Filters, value: string)
    requires value != AllEntry
    ensures PickAuthor(f, value) == PickAuthorAsWritten(f, value)
    ensures PickDate(f, value) == PickDateAsWritten(f, value)
  {
  }

  /** Choosing "all" in both selects and sliding back to 0 is a full clear. */
  lemma AllEntriesClear(f: Filters)
    ensures Slide(PickDate(PickAuthor(f, AllEntry), AllEntry), 0.0) == Cleared()
  {
  }

  /** The slider's own end points and every half step are on it; the initial 0 is. */
  lemma SliderValues()
    ensures OnSlider(Cleared().minRating) && OnSlider(SliderMax) && OnSlider(2.5)
    ensures !OnSlider(0.3) && !OnSlider(5.5)
  {
    assert (0.3 / 0.5).Floor == 0;
  }
}

=== FILE: book_list.dfy ===
/**
 * components/book/book-list.tsx: the public catalogue page. It asks
 * `BookService.getBooks` for books matching the filter panel, shows them
 * as cards with a total and a page count, and offers the distinct authors
 * of the loaded books in the author select.
 *
 * The page gets two things wrong. Each is modelled both as written and
 * as evidently intended, and the rest of the model uses the latter:
 * - the reply is the response envelope, whose books and total sit under
 *   `data`, yet the page reads them from the top level (`ShownAsWritten`
 *   against `Shown`);
 * - the request object names its fields `dateRange`, `minRating` and
 *   `perPage`, which `getBooks` does not read (`QueryArgsAsWritten`
 *   against `QueryArgs`).
 */
module BookList {
  import opened Wrappers
  import opened Text
  import opened Query
  import Decimal
  import StringSort
  import BookFilter
  import PublicBooksApi

  /** `Book` of types/book.ts, with the fields the page uses. */
  datatype Book = Book(id: int, title: string, author: string, thumbnail: Option<string>, rating: real)

  /** The `data` of the response envelope. */
  datatype PageData = PageData(total: nat, page: int, totalPages: int, books: seq<Book>)

  /** `ApiResponse`: what `getBooks` resolves to. */
  datatype Envelope = Envelope(success: bool, message: string, data: PageData)

  const PerPage := 9

  // -------------------------------------------------------------- reading

  /**
   * As written: `data?.books ?? []` and `data?.total ?? 0`. The envelope's
   * top level has `success`, `message`, `data` and `errors` only, so both
   * reads are undefined and fall back, whatever the server sent.
   */
  function ShownAsWritten(data: Option<Envelope>): (r: (seq<Book>, nat))
    ensures r.0 == [] && r.1 == 0
  {
    ([], 0)
  }

  /** A reply with books still shows none, a zero total, one page and no authors. */
  lemma AsWrittenShowsNothing(e: Envelope)
    requires e.data.books != [] && e.data.total > PerPage
    ensures ShownAsWritten(Some(e)).0 != e.data.books
    ensures TotalPages(ShownAsWritten(Some(e)).1) == 1 < TotalPages(e.data.total)
    ensures Authors(ShownAsWritten(Some(e)).0) == []
  {
  }

  /** Intended: the books and total of the envelope's `data`; none before a reply. */
  function Shown(data: Option<Envelope>): (r: (seq<Book>, nat))
    ensures data.None? ==> r == ([], 0)
    ensures data.Some? ==> r.0 == data.value.data.books && r.1 == data.value.data.total
  {
    if data.Some? then (data.value.data.books, data.value.data.total) else ([], 0)
  }

  /** With the intended read the author select offers exactly the authors of the page's books. */
  lemma ShownAuthorsFromReply(e: Envelope, a: string)
    ensures a in Authors(Shown(Some(e)).0) <==> exists i :: 0 <= i < |e.data.books| && e.data.books[i].author == a
  {
  }

  /** `Math.max(1, Math.ceil(total / perPage))`. */
  function TotalPages(total: int): (r: int)
    ensures r >= 1
    ensures total <= PerPage ==> r == 1
    ensures total > 0 ==> (r - 1) * PerPage < total <= r * PerPage
  {
    if total <= 0 then 1 else Decimal.CeilDiv(total, PerPage)
  }

  /** Ten books need two pages; nine fit on one. */
  lemma TotalPagesExamples()
    ensures TotalPages(0) == 1 && TotalPages(9) == 1 && TotalPages(10) == 2 && TotalPages(27) == 3
  {
  }

  // -------------------------------------------------------------- authors

  /** `[...new Set(books.map(b => b.author))].sort()`. */
  function Authors(books: seq<Book>): (r: seq<string>)
    ensures StringSort.Sorted(r) && StringSort.Distinct(r)
    ensures forall a :: a in r <==> exists i :: 0 <= i < |books| && books[i].author == a
  {
    var names := seq(|books|, i requires 0 <= i < |books| => books[i].author);
    assert forall a :: a in names <==> exists i :: 0 <= i < |books| && books[i].author == a by {
      forall a | a in names
        ensures exists i :: 0 <= i < |books| && books[i].author == a
      {
        var i :| 0 <= i < |names| && names[i] == a;
        assert books[i].author == a;
      }
      forall a | exists i :: 0 <= i < |books| && books[i].author == a
        ensures a in names
      {
        var i :| 0 <= i < |books| && books[i].author == a;
        assert names[i] == a;
      }
    }
    StringSort.SortSorted(StringSort.Dedup(names));
    StringSort.Sort(StringSort.Dedup(names))
  }

  /** The author list is the only sorted list naming each author of the books once. */
  lemma AuthorsCanonical(books: seq<Book>, s: seq<string>)
    requires StringSort.Sorted(s) && StringSort.Distinct(s)
    requires forall a :: a in s <==> exists i :: 0 <= i < |books| && books[i].author == a
    ensures s == Authors(books)
  {
    StringSort.SortedUnique(s, Authors(books));
  }

  // --------------------------------------------------------- active count

  /** `activeFiltersCount`: a non-empty author, a non-empty date range, a positive rating. */
  function ActiveFiltersCount(f: BookFilter.Filters): (r: nat)
    ensures r <= 3
    ensures r == 0 <==> f.author == "" && f.dateRange == "" && f.minRating <= 0.0
    ensures r == 3 <==> f.author != "" && f.dateRange != "" && f.minRating > 0.0
  {
    (if f.author != "" then 1 else 0)
      + (if f.dateRange != "" then 1 else 0)
      + (if f.minRating > 0.0 then 1 else 0)
  }

  /** "Clear all" leaves nothing active. */
  lemma ClearedCountsNone()
    ensures ActiveFiltersCount(BookFilter.Cleared()) == 0
  {
  }

  /**
   * As written, the "All authors" entry is stored as "all" and counts as an
   * active filter, so the badge reads "1 active" with no filter in effect.
   */
  lemma AsWrittenAllAuthorsCounts()
    ensures ActiveFiltersCount(BookFilter.PickAuthorAsWritten(BookFilter.Cleared(), BookFilter.AllEntry)) == 1
    ensures ActiveFiltersCount(BookFilter.PickDateAsWritten(BookFilter.Cleared(), BookFilter.AllEntry)) == 1
  {
  }

  /** Intended: choosing an "all" entry removes that field from the count. */
  lemma AllEntryNotCounted(f: BookFilter.Filters)
    ensures ActiveFiltersCount(BookFilter.PickAuthor(f, BookFilter.AllEntry))
      == ActiveFiltersCount(f) - (if f.author != "" then 1 else 0)
    ensures ActiveFiltersCount(BookFilter.PickDate(f, BookFilter.AllEntry))
      == ActiveFiltersCount(f) - (if f.dateRange != "" then 1 else 0)
  {
  }

  // ---------------------------------------------------------------- query

  /**
   * As written: `{ ...filters, page: 1, perPage: 10 }` as `getBooks` reads
   * it. Only `author` and `page` carry a name it destructures, so the date
   * range, the rating and the page size take their defaults. The page the
   * user selected is not used.
   */
  function QueryArgsAsWritten(f: BookFilter.Filters, selectedPage: int): (r: PublicBooksApi.PublicParams)
    ensures r.author == Some(f.author) && r.page == Some(1)
    ensures r.date == None && r.rating == None && r.limit == None
  {
    PublicBooksApi.PublicParams(Some(f.author), None, None, Some(1), None)
  }

  /**
   * A date range and a minimum rating set in the panel never reach the
   * server, though the badge counts them; twelve books are asked for.
   */
  lemma AsWrittenDropsFilters(f: BookFilter.Filters, selectedPage: int, show: real -> string)
    ensures var q := PublicBooksApi.PublicQuery(QueryArgsAsWritten(f, selectedPage), show);
      && Lookup(q, "date") == None && Lookup(q, "rating") == None
      && q[1] == ("limit", Decimal.IntToString(12))
    ensures f.dateRange != "" && f.minRating > 0.0 ==> ActiveFiltersCount(f) >= 2
  {
    PublicBooksApi.FiltersSent(QueryArgsAsWritten(f, selectedPage), show);
  }

  /**
   * Intended: the date range as `date`, the minimum rating as `rating`,
   * `perPage` as `limit`. Page 1 is still requested whatever the page shown.
   */
  function QueryArgs(f: BookFilter.Filters, selectedPage: int): (r: PublicBooksApi.PublicParams)
    ensures r.author == Some(f.author) && r.date == Some(f.dateRange) && r.rating == Some(f.minRating)
    ensures r.page == Some(1) && r.limit == Some(10)
  {
    PublicBooksApi.PublicParams(Some(f.author), Some(f.dateRange), Some(f.minRating), Some(1), Some(10))
  }

  /** A field is never only white space: it is empty or has a visible character. */
  predicate NoBlankOnly(s: string) {
    s == "" || Trim(s) != ""
  }

  /**
   * With the intended arguments, each filter the badge counts is sent and
   * nothing else is; the first page of ten is requested whichever page the
   * user is on.
   */
  lemma CountedFiltersSent(f: BookFilter.Filters, selectedPage: int, show: real -> string)
    requires NoBlankOnly(f.author) && NoBlankOnly(f.dateRange)
    ensures var q := PublicBooksApi.PublicQuery(QueryArgs(f, selectedPage), show);
      && q[0] == ("page", "1") && q[1] == ("limit", "10")
      && Lookup(q, "author") == (if f.author != "" then Some(f.author) else None)
      && Lookup(q, "date") == (if f.dateRange != "" then Some(f.dateRange) else None)
      && Lookup(q, "rating") == (if f.minRating > 0.0 then Some(show(f.minRating)) else None)
      && ActiveFiltersCount(f) == (if Lookup(q, "author").Some? then 1 else 0)
           + (if Lookup(q, "date").Some? then 1 else 0) + (if Lookup(q, "rating").Some? then 1 else 0)
  {
    PublicBooksApi.FiltersSent(QueryArgs(f, selectedPage), show);
    assert Decimal.IntToString(1) == "1" && Decimal.IntToString(10) == "10";
  }

  /** The request does not depend on the page the user selected. */
  lemma PageIgnored(f: BookFilter.Filters, p1: int, p2: int)
    ensures QueryArgs(f, p1) == QueryArgs(f, p2)
    ensures QueryArgsAsWritten(f, p1) == QueryArgsAsWritten(f, p2)
  {
  }
}

=== FILE: books_api.dfy ===
/**
 * services/books.service.ts: the dashboard's book requests. `getBooks`
 * sends each filter only when it is truthy; `createBook` and `updateBook`
 * send the same multipart fields; every failure is replaced by a fixed
 * message. Numbers are shown with the `show` text of JavaScript's
 * `toString`, integers with their decimal digits.
 */
module BooksApi {
  import opened Wrappers
  import opened Text
  import opened Query
  import Decimal

  /** The `GetBooksParams` of the request; `None` is an absent key. */
  datatype BooksParams = BooksParams(
    search: Option<string>, author: Option<string>, date: Option<string>, rating: Option<string>,
    page: Option<int>, limit: Option<int>, uploader: Option<int>)

  /** A number is truthy unless absent or 0. */
  predicate Truthy(n: Option<int>) {
    n.Some? && n.value != 0
  }

  function NumberText(n: Option<int>): string {
    if n.Some? then Decimal.IntToString(n.value) else ""
  }

  const BooksKeys := ["search", "author", "date", "rating", "page", "limit", "uploader"]

  function BooksSlots(p: BooksParams): (r: seq<Slot<string>>)
    ensures SlotKeys(r) == BooksKeys && DistinctKeys(r)
  {
    var r :=
      [ Slot("search", Given(p.search), p.search.GetOr("")),
        Slot("author", Given(p.author), p.author.GetOr("")),
        Slot("date", Given(p.date), p.date.GetOr("")),
        Slot("rating", Given(p.rating), p.rating.GetOr("")),
        Slot("page", Truthy(p.page), NumberText(p.page)),
        Slot("limit", Truthy(p.limit), NumberText(p.limit)),
        Slot("uploader", Truthy(p.uploader), NumberText(p.uploader)) ];
    BooksKeysDistinct();
    KeysDistinct(r, BooksKeys);
    r
  }

  lemma BooksKeysDistinct()
    ensures forall a, b :: 0 <= a < b < |BooksKeys| ==> BooksKeys[a] != BooksKeys[b]
  {
  }

  /** The query of `getBooks(params)`, sent as `/books?` followed by it: candidates in source order. */
  function BooksQuery(p: BooksParams): (q: Pairs)
    ensures Subsequence(Keys(q), BooksKeys)
  {
    AssembleFromSlots(BooksSlots(p));
    Assemble(BooksSlots(p))
  }

  /** The search text is sent, as given, exactly when it is non-empty. */
  lemma SearchSent(p: BooksParams)
    ensures Lookup(BooksQuery(p), "search") == (if Given(p.search) then p.search else None)
  {
    assert BooksSlots(p)[0].key == "search";
    AssembleLookup(BooksSlots(p), 0);
  }

  /** Each filter is sent, as given, exactly when it is non-empty. */
  lemma FiltersSent(p: BooksParams)
    ensures var q := BooksQuery(p);
      && Lookup(q, "author") == (if Given(p.author) then p.author else None)
      && Lookup(q, "date") == (if Given(p.date) then p.date else None)
      && Lookup(q, "rating") == (if Given(p.rating) then p.rating else None)
  {
    var slots := BooksSlots(p);
    assert slots[1].key == "author" && slots[2].key == "date" && slots[3].key == "rating";
    AssembleLookup(slots, 1); AssembleLookup(slots, 2); AssembleLookup(slots, 3);
  }

  /** Each number is sent, as its decimal text, exactly when it is non-zero. */
  lemma NumbersSent(p: BooksParams)
    ensures var q := BooksQuery(p);
      && Lookup(q, "page") == (if Truthy(p.page) then Some(Decimal.IntToString(p.page.value)) else None)
      && Lookup(q, "limit") == (if Truthy(p.limit) then Some(Decimal.IntToString(p.limit.value)) else None)
      && Lookup(q, "uploader") == (if Truthy(p.uploader) then Some(Decimal.IntToString(p.uploader.value)) else None)
  {
    var slots := BooksSlots(p);
    assert slots[4].key == "page" && slots[5].key == "limit" && slots[6].key == "uploader";
    AssembleLookup(slots, 4); AssembleLookup(slots, 5); AssembleLookup(slots, 6);
  }

  /** Page 0 and uploader 0 are falsy, so they are not sent at all. */
  lemma ZeroOmitted(p: BooksParams)
    requires p.page == Some(0) && p.uploader == Some(0)
    ensures Lookup(BooksQuery(p), "page") == None && Lookup(BooksQuery(p), "uploader") == None
  {
    NumbersSent(p);
  }

  // ----------------------------------------------------------- book forms

  /** The validated data of the book form; `thumbnail` is the chosen file's name. */
  datatype BookData = BookData(title: string, author: string, description: Option<string>,
                               rating: Option<real>, thumbnail: Option<string>)

  /** A multipart value: text, or a file. */
  datatype Part = Text(text: string) | File(name: string)

  function FormSlots(d: BookData, show: real -> string): (r: seq<Slot<Part>>)
    ensures SlotKeys(r) == ["title", "author", "description", "rating", "thumbnail"] && DistinctKeys(r)
  {
    [ Slot("title", true, Text(d.title)),
      Slot("author", true, Text(d.author)),
      Slot("description", Given(d.description), Text(d.description.GetOr(""))),
      Slot("rating", d.rating.Some?, Text(if d.rating.Some? then show(d.rating.value) else "")),
      Slot("thumbnail", Given(d.thumbnail), File(d.thumbnail.GetOr(""))) ]
  }

  /**
   * The form data of `createBook` and `updateBook`: title and author
   * always, the description when non-empty, the rating whenever defined
   * (0 included), the thumbnail when chosen.
   */
  function BookForm(d: BookData, show: real -> string): (r: seq<(string, Part)>)
    ensures Lookup(r, "title") == Some(Text(d.title)) && Lookup(r, "author") == Some(Text(d.author))
    ensures Lookup(r, "description") == if Given(d.description) then Some(Text(d.description.value)) else None
    ensures Lookup(r, "rating") == if d.rating.Some? then Some(Text(show(d.rating.value))) else None
    ensures Lookup(r, "thumbnail") == if Given(d.thumbnail) then Some(File(d.thumbnail.value)) else None
    ensures Subsequence(Keys(r), ["title", "author", "description", "rating", "thumbnail"])
  {
    var slots := FormSlots(d, show);
    AssembleFromSlots(slots);
    assert slots[0].key == "title" && slots[1].key == "author" && slots[2].key == "description";
    assert slots[3].key == "rating" && slots[4].key == "thumbnail";
    AssembleLookup(slots, 0); AssembleLookup(slots, 1); AssembleLookup(slots, 2);
    AssembleLookup(slots, 3); AssembleLookup(slots, 4);
    Assemble(slots)
  }

  /** A rating of 0 is still sent. */
  lemma ZeroRatingSent(d: BookData, show: real -> string)
    requires d.rating == Some(0.0)
    ensures Lookup(BookForm(d, show), "rating") == Some(Text(show(0.0)))
  {
  }

  /** How a request settled. */
  datatype Settled<T> = Done(value: T) | Failed(message: string)

  /** What a service call yields: the request it sent and its result or thrown message. */
  datatype Call<T> = Call(verb: string, path: string, form: seq<(string, Part)>, result: Result<T, string>)

  /** `createBook(data)`: any failure becomes "Failed to create book". */
  function CreateBook<T>(d: BookData, show: real -> string, reply: Settled<T>): (r: Call<T>)
    ensures r.verb == "POST" && r.path == "/books" && r.form == BookForm(d, show)
    ensures reply.Done? ==> r.result == Ok(reply.value)
    ensures reply.Failed? ==> r.result == Err("Failed to create book")
  {
    Call("POST", "/books", BookForm(d, show), if reply.Done? then Ok(reply.value) else Err("Failed to create book"))
  }

  /** `updateBook(id, data)`: the same fields, sent to the book's own path. */
  function UpdateBook(id: int, d: BookData, show: real -> string, reply: Settled<()>): (r: Call<()>)
    ensures r.verb == "PUT" && r.path == "/books/" + Decimal.IntToString(id) && r.form == BookForm(d, show)
    ensures reply.Done? <==> r.result.Ok?
    ensures reply.Failed? ==> r.result == Err("Failed to update book")
  {
    Call("PUT", "/books/" + Decimal.IntToString(id), BookForm(d, show), if reply.Done? then Ok(()) else Err("Failed to update book"))
  }

  /** `deleteBook(id)`. */
  function DeleteBook(id: int, reply: Settled<()>): (r: Call<()>)
    ensures r.verb == "DELETE" && r.path == "/books/" + Decimal.IntToString(id) && r.form == []
    ensures reply.Done? <==> r.result.Ok?
    ensures reply.Failed? ==> r.result == Err("Failed to delete book")
  {
    Call("DELETE", "/books/" + Decimal.IntToString(id), [], if reply.Done? then Ok(()) else Err("Failed to delete book"))
  }

  /** The thrown message does not depend on what the server said. */
  lemma FailureMessageFixed(d: BookData, show: real -> string, m1: string, m2: string)
    ensures CreateBook<()>(d, show, Failed(m1)) == CreateBook<()>(d, show, Failed(m2))
    ensures UpdateBook(0, d, show, Failed(m1)) == UpdateBook(0, d, show, Failed(m2))
  {
  }

  /** Creating and updating send identical form data. */
  lemma CreateAndUpdateAgree(id: int, d: BookData, show: real -> string, r1: Settled<()>, r2: Settled<()>)
    ensures CreateBook(d, show, r1).form == UpdateBook(id, d, show, r2).form
  {
  }
}

=== FILE: books_table.dfy ===
/**
 * components/data-table/books-table.tsx: the dashboard's books table. Its
 * Zod book schema, the parameters `fetchBooks` hands to `getBooks`, how a
 * fetch settles, and the edit dialog's initial values. The pagination
 * transitions are those of `DataTable`. `show` is JavaScript's text of a
 * number.
 */
module BooksTable {
  import opened Wrappers
  import opened Text
  import opened Query
  import opened FormSchema
  import Decimal
  import DataTable
  import BooksApi
  import BookCard

  /** A row of the table, as `getBooks` returns it (upload date and uploader left out). */
  datatype Book = Book(id: int, title: string, author: string, description: Option<string>,
                       thumbnail: Option<string>, rating: Option<real>)

  /** The form's raw values; `thumbnail` is the chosen file's name. */
  datatype BookInput = BookInput(title: string, author: string, description: Option<string>,
                                 rating: Option<string>, thumbnail: Option<string>)

  const RatingRange := "Rating must be between 0 and 5"

  /**
   * The rating after `val ? Number(val) : undefined`: `None` for an absent or
   * empty string, else `Some` of the parse, whose own `None` is NaN.
   */
  function RatingNumber(v: Option<string>): (r: Option<Option<real>>)
    ensures r.None? <==> !Given(v)
    ensures r.Some? ==> r.value == Decimal.ParseNumber(v.value)
  {
    if Given(v) then Some(Decimal.ParseNumber(v.value)) else None
  }

  /** The refinement: undefined, or a number in `[0, 5]`; NaN fails both comparisons. */
  predicate RatingAccepted(n: Option<Option<real>>) {
    n.None? || (n.value.Some? && 0.0 <= n.value.value <= 5.0)
  }

  function RatingIssues(v: Option<string>): (r: seq<Issue>)
    ensures r == [] <==> RatingAccepted(RatingNumber(v))
    ensures r != [] ==> r == [Issue("rating", RatingRange)]
  {
    if RatingAccepted(RatingNumber(v)) then [] else [Issue("rating", RatingRange)]
  }

  /** Every issue of `bookSchema`, in field order. */
  function BookIssues(v: BookInput): (r: seq<Issue>)
    ensures Issue("title", "Title is required") in r <==> v.title == ""
    ensures Issue("author", "Author is required") in r <==> v.author == ""
    ensures Issue("rating", RatingRange) in r <==> !RatingAccepted(RatingNumber(v.rating))
    ensures r == [] <==> v.title != "" && v.author != "" && RatingAccepted(RatingNumber(v.rating))
  {
    MinLength("title", v.title, 1, "Title is required")
      + MinLength("author", v.author, 1, "Author is required")
      + RatingIssues(v.rating)
  }

  /** `bookSchema.safeParse`: the issues, or the data the submit handlers receive. */
  function BookSchema(v: BookInput): (r: Result<BooksApi.BookData, seq<Issue>>)
    ensures r.Ok? <==> v.title != "" && v.author != "" && RatingAccepted(RatingNumber(v.rating))
    ensures r.Err? ==> r.error == BookIssues(v) && r.error != []
    ensures r.Ok? ==> (r.value.title == v.title && r.value.author == v.author
      && r.value.description == v.description && r.value.thumbnail == v.thumbnail)
    ensures r.Ok? ==> (r.value.rating.None? <==> !Given(v.rating))
    ensures r.Ok? && r.value.rating.Some? ==>
      Decimal.ParseNumber(v.rating.value) == r.value.rating && 0.0 <= r.value.rating.value <= 5.0
  {
    var issues := BookIssues(v);
    if issues != [] then Err(issues)
    else
      var n := RatingNumber(v.rating);
      Ok(BooksApi.BookData(v.title, v.author, v.description,
                           if n.Some? then n.value else None, v.thumbnail))
  }

  /** A rating of white space only is `Number("  ") == 0`, which passes as 0. */
  lemma BlankRatingIsZero(v: BookInput)
    requires v.title != "" && v.author != "" && v.rating == Some("  ")
    ensures BookSchema(v) == Ok(BooksApi.BookData(v.title, v.author, v.description, Some(0.0), v.thumbnail))
  {
    assert AllWs("  ");
  }

  /** A written integer is accepted exactly when it lies in `[0, 5]`, and is kept as that number. */
  lemma IntegerRating(v: BookInput, i: int)
    requires v.title != "" && v.author != "" && v.rating == Some(Decimal.IntToString(i))
    ensures BookSchema(v).Ok? <==> 0 <= i <= 5
    ensures BookSchema(v).Ok? ==> BookSchema(v).value.rating == Some(i as real)
  {
    Decimal.NumberOfIntToString(i);
  }

  /** Text that is not a number is NaN and refused. */
  lemma NotANumberRefused(v: BookInput)
    requires v.rating.Some? && v.rating.value != "" && Decimal.ParseNumber(v.rating.value).None?
    ensures BookSchema(v).Err? && Issue("rating", RatingRange) in BookSchema(v).error
  {
  }

  // ------------------------------------------------------------ fetching

  /** A filter's value when it is set and non-empty. */
  function Filter(f: DataTable.Filters, key: string): (r: Option<string>)
    ensures Given(r) <==> key in f && f[key] != ""
    ensures r.Some? ==> key in f && r.value == f[key]
  {
    if key in f && f[key] != "" then Some(f[key]) else None
  }

  /**
   * The `params` of `fetchBooks`: the 1-based page, the page size and the
   * user's id always; search, author, rating and date only when non-empty.
   */
  function FetchParams(p: DataTable.Pagination, userId: Option<int>, search: string,
                       f: DataTable.Filters): (r: BooksApi.BooksParams)
    ensures r.page == Some(p.pageIndex + 1) && r.limit == Some(p.pageSize) && r.uploader == userId
    ensures r.search == (if search != "" then Some(search) else None)
    ensures r.author == Filter(f, "author") && r.rating == Filter(f, "rating") && r.date == Filter(f, "date")
  {
    BooksApi.BooksParams(if search != "" then Some(search) else None,
                         Filter(f, "author"), Filter(f, "date"), Filter(f, "rating"),
                         Some(p.pageIndex + 1), Some(p.pageSize), userId)
  }

  /**
   * What reaches the server: page `pageIndex + 1` and the page size on a
   * valid pager, the uploader when logged in, and each filter the table
   * chose.
   */
  lemma FetchQuery(p: DataTable.Pagination, userId: Option<int>, search: string, f: DataTable.Filters)
    requires p.pageIndex >= 0 && p.pageSize >= 1 && DataTable.Chosen(f)
    ensures var q := BooksApi.BooksQuery(FetchParams(p, userId, search, f));
      && Lookup(q, "page") == Some(Decimal.IntToString(p.pageIndex + 1))
      && Lookup(q, "limit") == Some(Decimal.IntToString(p.pageSize))
      && Lookup(q, "uploader") == (if userId.Some? && userId.value != 0 then Some(Decimal.IntToString(userId.value)) else None)
      && Lookup(q, "search") == (if search != "" then Some(search) else None)
      && Lookup(q, "author") == (if "author" in f then Some(f["author"]) else None)
      && Lookup(q, "rating") == (if "rating" in f then Some(f["rating"]) else None)
      && Lookup(q, "date") == (if "date" in f then Some(f["date"]) else None)
  {
    var bp := FetchParams(p, userId, search, f);
    BooksApi.SearchSent(bp);
    BooksApi.FiltersSent(bp);
    BooksApi.NumbersSent(bp);
  }

  /** The table's rows and state. */
  datatype Table = Table(books: seq<Book>, pagination: DataTable.Pagination, loading: bool)

  /** The part of a `getBooks` reply the table reads. */
  datatype Page = Page(books: seq<Book>, totalPages: int, total: int)

  /**
   * `fetchBooks` settling: a reply replaces the rows and the page count and
   * total; a failure keeps them and toasts. Loading ends either way.
   */
  function FetchSettled(t: Table, reply: Result<Page, string>): (r: (Table, Option<string>))
    ensures !r.0.loading
    ensures reply.Ok? ==> (r.0.books == reply.value.books && r.1 == None
      && r.0.pagination == DataTable.Fetched(t.pagination, reply.value.totalPages, reply.value.total))
    ensures reply.Err? ==> (r.0.books == t.books && r.0.pagination == t.pagination
      && r.1 == Some("Failed to fetch books"))
  {
    match reply
    case Ok(page) => (Table(page.books, DataTable.Fetched(t.pagination, page.totalPages, page.total), false), None)
    case Err(_) => (t.(loading := false), Some("Failed to fetch books"))
  }

  /** A fetch never moves the user's page or page size. */
  lemma FetchKeepsPage(t: Table, reply: Result<Page, string>)
    ensures FetchSettled(t, reply).0.pagination.pageIndex == t.pagination.pageIndex
    ensures FetchSettled(t, reply).0.pagination.pageSize == t.pagination.pageSize
  {
  }

  // ---------------------------------------------------------- edit dialog

  /** `handleEdit(book)`: the form's values; description and rating default to "". */
  function EditValues(b: Book, show: real -> string): (r: BookInput)
    ensures r.title == b.title && r.author == b.author && r.thumbnail == None
    ensures r.description == Some(b.description.GetOr(""))
    ensures r.rating.Some? && (r.rating.value == "" <==> b.rating.None? || show(b.rating.value) == "")
    ensures b.rating.Some? && show(b.rating.value) != "" ==> r.rating.value == show(b.rating.value)
  {
    var rating := if b.rating.Some? && show(b.rating.value) != "" then show(b.rating.value) else "";
    BookInput(b.title, b.author, Some(b.description.GetOr("")), Some(rating), None)
  }

  /** The edit dialog's preview: the stored thumbnail's address, if any. */
  function EditPreview(b: Book, apiUrl: Option<string>): (r: Option<string>)
    ensures r.None? <==> !Given(b.thumbnail)
    ensures r.Some? ==> r.value == BookCard.AssetUrl(apiUrl, b.thumbnail.value)
  {
    if Given(b.thumbnail) then Some(BookCard.AssetUrl(apiUrl, b.thumbnail.value)) else None
  }

  /** The edit preview and the table's thumbnail cell show the same address. */
  lemma PreviewMatchesCard(b: Book, apiUrl: Option<string>)
    requires Given(b.thumbnail)
    ensures EditPreview(b, apiUrl) == Some(BookCard.ImageUrl(apiUrl, b.thumbnail))
  {
  }

  /**
   * Saving the edit dialog untouched: a book with a title, an author and no
   * rating or an integer rating in `[0, 5]` validates back to its own data,
   * with the description now always present. `show` writes integers as
   * their digits, as JavaScript does.
   */
  lemma EditRoundTrip(b: Book, show: real -> string)
    requires b.title != "" && b.author != ""
    requires b.rating.Some? ==> var x := b.rating.value;
      x.Floor as real == x && 0.0 <= x <= 5.0 && show(x) == Decimal.IntToString(x.Floor)
    ensures BookSchema(EditValues(b, show)) ==
      Ok(BooksApi.BookData(b.title, b.author, Some(b.description.GetOr("")), b.rating, None))
  {
    if b.rating.Some? {
      IntegerRating(EditValues(b, show), b.rating.value.Floor);
    }
  }
}

=== FILE: data_table.dfy ===
/**
 * components/data-table/data-table.tsx: the generic table's filter map,
 * the reset, the pager buttons and the "Showing a to b of n" line; and the
 * pagination state the books and users tables keep for it.
 */
module DataTable {
  import Decimal

  /** The `filters` record: filter key to chosen value. */
  type Filters = map<string, string>

  /** `handleFilterChange(key, value)`: "all" or "" removes the key, anything else sets it. */
  function FilterChange(f: Filters, key: string, value: string): (r: Filters)
    ensures value == "all" || value == "" ==> key !in r
    ensures value != "all" && value != "" ==> key in r && r[key] == value
    ensures forall k :: k != key ==> (k in r <==> k in f) && (k in f ==> r[k] == f[k])
  {
    if value == "all" || value == "" then f - {key} else f[key := value]
  }

  /** `clearFilters()`. */
  function ClearFilters(): (r: Filters)
    ensures forall k :: k !in r
  {
    map[]
  }

  /** `hasActiveFilters`: the Reset button shows. */
  predicate HasActiveFilters(f: Filters, search: string) {
    |f.Keys| > 0 || |search| > 0
  }

  /** After a reset only the search can keep the Reset button visible. */
  lemma ClearedIsInactive(search: string)
    ensures HasActiveFilters(ClearFilters(), search) <==> search != ""
  {
    assert ClearFilters().Keys == {};
  }

  /** Every filter map the table builds holds neither "all" nor "". */
  ghost predicate Chosen(f: Filters) {
    forall k :: k in f ==> f[k] != "all" && f[k] != ""
  }

  lemma FilterChangeKeepsChosen(f: Filters, key: string, value: string)
    requires Chosen(f)
    ensures Chosen(FilterChange(f, key, value)) && Chosen(ClearFilters())
  {
  }

  /** Setting a key and then choosing "all" for it is the same as never having set it. */
  lemma SetThenAll(f: Filters, key: string, value: string)
    ensures FilterChange(FilterChange(f, key, value), key, "all") == f - {key}
  {
  }

  /** `filters[key] || "all"`: what a filter select shows. */
  function Displayed(f: Filters, key: string): (r: string)
    ensures key !in f ==> r == "all"
  {
    if key in f && f[key] != "" then f[key] else "all"
  }

  /** On the maps the table builds the select shows "all" exactly when the key is absent. */
  lemma DisplayedAll(f: Filters, key: string)
    requires Chosen(f)
    ensures Displayed(f, key) == "all" <==> key !in f
    ensures key in f ==> Displayed(f, key) == f[key]
  {
  }

  // ----------------------------------------------------------------- pager

  datatype Pagination = Pagination(pageIndex: int, pageSize: int, pageCount: int, total: int)

  /** The four buttons: disabled flags and the page each asks for. */
  datatype Pager = Pager(firstOff: bool, prevOff: bool, nextOff: bool, lastOff: bool,
                         first: int, prev: int, next: int, last: int)

  function PagerOf(p: Pagination): (r: Pager)
    ensures r.firstOff == r.prevOff && r.nextOff == r.lastOff
    ensures r.firstOff <==> p.pageIndex == 0
    ensures r.nextOff <==> p.pageIndex >= p.pageCount - 1
  {
    var atStart := p.pageIndex == 0;
    var atEnd := p.pageIndex >= p.pageCount - 1;
    Pager(atStart, atStart, atEnd, atEnd, 0, p.pageIndex - 1, p.pageIndex + 1, p.pageCount - 1)
  }

  /** A page the pager lets the user ask for lies within the page count. */
  ghost predicate OnAPage(p: Pagination) {
    0 <= p.pageIndex < p.pageCount
  }

  lemma EnabledButtonsStayInRange(p: Pagination)
    requires OnAPage(p)
    ensures var b := PagerOf(p);
      && (!b.firstOff ==> 0 <= b.first < p.pageCount && 0 <= b.prev < p.pageCount)
      && (!b.nextOff ==> 0 <= b.next < p.pageCount && 0 <= b.last < p.pageCount)
  {
  }

  /** The "Showing from to to of total" numbers. */
  function Showing(p: Pagination): (r: (int, int))
    ensures r.1 <= p.total
    ensures r.0 == p.pageIndex * p.pageSize + 1
    ensures r.1 == (p.pageIndex + 1) * p.pageSize || r.1 == p.total
  {
    var hi := (p.pageIndex + 1) * p.pageSize;
    (p.pageIndex * p.pageSize + 1, if hi <= p.total then hi else p.total)
  }

  /** An empty table reads "Showing 1 to 0 of 0". */
  lemma EmptyTableRange(p: Pagination)
    requires p.pageIndex == 0 && p.total == 0 && p.pageSize >= 0
    ensures Showing(p) == (1, 0)
  {
  }

  /** On a page that exists the range is non-empty and its size is at most the page size. */
  lemma ShowingWithinPage(p: Pagination)
    requires p.pageSize >= 1 && p.pageIndex >= 0 && p.total >= 0
    requires p.pageIndex < Decimal.CeilDiv(p.total, p.pageSize)
    ensures var r := Showing(p); 1 <= r.0 <= r.1 && r.1 - r.0 < p.pageSize
  {
    var c := Decimal.CeilDiv(p.total, p.pageSize);
    MulMono(p.pageIndex, c - 1, p.pageSize);
  }

  lemma MulMono(a: int, b: int, n: int)
    requires 0 <= a <= b && n >= 0
    ensures a * n <= b * n
  {
  }

  /** The page sizes offered. */
  const PageSizes := [10, 20, 30, 40, 50]

  /** `onPageChange(page)` of both tables: only the page index moves. */
  function PageChange(p: Pagination, page: int): (r: Pagination)
    ensures r.pageIndex == page
    ensures r.pageSize == p.pageSize && r.pageCount == p.pageCount && r.total == p.total
  {
    p.(pageIndex := page)
  }

  /** `onPageSizeChange(size)` of both tables: back to the first page. */
  function PageSizeChange(p: Pagination, size: int): (r: Pagination)
    ensures r.pageIndex == 0 && r.pageSize == size
    ensures r.pageCount == p.pageCount && r.total == p.total
  {
    p.(pageSize := size, pageIndex := 0)
  }

  /** A fetch result: only the page count and the total change. */
  function Fetched(p: Pagination, pageCount: int, total: int): (r: Pagination)
    ensures r.pageIndex == p.pageIndex && r.pageSize == p.pageSize
    ensures r.pageCount == pageCount && r.total == total
  {
    p.(pageCount := pageCount, total := total)
  }

  /** A page-size change lands on a page the pager accepts whenever there is one. */
  lemma SizeChangeOnFirstPage(p: Pagination, size: int)
    requires p.pageCount >= 1
    ensures OnAPage(PageSizeChange(p, size)) && PagerOf(PageSizeChange(p, size)).firstOff
  {
  }
}

=== FILE: db.dfy ===
/**
 * The backend's relational store, as immutable values. Each table is a
 * sequence of records in insertion order (the order in which an unordered
 * query meets them); all tables draw their autoincrement ids from one
 * counter, which is all the model needs of ids: that a new one is fresh.
 *
 * `sha256` and `bcrypt.hash` are free constructors: distinct inputs give
 * distinct outputs, and nothing else is known about them. bcrypt's salt is
 * not modelled, so `bcrypt.compare(p, h)` is `h == Bcrypt(p)`.
 */
module Db {
  import opened Wrappers

  datatype Digest = Sha256(input: string)

  datatype PasswordHash = Bcrypt(plain: string)

  datatype User = User(
    id: nat,
    name: string,
    email: string,
    password: PasswordHash,
    avatar: Option<string>,
    emailVerified: Option<int>,
    createdAt: int)

  /** A row of the email-verification, password-reset or refresh-token table. */
  datatype TokenRow = TokenRow(id: nat, userId: nat, tokenHash: Digest, expiresAt: int)

  datatype Book = Book(
    id: nat,
    title: string,
    author: string,
    description: Option<string>,
    thumbnail: Option<string>,
    rating: real,
    uploaderId: nat,
    uploadedAt: int)

  datatype Store = Store(
    users: seq<User>,
    verifications: seq<TokenRow>,
    resets: seq<TokenRow>,
    refreshTokens: seq<TokenRow>,
    books: seq<Book>,
    nextId: nat)

  /** The errors the ORM raises that the model distinguishes. */
  datatype OrmError = RecordNotFound | UniqueViolation | ForeignKeyViolation | InvalidValue

  /** Ids below the counter, user ids and e-mail addresses unique. */
  ghost predicate RowsBelow(rows: seq<TokenRow>, next: nat) {
    forall r :: r in rows ==> r.id < next && r.userId < next
  }

  ghost predicate Valid(s: Store) {
    && (forall u :: u in s.users ==> u.id < s.nextId)
    && (forall i, j :: 0 <= i < j < |s.users| ==> s.users[i].id != s.users[j].id)
    && (forall i, j :: 0 <= i < j < |s.users| ==> s.users[i].email != s.users[j].email)
    && RowsBelow(s.verifications, s.nextId)
    && RowsBelow(s.resets, s.nextId)
    && RowsBelow(s.refreshTokens, s.nextId)
    && (forall b :: b in s.books ==> b.id < s.nextId)
  }

  /**
   * The integer a JavaScript number stands for when it is used as an id;
   * NaN (`None`) and fractions are refused by the ORM's validation.
   */
  function IntId(v: Option<real>): (r: Option<int>)
    ensures r.Some? <==> v.Some? && v.value.Floor as real == v.value
    ensures r.Some? ==> r.value as real == v.value
  {
    if v.Some? && v.value.Floor as real == v.value then Some(v.value.Floor) else None
  }

  /** `user.findUnique({ where: { email } })`. */
  function UserByEmail(users: seq<User>, email: string): (r: Option<User>)
    ensures r.Some? ==> r.value in users && r.value.email == email
    ensures r.None? ==> forall u :: u in users ==> u.email != email
  {
    if users == [] then None
    else if users[0].email == email then Some(users[0])
    else UserByEmail(users[1..], email)
  }

  /** `user.findUnique({ where: { id } })`. */
  function UserById(users: seq<User>, id: int): (r: Option<User>)
    ensures r.Some? ==> r.value in users && r.value.id == id
    ensures r.None? ==> forall u :: u in users ==> u.id != id
  {
    if users == [] then None
    else if users[0].id == id then Some(users[0])
    else UserById(users[1..], id)
  }

  /** Replaces every user whose id is `u.id` by `u`; nobody else changes. */
  function ReplaceUser(users: seq<User>, u: User): (r: seq<User>)
    ensures |r| == |users|
    ensures forall i :: 0 <= i < |users| ==>
      r[i] == (if users[i].id == u.id then u else users[i])
  {
    if users == [] then [] else
    [if users[0].id == u.id then u else users[0]] + ReplaceUser(users[1..], u)
  }

  /**
   * `user.update({ where: { id }, data })` with `data` given as a change of
   * the current record: fails with RecordNotFound when no user has that id.
   */
  function UpdateUser(s: Store, id: int, change: User -> User): (r: Result<(Store, User), OrmError>)
    requires forall u :: change(u).id == u.id
    ensures UserById(s.users, id).None? <==> r.Err?
    ensures r.Err? ==> r.error == RecordNotFound
    ensures r.Ok? ==>
      && r.value.1 == change(UserById(s.users, id).value)
      && r.value.0 == s.(users := ReplaceUser(s.users, r.value.1))
  {
    match UserById(s.users, id)
    case None => Err(RecordNotFound)
    case Some(u) =>
      var u' := change(u);
      Ok((s.(users := ReplaceUser(s.users, u')), u'))
  }

  /** `findFirst({ where: { userId, tokenHash } })`: the first row matching both. */
  function FindRow(rows: seq<TokenRow>, userId: int, h: Digest): (r: Option<TokenRow>)
    ensures r.Some? ==> r.value in rows && r.value.userId == userId && r.value.tokenHash == h
    ensures r.None? ==> forall x :: x in rows ==> !(x.userId == userId && x.tokenHash == h)
  {
    if rows == [] then None
    else if rows[0].userId == userId && rows[0].tokenHash == h then Some(rows[0])
    else FindRow(rows[1..], userId, h)
  }

  /** `findUnique({ where: { tokenHash } })`. */
  function FindByHash(rows: seq<TokenRow>, h: Digest): (r: Option<TokenRow>)
    ensures r.Some? ==> r.value in rows && r.value.tokenHash == h
    ensures r.None? ==> forall x :: x in rows ==> x.tokenHash != h
  {
    if rows == [] then None
    else if rows[0].tokenHash == h then Some(rows[0])
    else FindByHash(rows[1..], h)
  }

  /** `delete({ where: { id } })` on a row known to exist. */
  function DeleteRow(rows: seq<TokenRow>, id: nat): (r: seq<TokenRow>)
    ensures forall x :: x in r <==> x in rows && x.id != id
    ensures |r| <= |rows|
  {
    if rows == [] then []
    else if rows[0].id == id then DeleteRow(rows[1..], id)
    else [rows[0]] + DeleteRow(rows[1..], id)
  }

  /** `deleteMany({ where: { userId } })`. */
  function DeleteRowsOfUser(rows: seq<TokenRow>, userId: nat): (r: seq<TokenRow>)
    ensures forall x :: x in r <==> x in rows && x.userId != userId
  {
    if rows == [] then []
    else if rows[0].userId == userId then DeleteRowsOfUser(rows[1..], userId)
    else [rows[0]] + DeleteRowsOfUser(rows[1..], userId)
  }

  /** `deleteMany({ where: { tokenHash } })`. */
  function DeleteRowsWithHash(rows: seq<TokenRow>, h: Digest): (r: seq<TokenRow>)
    ensures forall x :: x in r <==> x in rows && x.tokenHash != h
  {
    if rows == [] then []
    else if rows[0].tokenHash == h then DeleteRowsWithHash(rows[1..], h)
    else [rows[0]] + DeleteRowsWithHash(rows[1..], h)
  }

  /**
   * `user.create({ data: { name, email, password } })`: fails on a taken
   * e-mail address (the unique constraint); otherwise appends a user with a
   * fresh id, no avatar and no verification stamp.
   */
  function CreateUser(s: Store, name: string, email: string, password: PasswordHash, now: int)
    : (r: Result<(Store, User), OrmError>)
    ensures UserByEmail(s.users, email).Some? <==> r.Err?
    ensures r.Err? ==> r.error == UniqueViolation
    ensures r.Ok? ==> var (s', u) := r.value;
      && u == User(s.nextId, name, email, password, None, None, now)
      && s' == s.(users := s.users + [u], nextId := s.nextId + 1)
  {
    if UserByEmail(s.users, email).Some? then Err(UniqueViolation)
    else
      var u := User(s.nextId, name, email, password, None, None, now);
      Ok((s.(users := s.users + [u], nextId := s.nextId + 1), u))
  }

  /** A new token row with a fresh id, returned with the advanced counter. */
  function NewRow(s: Store, userId: nat, h: Digest, expiresAt: int): (r: TokenRow)
    ensures r.id == s.nextId && r.userId == userId && r.tokenHash == h && r.expiresAt == expiresAt
  {
    TokenRow(s.nextId, userId, h, expiresAt)
  }

  lemma CreateUserKeepsValid(s: Store, name: string, email: string, password: PasswordHash, now: int)
    requires Valid(s)
    requires CreateUser(s, name, email, password, now).Ok?
    ensures Valid(CreateUser(s, name, email, password, now).value.0)
  {
    var s' := CreateUser(s, name, email, password, now).value.0;
    assert forall i :: 0 <= i < |s.users| ==> s.users[i] in s.users;
  }

  /** A token row written with the counter's id, for a user below it, keeps the store valid. */
  lemma AddVerificationKeepsValid(s: Store, row: TokenRow)
    requires Valid(s) && row.id == s.nextId && row.userId < s.nextId
    ensures Valid(s.(verifications := s.verifications + [row], nextId := s.nextId + 1))
  {
  }

  /** A user appended with an address nobody else has is the one found by that address. */
  lemma {:induction false} UserByEmailAppend(users: seq<User>, u: User)
    requires forall x :: x in users ==> x.email != u.email
    ensures UserByEmail(users + [u], u.email) == Some(u)
  {
    if users != [] {
      assert (users + [u])[1..] == users[1..] + [u];
      UserByEmailAppend(users[1..], u);
    }
  }

  /** Appending a user leaves every lookup by id that already succeeded unchanged. */
  lemma {:induction false} UserByIdAppend(users: seq<User>, u: User, id: int)
    requires u.id == id ==> forall x :: x in users ==> x.id != id
    ensures UserById(users + [u], id) == if u.id == id then Some(u) else UserById(users, id)
  {
    if users != [] {
      assert (users + [u])[1..] == users[1..] + [u];
      UserByIdAppend(users[1..], u, id);
    }
  }

  /** A row appended after rows of which none matches is the first match, if it matches. */
  lemma {:induction false} FindRowAppend(rows: seq<TokenRow>, row: TokenRow, userId: int, h: Digest)
    requires forall x :: x in rows ==> !(x.userId == userId && x.tokenHash == h)
    ensures FindRow(rows + [row], userId, h) ==
      if row.userId == userId && row.tokenHash == h then Some(row) else None
  {
    if rows != [] {
      assert (rows + [row])[1..] == rows[1..] + [row];
      FindRowAppend(rows[1..], row, userId, h);
    }
  }

  /** No two rows carry the digest `h`. */
  ghost predicate HashOnce(rows: seq<TokenRow>, h: Digest) {
    forall i, j :: 0 <= i < |rows| && 0 <= j < |rows| && rows[i].tokenHash == h && rows[j].tokenHash == h ==> i == j
  }

  /**
   * Deleting the row a lookup found leaves no row for that digest when it
   * was the only one: the token behind it cannot be redeemed again.
   */
  lemma DeleteOnlyRow(rows: seq<TokenRow>, found: TokenRow)
    requires found in rows && HashOnce(rows, found.tokenHash)
    ensures forall x :: x in DeleteRow(rows, found.id) ==> x.tokenHash != found.tokenHash
  {
    forall x | x in DeleteRow(rows, found.id)
      ensures x.tokenHash != found.tokenHash
    {
      var i :| 0 <= i < |rows| && rows[i] == x;
      var j :| 0 <= j < |rows| && rows[j] == found;
      assert x.id != found.id;
    }
  }

  /** With unique ids, looking a member up by its id finds that member. */
  lemma {:induction false} UserByIdOfMember(users: seq<User>, u: User)
    requires u in users
    requires forall i, j :: 0 <= i < j < |users| ==> users[i].id != users[j].id
    ensures UserById(users, u.id) == Some(u)
  {
    if users[0] != u {
      assert users[0].id != u.id by {
        var k :| 0 < k < |users| && users[k] == u;
      }
      UserByIdOfMember(users[1..], u);
    }
  }

  /** After replacing user `v`, looking up `v.id` finds `v` if it was there; other ids are unaffected. */
  lemma {:induction false} UserByIdReplace(users: seq<User>, v: User, id: int)
    ensures UserById(ReplaceUser(users, v), id) ==
      if id == v.id && UserById(users, id).Some? then Some(v) else UserById(users, id)
  {
    if users != [] {
      UserByIdReplace(users[1..], v, id);
    }
  }
}

=== FILE: decimal.dfy ===
/**
 * Decimal rendering and parsing of numbers: `String(n)` for integers,
 * `Number(s)` and `parseInt(s)` for strings written in plain decimal
 * notation. JavaScript numbers are modelled as `real` (values) and `int`
 * (integers); NaN is `None`.
 */
module Decimal {
  import opened Wrappers
  import opened Text

  predicate IsDigit(c: char) {
    '0' <= c <= '9'
  }

  predicate AllDigits(s: string) {
    forall i :: 0 <= i < |s| ==> IsDigit(s[i])
  }

  function DigitChar(d: nat): (c: char)
    requires d < 10
    ensures IsDigit(c)
  {
    ('0' as int + d) as char
  }

  function DigitValue(c: char): (d: nat)
    requires IsDigit(c)
    ensures d < 10 && DigitChar(d) == c
  {
    c as int - '0' as int
  }

  /** `String(n)` for a non-negative integer: its digits, without leading zeros. */
  function NatToString(n: nat): (r: string)
    ensures r != [] && AllDigits(r)
    ensures |r| > 1 ==> r[0] != '0'
    ensures n < 10 <==> |r| == 1
  {
    if n < 10 then [DigitChar(n)] else NatToString(n / 10) + [DigitChar(n % 10)]
  }

  /** `String(i)` for an integer. */
  function IntToString(i: int): (r: string)
    ensures r != [] && (i < 0 <==> r[0] == '-')
  {
    if i < 0 then "-" + NatToString(-i) else NatToString(i)
  }

  /** The value of a string of decimal digits ("" reads as 0). */
  function DigitsValue(s: string): nat
    requires AllDigits(s)
    decreases |s|
  {
    if s == [] then 0 else DigitsValue(s[..|s| - 1]) * 10 + DigitValue(s[|s| - 1])
  }

  /** Reading back what `NatToString` wrote gives the number again. */
  lemma {:induction false} DigitsValueOfNatToString(n: nat)
    ensures DigitsValue(NatToString(n)) == n
  {
    if n >= 10 {
      var s := NatToString(n);
      var p := NatToString(n / 10);
      assert s[..|s| - 1] == p;
      DigitsValueOfNatToString(n / 10);
    }
  }

  /** The value of the digits after a decimal point: `0.d1d2...`, read from the right. */
  function FractionValue(s: string): (r: real)
    requires AllDigits(s)
    ensures 0.0 <= r < 1.0
    ensures s == [] ==> r == 0.0
  {
    if s == [] then 0.0 else (DigitValue(s[0]) as real + FractionValue(s[1..])) / 10.0
  }

  /** Index of the first '.' in `s`, or |s| when there is none. */
  function DotIndex(s: string): (k: nat)
    ensures k <= |s| && '.' !in s[..k]
    ensures k < |s| ==> s[k] == '.'
  {
    if s == [] then 0
    else if s[0] == '.' then 0
    else
      var k := 1 + DotIndex(s[1..]);
      assert s[..k] == [s[0]] + s[1..][..k - 1];
      k
  }

  /** An unsigned decimal literal: digits, optionally a point and more digits, at least one digit. */
  function UnsignedDecimal(s: string): (r: Option<real>)
    ensures AllDigits(s) && s != [] ==> r == Some(DigitsValue(s) as real)
    ensures r.Some? ==> r.value >= 0.0
  {
    var k := DotIndex(s);
    var ip := s[..k];
    if k == |s| then
      assert ip == s;
      if s != [] && AllDigits(s) then Some(DigitsValue(s) as real) else None
    else
      var fp := s[k + 1..];
      if (ip != [] || fp != []) && AllDigits(ip) && AllDigits(fp)
      then Some(DigitsValue(ip) as real + FractionValue(fp))
      else None
  }

  /**
   * `Number(s)`: surrounding white space is ignored, a blank string is 0, an
   * optional sign precedes an unsigned decimal literal; anything else is NaN.
   */
  function ParseNumber(s: string): Option<real> {
    SignedDecimal(Trim(s))
  }

  /** `Number` of blank text is 0. */
  lemma NumberOfBlank(s: string)
    requires AllWs(s)
    ensures ParseNumber(s) == Some(0.0)
  {
    TrimBlank(s);
  }

  /** An optional sign before an unsigned decimal literal, once the white space is trimmed. */
  function SignedDecimal(t: string): Option<real> {
    if t == [] then Some(0.0)
    else if t[0] == '-' then
      match UnsignedDecimal(t[1..])
      case Some(v) => Some(-v)
      case None => None
    else if t[0] == '+' then UnsignedDecimal(t[1..])
    else UnsignedDecimal(t)
  }

  /** A string with no white space to trim is read as it stands. */
  lemma NumberOfTrimmed(s: string)
    requires Trim(s) == s
    ensures ParseNumber(s) == SignedDecimal(s)
  {
  }

  /** Digits are not white space. */
  lemma DigitNotWs(c: char)
    requires IsDigit(c)
    ensures !IsWs(c)
  {
  }

  /** `Number(String(i)) === i` for every integer `i`. */
  lemma NumberOfIntToString(i: int)
    ensures ParseNumber(IntToString(i)) == Some(i as real)
  {
    if i < 0 {
      NumberOfNegInt(i);
    } else {
      NumberOfNat(i);
    }
  }

  lemma NumberOfNat(n: nat)
    ensures ParseNumber(NatToString(n)) == Some(n as real)
  {
    var d := NatToString(n);
    assert DigitsValue(d) == n by {
      DigitsValueOfNatToString(n);
    }
    NumberOfDigits(d);
  }

  lemma NumberOfNegInt(i: int)
    requires i < 0
    ensures ParseNumber(IntToString(i)) == Some(i as real)
  {
    var d := NatToString(-i);
    assert IntToString(i) == "-" + d;
    DigitsValueOfNatToString(-i);
    NumberOfNegDigits(d, (-i) as real);
  }

  /** A string of digits reads as its value. */
  lemma NumberOfDigits(d: string)
    requires d != [] && AllDigits(d)
    ensures ParseNumber(d) == Some(DigitsValue(d) as real)
  {
    assert Trim(d) == d by {
      DigitNotWs(d[0]);
      DigitNotWs(d[|d| - 1]);
      TrimNoWsEnds(d);
    }
    NumberOfTrimmed(d);
    assert IsDigit(d[0]);
  }

  /** A minus sign before a string of digits negates its value. */
  lemma NumberOfNegDigits(d: string, x: real)
    requires d != [] && AllDigits(d) && DigitsValue(d) as real == x
    ensures ParseNumber("-" + d) == Some(-x)
  {
    MinusDigitsTrimmed(d);
    NumberOfMinus(d, x);
  }

  /** Nothing is trimmed from a minus sign followed by digits. */
  lemma MinusDigitsTrimmed(d: string)
    requires d != [] && AllDigits(d)
    ensures Trim("-" + d) == "-" + d
  {
    var s := "-" + d;
    assert s[0] == '-' && s[|s| - 1] == d[|d| - 1];
    DigitNotWs(d[|d| - 1]);
    TrimNoWsEnds(s);
  }

  /** A minus sign before an unsigned literal, with no white space to trim, negates it. */
  lemma NumberOfMinus(d: string, x: real)
    requires Trim("-" + d) == "-" + d && UnsignedDecimal(d) == Some(x)
    ensures ParseNumber("-" + d) == Some(-x)
  {
    var t := "-" + d;
    assert t[0] == '-' && t[1..] == d;
    NumberOfTrimmed(t);
  }

  /** The longest prefix of `s` made of decimal digits. */
  function LeadingDigits(s: string): (r: string)
    ensures r <= s && AllDigits(r)
    ensures |r| < |s| ==> !IsDigit(s[|r|])
  {
    if s != [] && IsDigit(s[0]) then [s[0]] + LeadingDigits(s[1..]) else []
  }

  /**
   * `parseInt(s)` in base 10: leading white space is skipped, an optional
   * sign is read, then as many digits as follow; no digit at all is NaN.
   */
  function ParseIntPrefix(s: string): (r: Option<int>)
    ensures AllDigits(s) && s != [] ==> r == Some(DigitsValue(s))
  {
    DigitsReadPlainly(s);
    SignedDigits(TrimStart(s))
  }

  /** A plain digit string has no white space to skip and no sign, so it reads as its value. */
  lemma DigitsReadPlainly(s: string)
    ensures AllDigits(s) && s != [] ==> SignedDigits(TrimStart(s)) == Some(DigitsValue(s))
  {
    if AllDigits(s) && s != [] {
      PlainDigits(s);
      DigitsUnsigned(s);
    }
  }

  /** A string of digits has no sign and reads as its value. */
  lemma DigitsUnsigned(s: string)
    requires AllDigits(s) && s != []
    ensures SignedDigits(s) == Some(DigitsValue(s))
  {
    assert IsDigit(s[0]);
    LeadingDigitsAll(s);
  }

  /** An optional sign and the digits after it, once the white space is skipped. */
  function SignedDigits(t: string): Option<int> {
    var u := if t != [] && (t[0] == '-' || t[0] == '+') then t[1..] else t;
    var d := LeadingDigits(u);
    if d == [] then None
    else if t[0] == '-' then Some(-(DigitsValue(d) as int))
    else Some(DigitsValue(d))
  }

  /** A non-empty string of digits has no white space to skip and is all leading digits. */
  lemma PlainDigits(s: string)
    ensures AllDigits(s) && s != [] ==> TrimStart(s) == s && LeadingDigits(s) == s
  {
    if AllDigits(s) && s != [] {
      DigitNotWs(s[0]);
      LeadingDigitsAll(s);
    }
  }

  lemma {:induction false} LeadingDigitsAll(s: string)
    requires AllDigits(s)
    ensures LeadingDigits(s) == s
  {
    if s != [] {
      LeadingDigitsAll(s[1..]);
    }
  }

  /** The digits of `d` are all leading digits when what follows does not start with a digit. */
  lemma {:induction false} LeadingDigitsStop(d: string, rest: string)
    requires AllDigits(d) && (rest == [] || !IsDigit(rest[0]))
    ensures LeadingDigits(d + rest) == d
  {
    if d != [] {
      assert (d + rest)[0] == d[0] && (d + rest)[1..] == d[1..] + rest;
      LeadingDigitsStop(d[1..], rest);
    }
  }

  /**
   * `parseInt` skips leading white space, reads an optional sign and then
   * the digits up to the first character that is not one: " -12abc" reads
   * as -12.
   */
  lemma IntPrefixReads(ws: string, sign: string, d: string, rest: string)
    requires AllWs(ws) && (sign == "" || sign == "-" || sign == "+")
    requires d != [] && AllDigits(d) && (rest == [] || !IsDigit(rest[0]))
    ensures ParseIntPrefix(ws + sign + d + rest) ==
      Some(if sign == "-" then -(DigitsValue(d) as int) else DigitsValue(d))
  {
    IntPrefixReadsAt(ws + sign + d + rest, ws, sign, d, rest);
  }

  lemma IntPrefixReadsAt(s: string, ws: string, sign: string, d: string, rest: string)
    requires s == ws + sign + d + rest && AllWs(ws) && (sign == "" || sign == "-" || sign == "+")
    requires d != [] && AllDigits(d) && (rest == [] || !IsDigit(rest[0]))
    ensures ParseIntPrefix(s) == Some(if sign == "-" then -(DigitsValue(d) as int) else DigitsValue(d))
  {
    var u := sign + d + rest;
    assert s == ws + u;
    DigitNotWs(d[0]);
    assert u[0] == if sign == "" then d[0] else sign[0];
    TrimStartSkips(ws, u);
    SignedDigitsReads(sign, d, rest);
  }

  lemma SignedDigitsReads(sign: string, d: string, rest: string)
    requires sign == "" || sign == "-" || sign == "+"
    requires d != [] && AllDigits(d) && (rest == [] || !IsDigit(rest[0]))
    ensures SignedDigits(sign + d + rest) == Some(if sign == "-" then -(DigitsValue(d) as int) else DigitsValue(d))
  {
    var t := sign + d + rest;
    var v := d + rest;
    if sign == "" {
      assert t == v && t[0] == d[0] && IsDigit(d[0]);
    } else {
      assert t == sign + v;
      assert t[0] == sign[0] && t[1..] == v;
    }
    LeadingDigitsStop(d, rest);
    SignedDigitsOf(t, v, d);
  }

  /** `SignedDigits` once the text after the sign and its leading digits are known. */
  lemma SignedDigitsOf(t: string, v: string, d: string)
    requires t != [] && v == (if t[0] == '-' || t[0] == '+' then t[1..] else t)
    requires LeadingDigits(v) == d && d != []
    ensures SignedDigits(t) == Some(if t[0] == '-' then -(DigitsValue(d) as int) else DigitsValue(d))
  {
  }

  /** A minus sign before digits reads as their negated value: `parseInt("-5")` is -5. */
  lemma IntPrefixOfNegative(d: string)
    requires d != [] && AllDigits(d)
    ensures ParseIntPrefix("-" + d) == Some(-(DigitsValue(d) as int))
  {
    var t := "-" + d;
    assert t[0] == '-' && t[1..] == d && !IsWs(t[0]);
    assert "" + t == t;
    TrimStartSkips("", t);
    LeadingDigitsAll(d);
    SignedDigitsOf(t, d, d);
  }

  /** The first '.' after a run of digits is the one that ends it. */
  lemma {:induction false} DotAfterDigits(a: string, rest: string)
    requires AllDigits(a) && rest != [] && rest[0] == '.'
    ensures DotIndex(a + rest) == |a|
  {
    if a != [] {
      assert (a + rest)[0] == a[0] && (a + rest)[1..] == a[1..] + rest;
      DotAfterDigits(a[1..], rest);
    }
  }

  /** Digits, a point and more digits read as the whole part plus the fraction. */
  lemma UnsignedWithPoint(s: string, a: string, f: string)
    requires s == a + "." + f && a != [] && AllDigits(a) && AllDigits(f)
    ensures UnsignedDecimal(s) == Some(DigitsValue(a) as real + FractionValue(f))
  {
    assert s == a + ("." + f);
    DotAfterDigits(a, "." + f);
    assert s[..|a|] == a;
    assert s[|a| + 1..] == f;
    UnsignedDecimalAt(s, |a|, a, f);
  }

  /** `UnsignedDecimal` once the point and the two parts around it are known. */
  lemma UnsignedDecimalAt(s: string, k: nat, ip: string, fp: string)
    requires DotIndex(s) == k && k < |s| && ip == s[..k] && fp == s[k + 1..]
    requires (ip != [] || fp != []) && AllDigits(ip) && AllDigits(fp)
    ensures UnsignedDecimal(s) == Some(DigitsValue(ip) as real + FractionValue(fp))
  {
  }

  /** `Number` of digits, a point and more digits: "4.5" is 4.5. */
  lemma NumberOfPointed(a: string, f: string)
    requires a != [] && AllDigits(a) && AllDigits(f)
    ensures ParseNumber(a + "." + f) == Some(DigitsValue(a) as real + FractionValue(f))
  {
    PointedReads(a + "." + f, a, f);
  }

  /**
   * A minus sign before any literal that starts with a digit and has nothing to trim
   * negates its value: with `NumberOfPointed`, "-3.25" is -3.25.
   */
  lemma NegatedReads(d: string, x: real)
    requires d != [] && IsDigit(d[0]) && Trim(d) == d && ParseNumber(d) == Some(x)
    ensures ParseNumber("-" + d) == Some(-x)
  {
    NumberOfTrimmed(d);
    assert UnsignedDecimal(d) == Some(x);
    var t := "-" + d;
    assert t[0] == '-' && t[1..] == d && t[|t| - 1] == d[|d| - 1];
    TrimNoWsEnds(t);
    MinusReads(t, d, x);
  }

  lemma PointedReads(s: string, a: string, f: string)
    requires s == a + "." + f && a != [] && AllDigits(a) && AllDigits(f)
    ensures ParseNumber(s) == Some(DigitsValue(a) as real + FractionValue(f))
  {
    assert s[0] == a[0] && IsDigit(a[0]);
    UnsignedWithPoint(s, a, f);
    PointedTrimmed(s, a, f);
    NumberOfPlain(s, DigitsValue(a) as real + FractionValue(f));
  }

  /** A minus sign before a literal it reads, with nothing to trim, negates the value. */
  lemma MinusReads(t: string, d: string, x: real)
    requires t != [] && t[0] == '-' && t[1..] == d && UnsignedDecimal(d) == Some(x) && Trim(t) == t
    ensures ParseNumber(t) == Some(-x)
  {
    NumberOfTrimmed(t);
    MinusDecimal(t, d, x);
  }

  /** `SignedDecimal` of a minus sign before a literal it reads. */
  lemma MinusDecimal(t: string, d: string, x: real)
    requires t != [] && t[0] == '-' && t[1..] == d && UnsignedDecimal(d) == Some(x)
    ensures SignedDecimal(t) == Some(-x)
  {
  }

  /** Digits, a point and digits have no white space to trim. */
  lemma PointedTrimmed(s: string, a: string, f: string)
    requires s == a + "." + f && a != [] && AllDigits(a) && AllDigits(f)
    ensures Trim(s) == s
  {
    assert s[0] == a[0];
    DigitNotWs(a[0]);
    LastNotWs(s, a, f);
    TrimNoWsEnds(s);
  }

  lemma LastNotWs(s: string, a: string, f: string)
    requires s == a + "." + f && AllDigits(f)
    ensures s != [] && !IsWs(s[|s| - 1])
  {
    if f != [] {
      assert s[|s| - 1] == f[|f| - 1];
      DigitNotWs(f[|f| - 1]);
    } else {
      assert s[|s| - 1] == '.';
    }
  }

  /** An unsigned literal with no white space to trim reads as its value. */
  lemma NumberOfPlain(d: string, x: real)
    requires d != [] && IsDigit(d[0]) && Trim(d) == d && UnsignedDecimal(d) == Some(x)
    ensures ParseNumber(d) == Some(x)
  {
    NumberOfTrimmed(d);
  }

  /** `parseInt("12abc")` is 12: reading stops at the first letter. */
  lemma IntPrefixStopsAtLetter()
    ensures ParseIntPrefix("12abc") == Some(12)
  {
    IntPrefixReadsAt("12abc", "", "", "12", "abc");
  }

  /** `parseInt(" -3")` is -3: leading white space is skipped and the sign is read. */
  lemma IntPrefixSkipsWs()
    ensures ParseIntPrefix(" -3") == Some(-3)
  {
    IntPrefixReadsAt(" -3", " ", "-", "3", "");
  }

  /** The half-star rating "4.5" reads as 4.5. */
  lemma HalfRatingReads()
    ensures ParseNumber("4.5") == Some(4.5)
  {
    assert DigitsValue("4") == 4 && FractionValue("5") == 0.5 by {
      assert "5"[1..] == [] && "4"[..0] == [];
    }
    PointedReads("4.5", "4", "5");
  }

  /**
   * `Math.ceil(total / limit)`: the least integer not below `total / limit`.
   * For a negative limit it is zero or negative (a `-0` is sent as 0).
   */
  function CeilDiv(total: nat, limit: int): (r: int)
    requires limit != 0
    ensures limit > 0 ==> r >= 0 && r * limit >= total && (r - 1) * limit < total
    ensures limit < 0 ==> r <= 0 && r * limit <= total && (r - 1) * limit > total
  {
    if limit > 0 then
      CeilDivUp(total, limit);
      (total + limit - 1) / limit
    else
      CeilDivDown(total, -limit);
      -(total / -limit)
  }

  lemma CeilDivUp(total: nat, n: int)
    requires n > 0
    ensures var r := (total + n - 1) / n; r >= 0 && r * n >= total && (r - 1) * n < total
  {
    var x := total + n - 1;
    var r := x / n;
    assert x == r * n + x % n;
    assert (r - 1) * n == r * n - n;
  }

  lemma CeilDivDown(total: nat, n: int)
    requires n > 0
    ensures var r := -(total / n); r <= 0 && r * -n <= total && (r - 1) * -n > total
  {
    var q := total / n;
    assert total == q * n + total % n;
    assert (-q) * -n == q * n;
    assert (-q - 1) * -n == q * n + n;
  }
}

=== FILE: effects.dfy ===
/**
 * What a backend service call produces besides its value: the store after
 * its writes, the e-mails it handed to the mailer, or the error it threw.
 * A thrown error does not undo earlier writes (no transaction is used).
 */
module Effects {
  import opened Wrappers
  import Db
  import EmailTemplate

  /** An error as thrown: with the `status` the services attach, by the ORM, or by the mailer. */
  datatype Failure = Thrown(status: Option<int>, message: string) | Orm(error: Db.OrmError) | MailerFailed

  /**
   * A mail's HTML: markup written out in place, or the verification
   * template applied to its arguments, which `HtmlText` renders.
   */
  datatype Html = Literal(markup: string) | Templated(letter: EmailTemplate.Letter)

  function HtmlText(h: Html): string {
    match h
    case Literal(markup) => markup
    case Templated(letter) => EmailTemplate.Body(letter)
  }

  datatype Mail = Mail(to: string, subject: string, text: string, html: Html)

  /** The environment variables the services read. */
  datatype Env = Env(production: bool, frontendUrl: Option<string>, appUrl: Option<string>)

  datatype Step<+T> = Step(store: Db.Store, result: Result<T, Failure>, mails: seq<Mail>)

  /** How an unset variable renders inside a template literal. */
  function EnvText(v: Option<string>): string {
    v.GetOr("undefined")
  }

  /**
   * `err.message`. The text of ORM and mailer errors belongs to those
   * libraries; the model uses a fixed stand-in for each kind.
   */
  function Message(f: Failure): string {
    match f
    case Thrown(_, m) => m
    case Orm(e) => (
      match e
      case RecordNotFound => "ORM: record not found"
      case UniqueViolation => "ORM: unique constraint failed"
      case ForeignKeyViolation => "ORM: foreign key constraint failed"
      case InvalidValue => "ORM: invalid argument value")
    case MailerFailed => "Mailer: delivery failed"
  }
}

=== FILE: email_template.dfy ===
/**
 * `emailTemplate` of utils/email-template.ts: the HTML body of the
 * verification e-mail. The fixed markup is kept character for character;
 * the year is a parameter instead of `new Date().getFullYear()`.
 */
module EmailTemplate {
  import opened Wrappers
  import opened Text
  import opened Decimal

  /**
   * The fixed markup of the template, piece by piece: the text before the
   * title, between title and greeting, ..., after the year.
   */
  datatype Markup = Markup(
    beforeTitle: string,
    beforeGreeting: string,
    beforeMessage: string,
    beforeButton: string,
    buttonOpen: string,
    buttonMiddle: string,
    buttonClose: string,
    noticeLead: string,
    notice: string,
    footerLead: string,
    copyright: string,
    owner: string,
    closing: string)

  /** The notice under the button, the copyright sign and the owner's line of the footer. */
  const Notice := "If you didn\U{2019}t request this, you can " + "safely ignore this email."
  const Copyright := "\U{00A9} "
  const Owner := " Juan Akbar Indrian. All rights " + "reserved."

  const Html := Markup(
    "\n  <div style=\"font-family: Arial, " +
      "sans-serif; background-color: " +
      "#f8f9fa; padding: 40px;\">\n" +
      "    <div style=\"max-width: 480px; " +
      "margin: auto; background-color: " +
      "#ffffff; border-radius: 8px; " +
      "overflow: hidden; box-shadow: 0 4px " +
      "10px rgba(0,0,0,0.05);\">\n" +
      "      \n      <!-- Header -->\n" +
      "      <div style=\"background-color: " +
      "#212121; padding: 20px; text-align: " +
      "center;\">\n        <h1 style=\"color: " +
      "#ffffff; font-size: 20px; margin: 0;\">",
    "</h1>\n      </div>\n" +
      "\n      <!-- Content -->\n" +
      "      <div style=\"padding: 30px; " +
      "color: #333333;\">\n" +
      "        <p style=\"font-size: 16px; " +
      "margin-bottom: 20px;\">\n" +
      "          ",
    "\n        </p>\n" +
      "        <p style=\"font-size: 15px; " +
      "line-height: 1.6; margin-bottom: " +
      "25px;\">\n          ",
    "\n        </p>\n\n        ",
    "<div style=\"text-align: center; " +
      "margin-bottom: 30px;\">\n" +
      "                <a href=\"",
    "\" \n                  " +
      "style=\"background-color: #212121; " +
      "color: #ffffff; text-decoration: " +
      "none; \n                         " +
      "padding: 12px 24px; font-size: " +
      "15px; border-radius: 6px; display: " +
      "inline-block;\">\n" +
      "                  ",
    "\n                </a>\n" + "              </div>",
    "\n\n        <p style=\"font-size: " +
      "13px; color: #666666; line-height: " +
      "1.5;\">\n          ",
    Notice,
    "\n        </p>\n" +
      "      </div>\n" +
      "\n      <!-- Footer -->\n" +
      "      <div style=\"background-color: " +
      "#f1f1f1; padding: 15px; text-align: " +
      "center; font-size: 12px; color: " +
      "#888888;\">\n        ",
    Copyright,
    Owner,
    "\n      </div>\n    </div>\n  </div>\n  ")

  /** `buttonText && buttonUrl`: both given and non-empty. */
  predicate HasButton(buttonText: Option<string>, buttonUrl: Option<string>) {
    buttonText.Some? && buttonText.value != "" && buttonUrl.Some? && buttonUrl.value != ""
  }

  function Head(m: Markup, title: string, greeting: string, message: string): string {
    m.beforeTitle + title + m.beforeGreeting + greeting + m.beforeMessage + message + m.beforeButton
  }

  function Button(m: Markup, buttonText: Option<string>, buttonUrl: Option<string>): string {
    if HasButton(buttonText, buttonUrl)
    then m.buttonOpen + buttonUrl.value + m.buttonMiddle + buttonText.value + m.buttonClose
    else ""
  }

  /** The copyright line. */
  function Footer(m: Markup, year: int): string {
    m.copyright + IntToString(year) + m.owner
  }

  function FooterBlock(m: Markup, year: int): string {
    m.footerLead + Footer(m, year) + m.closing
  }

  function Tail(m: Markup, year: int): string {
    m.noticeLead + m.notice + FooterBlock(m, year)
  }

  function RenderWith(m: Markup, title: string, greeting: string, message: string,
                      buttonText: Option<string>, buttonUrl: Option<string>, year: int): string
  {
    Head(m, title, greeting, message) + Button(m, buttonText, buttonUrl) + Tail(m, year)
  }

  /** `emailTemplate({ title, greeting, message, buttonText, buttonUrl })` in the given year. */
  function Render(title: string, greeting: string, message: string,
                  buttonText: Option<string>, buttonUrl: Option<string>, year: int): string
  {
    RenderWith(Html, title, greeting, message, buttonText, buttonUrl, year)
  }

  /** The arguments of one `emailTemplate` call, the year included. */
  datatype Letter = Letter(title: string, greeting: string, message: string,
                           buttonText: Option<string>, buttonUrl: Option<string>, year: int)

  function Body(l: Letter): string {
    Render(l.title, l.greeting, l.message, l.buttonText, l.buttonUrl, l.year)
  }

  /** Where each interpolated piece sits in the head, whatever the markup around it. */
  lemma HeadWindows(bT: string, title: string, bG: string, greeting: string, bM: string, message: string,
                    bB: string, rest: string)
    ensures var r := bT + title + bG + greeting + bM + message + bB + rest;
      var a := |bT|;
      var b := a + |title| + |bG|;
      var c := b + |greeting| + |bM|;
      && c + |message| <= |r|
      && r[..a] == bT
      && r[a..a + |title|] == title
      && r[b..b + |greeting|] == greeting
      && r[c..c + |message|] == message
  {
  }

  /** Title, greeting and message appear verbatim, in this order, between the fixed markup. */
  lemma InterpolatesVerbatim(m: Markup, title: string, greeting: string, message: string,
                             buttonText: Option<string>, buttonUrl: Option<string>, year: int)
    ensures var r := RenderWith(m, title, greeting, message, buttonText, buttonUrl, year);
      var a := |m.beforeTitle|;
      var b := a + |title| + |m.beforeGreeting|;
      var c := b + |greeting| + |m.beforeMessage|;
      && c + |message| <= |r|
      && r[..a] == m.beforeTitle
      && r[a..a + |title|] == title
      && r[b..b + |greeting|] == greeting
      && r[c..c + |message|] == message
  {
    HeadWindows(m.beforeTitle, title, m.beforeGreeting, greeting, m.beforeMessage, message, m.beforeButton,
                Button(m, buttonText, buttonUrl) + Tail(m, year));
  }

  /** The button block is there exactly when both `buttonText` and `buttonUrl` are non-empty. */
  lemma ButtonIffBothGiven(m: Markup, title: string, greeting: string, message: string,
                           buttonText: Option<string>, buttonUrl: Option<string>, year: int)
    requires m.buttonOpen != []
    ensures var r := RenderWith(m, title, greeting, message, buttonText, buttonUrl, year);
      HasButton(buttonText, buttonUrl) <==> |r| > |Head(m, title, greeting, message)| + |Tail(m, year)|
  {
  }

  /** Where the URL and the label sit in a body `hd + link + tail`. */
  lemma LinkWindows(hd: string, open: string, url: string, middle: string, text: string, close: string, tail: string)
    ensures var r := hd + (open + url + middle + text + close) + tail;
      var h := |hd|;
      var u := h + |open|;
      var l := u + |url| + |middle|;
      && l + |text| <= |r|
      && r[h..u] == open
      && r[u..u + |url|] == url
      && r[u + |url|..l] == middle
      && r[l..l + |text|] == text
  {
  }

  /** With a button, the link's `href` is the URL and its label the text, between the fixed markup. */
  lemma ButtonLink(m: Markup, title: string, greeting: string, message: string,
                   buttonText: Option<string>, buttonUrl: Option<string>, year: int)
    requires HasButton(buttonText, buttonUrl)
    ensures var r := RenderWith(m, title, greeting, message, buttonText, buttonUrl, year);
      var h := |Head(m, title, greeting, message)|;
      var u := h + |m.buttonOpen|;
      var l := u + |buttonUrl.value| + |m.buttonMiddle|;
      && l + |buttonText.value| <= |r|
      && r[h..u] == m.buttonOpen
      && r[u..u + |buttonUrl.value|] == buttonUrl.value
      && r[u + |buttonUrl.value|..l] == m.buttonMiddle
      && r[l..l + |buttonText.value|] == buttonText.value
  {
    LinkWindows(Head(m, title, greeting, message), m.buttonOpen, buttonUrl.value, m.buttonMiddle,
                buttonText.value, m.buttonClose, Tail(m, year));
  }

  /** The "safely ignore" notice is always in the body. */
  lemma NoticeAlwaysPresent(m: Markup, title: string, greeting: string, message: string,
                            buttonText: Option<string>, buttonUrl: Option<string>, year: int)
    ensures Contains(RenderWith(m, title, greeting, message, buttonText, buttonUrl, year), m.notice)
  {
    ContainsWitness(m.noticeLead, m.notice, FooterBlock(m, year));
    ContainsAfter(Head(m, title, greeting, message) + Button(m, buttonText, buttonUrl), Tail(m, year), m.notice);
  }

  /** The footer names the given year, in decimal, after the copyright sign. */
  lemma FooterHasYear(m: Markup, title: string, greeting: string, message: string,
                      buttonText: Option<string>, buttonUrl: Option<string>, year: int)
    ensures Contains(RenderWith(m, title, greeting, message, buttonText, buttonUrl, year),
                     m.copyright + IntToString(year) + m.owner)
  {
    ContainsWitness(m.footerLead, Footer(m, year), m.closing);
    ContainsAfter(m.noticeLead + m.notice, FooterBlock(m, year), Footer(m, year));
    ContainsAfter(Head(m, title, greeting, message) + Button(m, buttonText, buttonUrl), Tail(m, year), Footer(m, year));
  }

  /** Every rendered e-mail carries the notice and the footer with the year. */
  lemma RenderedEmail(title: string, greeting: string, message: string,
                      buttonText: Option<string>, buttonUrl: Option<string>, year: int)
    ensures var r := Render(title, greeting, message, buttonText, buttonUrl, year);
      && Contains(r, Notice)
      && Contains(r, Copyright + IntToString(year) + Owner)
  {
    NoticeAlwaysPresent(Html, title, greeting, message, buttonText, buttonUrl, year);
    FooterHasYear(Html, title, greeting, message, buttonText, buttonUrl, year);
  }

  /** The template's button block is never empty, so `ButtonIffBothGiven` applies to it. */
  lemma ButtonMarkupNonEmpty()
    ensures Html.buttonOpen != []
  {
    assert Html.buttonOpen[0] == '<';
  }
}

=== FILE: envelope.dfy ===
/**
 * The JSON response envelope `{ success, message, data, errors }` built by
 * the `success` and `error` helpers, and the payloads the handlers put in it.
 */
module Envelope {
  import opened Wrappers
  import Db
  import Jwt

  /** A JSON property that is left out (`undefined`), `null`, or a value. */
  datatype Slot<+T> = Undefined | Null | Value(v: T)

  /** A user as `getProfile` selects it: no password. */
  datatype Profile = Profile(id: nat, name: string, email: string, avatar: Option<string>, createdAt: int)

  /** A user as `updateProfile` and `uploadAvatar` select it: no password. */
  datatype UserView = UserView(id: nat, name: string, email: string, avatar: Option<string>)

  datatype Payload =
    | ValidationIssues(fields: set<string>)
    | NewUser(id: nat, email: string)
    | AccessToken(token: Jwt.Token)
    | ResetToken(resetToken: string)
    | BookPage(total: nat, page: int, totalPages: int, books: seq<Db.Book>)
    | BookRecord(book: Db.Book)
    | ProfileRecord(profile: Profile)
    | UserRecord(user: UserView)
    | Cause(message: string)

  datatype Envelope = Envelope(success: bool, message: string, data: Slot<Payload>, errors: Slot<Payload>)

  /** An HTTP response: status code and JSON body. */
  datatype Response = Response(status: int, body: Envelope)

  /** `success(message, data)`. */
  function Success(message: string, data: Slot<Payload>): (r: Envelope)
    ensures r.success && r.message == message && r.data == data && r.errors == Null
  {
    Envelope(true, message, data, Null)
  }

  /** `error(message, errors)`. */
  function Error(message: string, errors: Slot<Payload>): (r: Envelope)
    ensures !r.success && r.message == message && r.data == Null && r.errors == errors
  {
    Envelope(false, message, Null, errors)
  }
}

=== FILE: form_schema.dfy ===
/**
 * The parts of the Zod object schemas the forms use: every field is checked
 * and every failed check is reported as an issue on that field, in field
 * order. The e-mail check is an abstract predicate `isEmail`.
 */
module FormSchema {
  import opened Wrappers
  import opened Text

  /** One validation issue: the field it belongs to and its message. */
  datatype Issue = Issue(field: string, message: string)

  /** The issues reported on one field. */
  function On(issues: seq<Issue>, field: string): (r: seq<string>)
    ensures |r| <= |issues|
    ensures forall m :: m in r <==> Issue(field, m) in issues
  {
    if issues == [] then []
    else (if issues[0].field == field then [issues[0].message] else []) + On(issues[1..], field)
  }

  /** A field that no issue belongs to has none reported. */
  lemma NoneOn(issues: seq<Issue>, field: string)
    requires forall k :: 0 <= k < |issues| ==> issues[k].field != field
    ensures On(issues, field) == []
  {
    if issues != [] {
      NoneOn(issues[1..], field);
    }
  }

  /** `z.string().min(n, message)` on a present value; the length is in UTF-16 code units. */
  function MinLength(field: string, v: string, n: nat, message: string): (r: seq<Issue>)
    ensures r == [] <==> Utf16Length(v) >= n
    ensures r != [] ==> r == [Issue(field, message)]
  {
    if Utf16Length(v) >= n then [] else [Issue(field, message)]
  }

  /** `z.string().email(message)` on a present value. */
  function EmailField(field: string, v: string, isEmail: string -> bool, message: string): (r: seq<Issue>)
    ensures r == [] <==> isEmail(v)
    ensures r != [] ==> r == [Issue(field, message)]
  {
    if isEmail(v) then [] else [Issue(field, message)]
  }

  /** Zod's message for a required string field that is missing. */
  const Required := "Required"
}

=== FILE: initials.dfy ===
/**
 * `getUserInitials` of lib/utils.ts. Its pipeline (trim, collapse white
 * space runs, split on spaces, drop empty pieces) is proved equal to a
 * reference definition of the words of a name, so the initials depend on
 * the words alone. Case mapping is ASCII only.
 */
module Initials {
  import opened Wrappers
  import opened Text

  // ------------------------------------------------------------ the words

  /** The words that remain to be emitted, with `cur` the word being read. */
  function End(cur: string): seq<string> {
    if cur == [] then [] else [cur]
  }

  /**
   * Reference: the maximal runs of non-white-space characters of `s`, in
   * order, with `cur` the part of the current run read so far.
   */
  function WordsFrom(s: string, cur: string): (r: seq<string>)
    decreases |s|
  {
    if s == [] then End(cur)
    else if IsWs(s[0]) then End(cur) + WordsFrom(s[1..], [])
    else WordsFrom(s[1..], cur + [s[0]])
  }

  function Words(s: string): seq<string> {
    WordsFrom(s, [])
  }

  /** Every word is non-empty and free of white space. */
  lemma {:induction false} WordsAreWords(s: string, cur: string)
    requires forall k :: 0 <= k < |cur| ==> !IsWs(cur[k])
    ensures forall i :: 0 <= i < |WordsFrom(s, cur)| ==>
      WordsFrom(s, cur)[i] != [] && forall k :: 0 <= k < |WordsFrom(s, cur)[i]| ==> !IsWs(WordsFrom(s, cur)[i][k])
    decreases |s|
  {
    if s == [] {
    } else if IsWs(s[0]) {
      WordsAreWords(s[1..], []);
    } else {
      WordsAreWords(s[1..], cur + [s[0]]);
    }
  }

  /** `/\s+/g` replaced by a single space; `inRun` after a white-space character. */
  function CollapseFrom(s: string, inRun: bool): (r: string)
    ensures |r| <= |s|
    decreases |s|
  {
    if s == [] then []
    else if IsWs(s[0]) then (if inRun then [] else [' ']) + CollapseFrom(s[1..], true)
    else [s[0]] + CollapseFrom(s[1..], false)
  }

  /** `s.replace(/\s+/g, " ")`. */
  function Collapse(s: string): string {
    CollapseFrom(s, false)
  }

  /** `.filter((word) => word.length > 0)`. */
  function NonEmpty(xs: seq<string>): (r: seq<string>)
    ensures forall i :: 0 <= i < |r| ==> r[i] != []
  {
    if xs == [] then []
    else End(xs[0]) + NonEmpty(xs[1..])
  }

  /** The non-empty pieces of a split on spaces are the words of a string whose only white space is spaces. */
  lemma {:induction false} SplitIsWords(t: string, cur: string)
    requires SpacesOnly(t)
    ensures NonEmpty(SplitFrom(t, ' ', cur)) == WordsFrom(t, cur)
    decreases |t|
  {
    if t == [] {
    } else if t[0] == ' ' {
      SplitIsWords(t[1..], []);
      var rest := SplitFrom(t[1..], ' ', []);
      assert ([cur] + rest)[1..] == rest;
    } else {
      SplitIsWords(t[1..], cur + [t[0]]);
    }
  }

  /** Collapsing white-space runs does not change the words. */
  lemma {:induction false} CollapseKeepsWords(t: string, inRun: bool, cur: string)
    requires inRun ==> cur == []
    ensures WordsFrom(CollapseFrom(t, inRun), cur) == WordsFrom(t, cur)
    decreases |t|
  {
    if t == [] {
    } else if IsWs(t[0]) {
      CollapseKeepsWords(t[1..], true, []);
      if !inRun {
        var c := CollapseFrom(t[1..], true);
        assert ([' '] + c)[1..] == c;
      } else {
        assert CollapseFrom(t, inRun) == CollapseFrom(t[1..], true);
      }
    } else {
      CollapseKeepsWords(t[1..], false, cur + [t[0]]);
      var c := CollapseFrom(t[1..], false);
      assert ([t[0]] + c)[1..] == c;
    }
  }

  /** The only white space in `s` is the plain space. */
  predicate SpacesOnly(s: string) {
    forall k :: 0 <= k < |s| ==> IsWs(s[k]) ==> s[k] == ' '
  }

  /** Collapsed text has only spaces as white space. */
  lemma {:induction false} CollapseOnlySpaces(t: string, inRun: bool)
    ensures SpacesOnly(CollapseFrom(t, inRun))
    decreases |t|
  {
    if t != [] {
      CollapseOnlySpaces(t[1..], IsWs(t[0]));
      var head := if IsWs(t[0]) then (if inRun then [] else [' ']) else [t[0]];
      var c := CollapseFrom(t[1..], IsWs(t[0]));
      assert CollapseFrom(t, inRun) == head + c;
      assert forall k :: 0 <= k < |head + c| ==> (head + c)[k] == if k < |head| then head[k] else c[k - |head|];
    }
  }

  /** White space read outside a word is skipped. */
  lemma {:induction false} LeadingWsSkipped(w: string, p: string)
    requires AllWs(w)
    ensures WordsFrom(w + p, []) == WordsFrom(p, [])
    decreases |w|
  {
    if w != [] {
      assert (w + p)[0] == w[0] && IsWs(w[0]);
      assert (w + p)[1..] == w[1..] + p;
      assert WordsFrom(w + p, []) == End([]) + WordsFrom(w[1..] + p, []);
      LeadingWsSkipped(w[1..], p);
      assert End([]) + WordsFrom(w[1..] + p, []) == WordsFrom(p, []);
    } else {
      assert w + p == p;
    }
  }

  /** White space at the end only closes the current word. */
  lemma {:induction false} TrailingWsSkipped(p: string, w: string, cur: string)
    requires AllWs(w)
    ensures WordsFrom(p + w, cur) == WordsFrom(p, cur)
    decreases |p|
  {
    if p == [] {
      assert p + w == w;
      OnlyWs(w, cur);
    } else {
      assert (p + w)[1..] == p[1..] + w;
      if IsWs(p[0]) {
        TrailingWsSkipped(p[1..], w, []);
      } else {
        TrailingWsSkipped(p[1..], w, cur + [p[0]]);
      }
    }
  }

  lemma BlankHasNoWords(s: string)
    ensures AllWs(s) ==> Words(s) == []
  {
    if AllWs(s) {
      OnlyWs(s, []);
    }
  }

  lemma {:induction false} OnlyWs(w: string, cur: string)
    requires AllWs(w)
    ensures WordsFrom(w, cur) == End(cur)
    decreases |w|
  {
    if w != [] {
      OnlyWs(w[1..], []);
    }
  }

  /** Trimming does not change the words. */
  lemma TrimKeepsWords(s: string)
    ensures Words(Trim(s)) == Words(s)
  {
    var i := |s| - |TrimStart(s)|;
    var t := Trim(s);
    assert s == s[..i] + (t + s[i + |t|..]);
    LeadingWsSkipped(s[..i], t + s[i + |t|..]);
    TrailingWsSkipped(t, s[i + |t|..], []);
  }

  /** The pipeline of `getUserInitials` computes the reference words. */
  lemma PipelineIsWords(s: string)
    ensures NonEmpty(Split(Collapse(Trim(s)), ' ')) == Words(s)
  {
    CollapseOnlySpaces(Trim(s), false);
    SplitIsWords(Collapse(Trim(s)), []);
    CollapseKeepsWords(Trim(s), false, []);
    TrimKeepsWords(s);
  }

  // ---------------------------------------------------------- the initials

  function Min(a: int, b: int): int {
    if a <= b then a else b
  }

  /** `Math.min(n, len)` as `substring` clamps it: into `[0, len]`. */
  function SubstringEnd(n: int, len: nat): (r: nat)
    ensures r <= len
    ensures 0 <= n <= len ==> r == n
  {
    if n < 0 then 0 else Min(n, len)
  }

  /** The end index `slice(0, n)` uses on `len` items: a negative `n` counts from the end. */
  function SliceEnd(n: int, len: nat): (r: nat)
    ensures r <= len
    ensures 0 <= n <= len ==> r == n
    ensures n < 0 ==> r == if len + n < 0 then 0 else len + n
  {
    if n < 0 then (if len + n < 0 then 0 else len + n) else Min(n, len)
  }

  /** `.map((word) => word.charAt(0).toUpperCase()).join("")`. */
  function Firsts(words: seq<string>): (r: string)
    requires forall i :: 0 <= i < |words| ==> words[i] != []
    ensures |r| == |words|
    ensures forall i :: 0 <= i < |words| ==> r[i] == UpperChar(words[i][0])
  {
    if words == [] then [] else [UpperChar(words[0][0])] + Firsts(words[1..])
  }

  /** The initials of a list of words, as the function computes them once the words are known. */
  function FromWords(words: seq<string>, maxInitials: int): string
    requires forall i :: 0 <= i < |words| ==> words[i] != []
  {
    if words == [] then "?"
    else if |words| == 1 then
      if maxInitials == 1 then [UpperChar(words[0][0])]
      else Upper(words[0][..SubstringEnd(maxInitials, |words[0]|)])
    else Firsts(words[..SliceEnd(maxInitials, |words|)])
  }

  /**
   * `getUserInitials(name, maxInitials)`; `None` is a name that is not a
   * string. The result is "?" for an absent, empty or blank name; otherwise
   * it is computed from the reference words of the name.
   */
  function GetUserInitials(name: Option<string>, maxInitials: int): (r: string)
    ensures name.None? || name == Some("") ==> r == "?"
    ensures name.Some? && AllWs(name.value) ==> r == "?"
    ensures name.Some? && name.value != "" ==>
      WordsNonEmpty(name.value) && r == FromWords(Words(name.value), maxInitials)
    ensures maxInitials >= 1 ==> |r| <= maxInitials
  {
    if name.None? || name.value == "" then "?"
    else
      var clean := Collapse(Trim(name.value));
      PipelineIsWords(name.value);
      WordsNonEmptyHolds(name.value);
      BlankHasNoWords(name.value);
      if clean == [] then "?"
      else
        var words := NonEmpty(Split(clean, ' '));
        if words == [] then "?"
        else if |words| == 1 then
          if maxInitials == 1 then [UpperChar(words[0][0])]
          else Upper(words[0][..SubstringEnd(maxInitials, |words[0]|)])
        else Firsts(words[..SliceEnd(maxInitials, |words|)])
  }

  /** The words of any string are non-empty (the precondition of `FromWords`). */
  predicate WordsNonEmpty(s: string)
  {
    forall i :: 0 <= i < |Words(s)| ==> Words(s)[i] != []
  }

  lemma WordsNonEmptyHolds(s: string)
    ensures WordsNonEmpty(s)
  {
    WordsAreWords(s, []);
  }

  /** Leading, trailing and repeated white space do not change the initials. */
  lemma IgnoresSurroundingWs(w1: string, s: string, w2: string, maxInitials: int)
    requires AllWs(w1) && AllWs(w2)
    ensures GetUserInitials(Some(w1 + s + w2), maxInitials) == GetUserInitials(Some(s), maxInitials)
  {
    LeadingWsSkipped(w1, s + w2);
    TrailingWsSkipped(s, w2, []);
    assert w1 + s + w2 == w1 + (s + w2);
    WordsNonEmptyHolds(s);
    if s == "" {
      OnlyWs(w1 + s + w2, []);
    }
  }

  lemma IgnoresRepeatedWs(a: string, w: string, b: string, maxInitials: int)
    requires AllWs(w) && w != []
    ensures GetUserInitials(Some(a + w + b), maxInitials) == GetUserInitials(Some(a + " " + b), maxInitials)
  {
    RunIsOneSpace(a, w, b, []);
    WordsNonEmptyHolds(a + " " + b);
  }

  lemma {:induction false} RunIsOneSpace(a: string, w: string, b: string, cur: string)
    requires AllWs(w) && w != []
    ensures WordsFrom(a + w + b, cur) == WordsFrom(a + " " + b, cur)
    decreases |a|
  {
    if a == [] {
      assert a + w + b == w + b;
      assert (w + b)[1..] == w[1..] + b;
      LeadingWsSkipped(w[1..], b);
      assert a + " " + b == [' '] + b;
      assert ([' '] + b)[1..] == b;
    } else {
      assert (a + w + b)[1..] == a[1..] + w + b;
      assert (a + " " + b)[1..] == a[1..] + " " + b;
      if IsWs(a[0]) {
        RunIsOneSpace(a[1..], w, b, []);
      } else {
        RunIsOneSpace(a[1..], w, b, cur + [a[0]]);
      }
    }
  }

  /** Several words: the upper-cased first letters of the first `maxInitials` words, in order. */
  lemma SeveralWords(s: string, maxInitials: int)
    requires |Words(s)| > 1 && 0 <= maxInitials
    ensures var r := GetUserInitials(Some(s), maxInitials);
      && |r| == Min(maxInitials, |Words(s)|)
      && forall i :: 0 <= i < |r| ==> r[i] == UpperChar(Words(s)[i][0])
  {
    WordsNonEmptyHolds(s);
    assert s != "";
  }
}

=== FILE: jwt.dfy ===
/**
 * JSON Web Tokens (RFC 7519) as an abstract sign/verify pair: a signed
 * token is its claims together with the key that signed it, and any other
 * string presented as a token is `Opaque`. Verification succeeds exactly
 * when the keys agree and the token has not expired; the signature
 * algorithm itself is not modelled.
 */
module Jwt {
  import opened Wrappers
  import opened Decimal

  /** The `sub` claim: a number or a string, as the signer passed it. */
  datatype Claim = NumClaim(n: int) | StrClaim(s: string)

  /** Registered claims; `iat` and `exp` in seconds since the epoch. */
  datatype Claims = Claims(sub: Claim, iat: int, exp: int)

  datatype Token = Jws(claims: Claims, key: string) | Opaque(text: string)

  /** `expiresIn: "15m"` and `expiresIn: "7d"`, in seconds. */
  const AccessTtlSeconds: nat := 15 * 60
  const RefreshTtlSeconds: nat := 7 * 24 * 60 * 60

  /** `Math.floor(Date.now() / 1000)`: the token clock is in whole seconds. */
  function Seconds(nowMs: int): int {
    nowMs / 1000
  }

  /** A token string is falsy only when it is empty. */
  predicate Falsy(t: Token) {
    t == Opaque("")
  }

  /** `jwt.sign({ sub }, key, { expiresIn })` at time `nowMs`. */
  function Sign(sub: Claim, key: string, nowMs: int, ttlSeconds: nat): (t: Token)
    ensures t.Jws? && t.key == key && t.claims.sub == sub
    ensures t.claims.exp - t.claims.iat == ttlSeconds && t.claims.iat == Seconds(nowMs)
  {
    Jws(Claims(sub, Seconds(nowMs), Seconds(nowMs) + ttlSeconds), key)
  }

  /**
   * `jwt.verify(token, key)`: the claims of a token signed with `key`
   * whose `exp` is still in the future; `None` where the library throws.
   */
  function Verify(t: Token, key: string, nowMs: int): (r: Option<Claims>)
    ensures r.Some? <==> t.Jws? && t.key == key && Seconds(nowMs) < t.claims.exp
    ensures r.Some? ==> r.value == t.claims
  {
    if t.Jws? && t.key == key && Seconds(nowMs) < t.claims.exp then Some(t.claims) else None
  }

  /** `signAccessToken(userId)` of utils/jwt.ts: the subject is `String(userId)`. */
  function SignAccessToken(userId: int, accessKey: string, nowMs: int): (t: Token)
    ensures t.Jws? && t.claims.sub == StrClaim(IntToString(userId))
  {
    Sign(StrClaim(IntToString(userId)), accessKey, nowMs, AccessTtlSeconds)
  }

  /** A signed token verifies under its own key until its lifetime has run out, and not after. */
  lemma SignThenVerify(sub: Claim, key: string, signedAt: int, ttl: nat, nowMs: int)
    ensures Verify(Sign(sub, key, signedAt, ttl), key, nowMs).Some?
        <==> Seconds(nowMs) < Seconds(signedAt) + ttl
  {
  }

  /** Under any other key the signed token never verifies. */
  lemma WrongKeyRejected(sub: Claim, key: string, other: string, signedAt: int, ttl: nat, nowMs: int)
    requires other != key
    ensures Verify(Sign(sub, key, signedAt, ttl), other, nowMs).None?
  {
  }
}

=== FILE: password_controller.dfy ===
/**
 * controllers/password.controller.ts: `forgotPassword` and `resetPassword`
 * map the password service onto HTTP responses.
 */
module PasswordController {
  import opened Wrappers
  import opened Db
  import opened Effects
  import opened Envelope
  import Decimal
  import PasswordService

  /** A JSON value as it may arrive in a request body; `None` is an absent property. */
  datatype Json = JNull | JBool(b: bool) | JNum(n: real) | JStr(s: string)

  /** JavaScript truthiness of a body property (JSON has no NaN). */
  predicate Truthy(v: Option<Json>) {
    match v
    case None => false
    case Some(j) => (
      match j
      case JNull => false
      case JBool(b) => b
      case JNum(n) => n != 0.0
      case JStr(s) => s != "")
  }

  /** `Number(v)` of a present JSON value; `None` is NaN. */
  function NumberOf(j: Json): (r: Option<real>)
    ensures j.JNum? ==> r == Some(j.n)
    ensures j.JStr? ==> r == Decimal.ParseNumber(j.s)
    ensures j.JNull? ==> r == Some(0.0)
  {
    match j
    case JNull => Some(0.0)
    case JBool(b) => Some(if b then 1.0 else 0.0)
    case JNum(n) => Some(n)
    case JStr(s) => Decimal.ParseNumber(s)
  }

  datatype ResetBody = ResetBody(id: Option<Json>, token: Option<string>, password: Option<string>)

  /** The outcome of a handler: the store after it, the mails sent, the response. */
  datatype Outcome = Outcome(store: Store, mails: seq<Mail>, response: Response)

  const ForgotMessage := "If the email is registered, a reset " + "link has been sent."

  /**
   * `forgotPassword(req, res)`. A missing address is rejected by the ORM's
   * query validation; any thrown error is answered with 500. Otherwise the
   * message is the same whatever happened, with the service's result (the
   * development reset token) or null as data.
   */
  function ForgotPassword(s: Store, email: Option<string>, token: string, now: int, env: Env, mailOk: bool)
    : (r: Outcome)
    ensures r.response.status in {200, 500}
    ensures email.None? ==> r == Outcome(s, [], Response(500, Error("Failed to process request", Undefined)))
    ensures email.Some? ==>
      var step := PasswordService.RequestPasswordReset(s, email.value, token, now, env, mailOk);
      && r.store == step.store && r.mails == step.mails
      && (r.response.status == 500 <==> step.result.Err?)
      && (r.response.status == 500 ==> r.response.body == Error("Failed to process request", Undefined))
      && (r.response.status == 200 ==>
            r.response.body == Success(ForgotMessage,
              if step.result.value.Some? then Value(ResetToken(step.result.value.value)) else Null))
  {
    if email.None? then Outcome(s, [], Response(500, Error("Failed to process request", Undefined)))
    else
      var step := PasswordService.RequestPasswordReset(s, email.value, token, now, env, mailOk);
      match step.result
      case Err(_) => Outcome(step.store, step.mails, Response(500, Error("Failed to process request", Undefined)))
      case Ok(v) =>
        var data := match v case Some(t) => Value(ResetToken(t)) case None => Null;
        Outcome(step.store, step.mails, Response(200, Success(ForgotMessage, data)))
  }

  /** `id`, `token` and `password` are all truthy, so the handler goes past its first check. */
  predicate Complete(b: ResetBody) {
    Truthy(b.id) && b.token.Some? && b.token.value != "" && b.password.Some? && b.password.value != ""
  }

  /** `Number(id)` when it is an integer, the only ids the ORM's query validation lets through. */
  function IntegralId(j: Json): (r: Option<int>)
    ensures r.Some? <==> NumberOf(j).Some? && NumberOf(j).value.Floor as real == NumberOf(j).value
    ensures r.Some? ==> r.value as real == NumberOf(j).value
  {
    var n := NumberOf(j);
    if n.Some? && n.value.Floor as real == n.value then Some(n.value.Floor) else None
  }

  /**
   * `resetPassword(req, res)`. Any falsy parameter is answered with 400
   * "Missing parameters" before the service is called. An id whose
   * `Number` is not an integer is refused by the ORM's query validation
   * before anything is written. A thrown error is answered with 400 and
   * its own message, and the store is what the service left.
   */
  function ResetPassword(s: Store, b: ResetBody, now: int): (r: Outcome)
    ensures r.mails == []
    ensures r.response.status in {200, 400}
    ensures !Complete(b) ==> r == Outcome(s, [], Response(400, Error("Missing parameters", Undefined)))
    ensures Complete(b) && IntegralId(b.id.value).None? ==>
      r == Outcome(s, [], Response(400, Error(Failed(Orm(InvalidValue)), Undefined)))
    ensures Complete(b) && IntegralId(b.id.value).Some? ==>
      var step := PasswordService.ResetPassword(s, IntegralId(b.id.value).value, b.token.value, b.password.value, now);
      && r.store == step.store
      && (step.result.Ok? ==> r.response == Response(200, Success("Password reset successful", Undefined)))
      && (step.result.Err? ==> r.response == Response(400, Error(Failed(step.result.error), Undefined)))
    ensures r.response.status == 200 <==>
      && Complete(b) && IntegralId(b.id.value).Some?
      && PasswordService.ResetPassword(s, IntegralId(b.id.value).value, b.token.value, b.password.value, now).result.Ok?
  {
    if !Complete(b) then Outcome(s, [], Response(400, Error("Missing parameters", Undefined)))
    else
      match IntegralId(b.id.value)
      case None => Outcome(s, [], Response(400, Error(Failed(Orm(InvalidValue)), Undefined)))
      case Some(id) =>
        var step := PasswordService.ResetPassword(s, id, b.token.value, b.password.value, now);
        match step.result
        case Err(f) => Outcome(step.store, [], Response(400, Error(Failed(f), Undefined)))
        case Ok(_) => Outcome(step.store, [], Response(200, Success("Password reset successful", Undefined)))
  }

  /** `err.message || "Reset failed"`. */
  function Failed(f: Failure): (m: string)
    ensures m != ""
    ensures Message(f) != "" ==> m == Message(f)
  {
    if Message(f) == "" then "Reset failed" else Message(f)
  }

  /**
   * No account enumeration: in production, with the mail delivered, a
   * registered and an unregistered address get the very same response.
   */
  lemma ForgotSameResponse(s: Store, known: string, unknown: string, token: string, now: int, env: Env)
    requires env.production
    requires UserByEmail(s.users, known).Some? && UserByEmail(s.users, unknown).None?
    ensures ForgotPassword(s, Some(known), token, now, env, true).response
         == ForgotPassword(s, Some(unknown), token, now, env, true).response
         == Response(200, Success(ForgotMessage, Null))
  {
  }

  /** The reset token reaches the response only outside production, and only for a known address. */
  lemma ForgotDataOnlyInDevelopment(s: Store, email: string, token: string, now: int, env: Env, mailOk: bool)
    ensures var r := ForgotPassword(s, Some(email), token, now, env, mailOk).response;
      r.body.data.Value? <==> !env.production && mailOk && UserByEmail(s.users, email).Some?
  {
  }

  /**
   * A service error is answered with 400 and the service's own message:
   * a token with no row gives "Invalid or expired token", an expired one
   * "Token expired".
   */
  lemma ResetErrorsCarryServiceMessage(s: Store, id: nat, token: string, password: string, now: int)
    requires id > 0 && token != "" && password != ""
    ensures var r := ResetPassword(s, ResetBody(Some(JNum(id as real)), Some(token), Some(password)), now).response;
      var row := FindRow(s.resets, id, Sha256(token));
      && (row.None? ==> r == Response(400, Error("Invalid or expired token", Undefined)))
      && (row.Some? && row.value.expiresAt < now ==> r == Response(400, Error("Token expired", Undefined)))
  {
    assert (id as real).Floor == id;
  }

  /** Two ids equally truthy and of the same `Number` lead to the same handling. */
  lemma SameNumberSameReset(s: Store, i1: Json, i2: Json, token: Option<string>, password: Option<string>, now: int)
    requires Truthy(Some(i1)) == Truthy(Some(i2)) && NumberOf(i1) == NumberOf(i2)
    ensures ResetPassword(s, ResetBody(Some(i1), token, password), now)
         == ResetPassword(s, ResetBody(Some(i2), token, password), now)
  {
  }

  /** An id sent as a decimal string reaches the service as that number. */
  lemma StringIdAccepted(s: Store, id: nat, token: string, password: string, now: int)
    requires id > 0
    ensures ResetPassword(s, ResetBody(Some(JStr(Decimal.IntToString(id))), Some(token), Some(password)), now)
         == ResetPassword(s, ResetBody(Some(JNum(id as real)), Some(token), Some(password)), now)
  {
    var j := JStr(Decimal.IntToString(id));
    Decimal.NumberOfIntToString(id);
    SameNumberSameReset(s, j, JNum(id as real), Some(token), Some(password), now);
  }

  /**
   * Both handlers end to end: the token `forgotPassword` issues for a
   * registered address, sent back within the hour with the user's id as
   * the reset link writes it, resets the password.
   */
  lemma ForgotThenReset(s: Store, email: string, token: string, now: int, env: Env, mailOk: bool,
                        later: int, password: string)
    requires Valid(s) && UserByEmail(s.users, email).Some? && later <= now + PasswordService.ResetTtlMs
    requires token != "" && password != ""
    ensures var u := UserByEmail(s.users, email).value;
      var s1 := ForgotPassword(s, Some(email), token, now, env, mailOk).store;
      var r := ResetPassword(s1, ResetBody(Some(JStr(Decimal.NatToString(u.id))), Some(token), Some(password)), later);
      && r.response == Response(200, Success("Password reset successful", Undefined))
      && r.store.users == ReplaceUser(s.users, u.(password := Bcrypt(password)))
  {
    var u := UserByEmail(s.users, email).value;
    var s1 := ForgotPassword(s, Some(email), token, now, env, mailOk).store;
    assert s1 == PasswordService.RequestPasswordReset(s, email, token, now, env, mailOk).store;
    PasswordService.RequestThenReset(s, email, token, now, env, mailOk, later, password);
    StringIdIntegral(u.id);
  }

  /** The id as the reset link writes it is truthy and reads back as the id. */
  lemma StringIdIntegral(n: nat)
    ensures Truthy(Some(JStr(Decimal.NatToString(n)))) && IntegralId(JStr(Decimal.NatToString(n))) == Some(n)
  {
    Decimal.NumberOfNat(n);
    assert (n as real).Floor == n;
  }
}

=== FILE: password_service.dfy ===
/**
 * services/password.service.ts: a password-reset request mails a one-hour
 * token (replacing the user's earlier ones); redeeming it sets the new
 * password. The fresh token, the clock, the environment and whether the
 * mailer delivers are parameters.
 */
module PasswordService {
  import opened Wrappers
  import opened Db
  import opened Effects
  import Decimal

  /** A reset token lives one hour. */
  const ResetTtlMs: nat := 60 * 60 * 1000

  function ResetUrl(env: Env, token: string, id: nat): string {
    EnvText(env.appUrl) + "/reset-password?token=" + token + "&id=" + Decimal.NatToString(id)
  }

  function ResetMail(to: string, url: string): Mail {
    Mail(to, "Reset Your Password", "Click to reset your password: " + url,
      Literal("<p>Click <a href=\"" + url + "\">here</a> to reset your password.</p>"))
  }

  /**
   * `requestPasswordReset(email)` with `token` standing for
   * `randomBytes(32)` in hex. An unknown address returns nothing and touches
   * nothing, so a caller cannot tell it from a known one in production.
   * For a known user every earlier reset row of theirs is deleted, one new
   * row is written and the link is mailed; the plaintext token is returned
   * only outside production. A mailer failure is thrown with the writes kept.
   */
  function RequestPasswordReset(s: Store, email: string, token: string, now: int, env: Env, mailOk: bool)
    : (r: Step<Option<string>>)
    ensures UserByEmail(s.users, email).None? ==> r == Step(s, Ok(None), [])
    ensures UserByEmail(s.users, email).Some? ==>
      var u := UserByEmail(s.users, email).value;
      && r.store == s.(resets := DeleteRowsOfUser(s.resets, u.id) + [TokenRow(s.nextId, u.id, Sha256(token), now + ResetTtlMs)],
                       nextId := s.nextId + 1)
      && r.mails == (if mailOk then [ResetMail(u.email, ResetUrl(env, token, u.id))] else [])
      && (r.result.Ok? <==> mailOk)
      && (r.result.Err? ==> r.result.error == MailerFailed)
      && (r.result.Ok? ==> r.result.value == if env.production then None else Some(token))
  {
    match UserByEmail(s.users, email)
    case None => Step(s, Ok(None), [])
    case Some(u) =>
      var kept := DeleteRowsOfUser(s.resets, u.id);
      var row := NewRow(s, u.id, Sha256(token), now + ResetTtlMs);
      var s1 := s.(resets := kept + [row], nextId := s.nextId + 1);
      if !mailOk then Step(s1, Err(MailerFailed), [])
      else Step(s1, Ok(if env.production then None else Some(token)), [ResetMail(u.email, ResetUrl(env, token, u.id))])
  }

  /**
   * `resetPassword(userId, token, newPassword)`. No reset row of `userId`
   * with the token's hash, or one that expired before `now`, throws (with no
   * status) and changes nothing; otherwise the password becomes the bcrypt
   * of `newPassword` and the row is deleted.
   */
  function ResetPassword(s: Store, userId: int, token: string, newPassword: string, now: int): (r: Step<()>)
    ensures r.mails == []
    ensures FindRow(s.resets, userId, Sha256(token)).None? ==>
      r == Step(s, Err(Thrown(None, "Invalid or expired token")), [])
    ensures FindRow(s.resets, userId, Sha256(token)).Some? &&
            FindRow(s.resets, userId, Sha256(token)).value.expiresAt < now ==>
      r == Step(s, Err(Thrown(None, "Token expired")), [])
    ensures r.result.Ok? <==>
      && FindRow(s.resets, userId, Sha256(token)).Some?
      && FindRow(s.resets, userId, Sha256(token)).value.expiresAt >= now
      && UserById(s.users, userId).Some?
    ensures r.result.Ok? ==>
      var rec := FindRow(s.resets, userId, Sha256(token)).value;
      var u := UserById(s.users, userId).value;
      && r.store.users == ReplaceUser(s.users, u.(password := Bcrypt(newPassword)))
      && (forall x :: x in r.store.resets <==> x in s.resets && x.id != rec.id)
      && r.store.verifications == s.verifications && r.store.refreshTokens == s.refreshTokens
      && r.store.books == s.books && r.store.nextId == s.nextId
  {
    match FindRow(s.resets, userId, Sha256(token))
    case None => Step(s, Err(Thrown(None, "Invalid or expired token")), [])
    case Some(rec) =>
      if rec.expiresAt < now then Step(s, Err(Thrown(None, "Token expired")), [])
      else
        match UpdateUser(s, userId, (u: User) => u.(password := Bcrypt(newPassword)))
        case Err(e) => Step(s, Err(Orm(e)), [])
        case Ok((s1, _)) => Step(s1.(resets := DeleteRow(s1.resets, rec.id)), Ok(()), [])
  }

  /**
   * After a request for a known user that user has exactly one reset row,
   * the new one, and every other user's rows are as before.
   */
  lemma RequestLeavesOneRow(s: Store, email: string, token: string, now: int, env: Env, mailOk: bool)
    requires UserByEmail(s.users, email).Some?
    ensures var u := UserByEmail(s.users, email).value;
      var r := RequestPasswordReset(s, email, token, now, env, mailOk);
      && (forall x :: x in r.store.resets && x.userId == u.id <==>
            x == TokenRow(s.nextId, u.id, Sha256(token), now + ResetTtlMs))
      && (forall x: TokenRow :: x.userId != u.id ==> (x in r.store.resets <==> x in s.resets))
  {
  }

  /**
   * A newer request kills the token of an older one: after any request for
   * a user, a token other than the one just issued is rejected for them.
   */
  lemma OlderTokenDead(s: Store, email: string, older: string, newer: string, now: int,
                       env: Env, mailOk: bool, later: int, newPassword: string)
    requires UserByEmail(s.users, email).Some? && older != newer
    ensures var u := UserByEmail(s.users, email).value;
      var s1 := RequestPasswordReset(s, email, newer, now, env, mailOk).store;
      ResetPassword(s1, u.id, older, newPassword, later) == Step(s1, Err(Thrown(None, "Invalid or expired token")), [])
  {
    RequestLeavesOneRow(s, email, newer, now, env, mailOk);
  }

  /** Single use: a redeemed token is rejected afterwards, provided no other row carries its hash. */
  lemma ResetSingleUse(s: Store, userId: int, token: string, p1: string, p2: string, now: int, later: int)
    requires HashOnce(s.resets, Sha256(token))
    requires ResetPassword(s, userId, token, p1, now).result.Ok?
    ensures var s' := ResetPassword(s, userId, token, p1, now).store;
      ResetPassword(s', userId, token, p2, later).result == Err(Thrown(None, "Invalid or expired token"))
  {
    var rec := FindRow(s.resets, userId, Sha256(token)).value;
    DeleteOnlyRow(s.resets, rec);
  }

  /**
   * The happy path end to end: within the hour, the token of the latest
   * request sets the user's password to the bcrypt of the new one.
   */
  lemma RequestThenReset(s: Store, email: string, token: string, now: int, env: Env, mailOk: bool,
                         later: int, newPassword: string)
    requires Valid(s) && UserByEmail(s.users, email).Some? && later <= now + ResetTtlMs
    ensures var u := UserByEmail(s.users, email).value;
      var s1 := RequestPasswordReset(s, email, token, now, env, mailOk).store;
      var r := ResetPassword(s1, u.id, token, newPassword, later);
      && r.result == Ok(())
      && r.store.users == ReplaceUser(s.users, u.(password := Bcrypt(newPassword)))
  {
    var u := UserByEmail(s.users, email).value;
    var row := TokenRow(s.nextId, u.id, Sha256(token), now + ResetTtlMs);
    var s1 := s.(resets := DeleteRowsOfUser(s.resets, u.id) + [row], nextId := s.nextId + 1);
    assert RequestPasswordReset(s, email, token, now, env, mailOk).store == s1;
    UserByIdOfMember(s.users, u);
    ResetFreshRow(s, s1, u, row, token, later, newPassword);
  }

  lemma ResetFreshRow(s: Store, s1: Store, u: User, row: TokenRow, token: string, later: int, newPassword: string)
    requires u in s.users && row == TokenRow(row.id, u.id, Sha256(token), row.expiresAt) && later <= row.expiresAt
    requires s1 == s.(resets := DeleteRowsOfUser(s.resets, u.id) + [row], nextId := s1.nextId)
    ensures var r := ResetPassword(s1, u.id, token, newPassword, later);
      && r.result == Ok(())
      && r.store.users == ReplaceUser(s.users, UserById(s.users, u.id).value.(password := Bcrypt(newPassword)))
  {
    FindRowAppend(DeleteRowsOfUser(s.resets, u.id), row, u.id, Sha256(token));
  }
}

=== FILE: profile_form.dfy ===
/**
 * The profile page of the dashboard (app/dashboard/profile/page.tsx): the
 * form schema, the password-strength meter, the submit handler and the
 * "Passwords match" hint. Lengths are counted in UTF-16 code units, as
 * JavaScript's `length` does.
 */
module ProfileForm {
  import opened Wrappers
  import opened Text
  import opened FormSchema

  /** `/[a-z]/.test(s)`. */
  predicate HasLower(s: string) {
    exists i :: 0 <= i < |s| && 'a' <= s[i] <= 'z'
  }

  /** `/[0-9]/.test(s)`. */
  predicate HasDigit(s: string) {
    exists i :: 0 <= i < |s| && '0' <= s[i] <= '9'
  }

  const TooShort := "Password must be at least 8 " + "characters long."
  const NoLower := "Password must contain at least one " + "lowercase letter."
  const NoDigit := "Password must contain at least one " + "number."

  /**
   * The three refinements of `newPassword`. Each one lets a falsy value
   * through; Zod runs all of them and reports every one that fails.
   */
  function NewPasswordIssues(v: Option<string>): (r: seq<Issue>)
    ensures !Given(v) ==> r == []
    ensures Issue("newPassword", TooShort) in r <==> Given(v) && Utf16Length(v.value) < 8
    ensures Issue("newPassword", NoLower) in r <==> Given(v) && !HasLower(v.value)
    ensures Issue("newPassword", NoDigit) in r <==> Given(v) && !HasDigit(v.value)
    ensures forall k :: 0 <= k < |r| ==> r[k].field == "newPassword"
  {
    if !Given(v) then []
    else
      var p := v.value;
      (if Utf16Length(p) >= 8 then [] else [Issue("newPassword", TooShort)])
      + (if HasLower(p) then [] else [Issue("newPassword", NoLower)])
      + (if HasDigit(p) then [] else [Issue("newPassword", NoDigit)])
  }

  /** Reference: what an acceptable new password is. */
  predicate NewPasswordOk(v: Option<string>) {
    !Given(v) || (Utf16Length(v.value) >= 8 && HasLower(v.value) && HasDigit(v.value))
  }

  datatype ProfileValues = ProfileValues(
    name: Option<string>, email: Option<string>,
    currentPassword: Option<string>, newPassword: Option<string>, confirmPassword: Option<string>)

  /** A required string field: "Required" when missing, otherwise `check`. */
  function Present(field: string, v: Option<string>, check: string -> seq<Issue>): (r: seq<Issue>)
    ensures v.None? ==> r == [Issue(field, Required)]
    ensures v.Some? ==> r == check(v.value)
  {
    if v.None? then [Issue(field, Required)] else check(v.value)
  }

  /** `profileFormSchema`, field by field. */
  function ProfileIssues(v: ProfileValues, isEmail: string -> bool): (r: seq<Issue>)
  {
    Present("name", v.name, (s: string) => MinLength("name", s, 2, "Name must be at least 2 characters."))
    + Present("email", v.email, (s: string) => EmailField("email", s, isEmail, "Please enter a valid email address."))
    + NewPasswordIssues(v.newPassword)
  }

  /** The schema accepts exactly: a name of 2 or more characters, a valid e-mail, an acceptable new password. */
  lemma ProfileSchemaAccepts(v: ProfileValues, isEmail: string -> bool)
    ensures ProfileIssues(v, isEmail) == [] <==>
      && v.name.Some? && Utf16Length(v.name.value) >= 2
      && v.email.Some? && isEmail(v.email.value)
      && NewPasswordOk(v.newPassword)
  {
    var n := v.newPassword;
    if Given(n) && !NewPasswordOk(n) {
      if Utf16Length(n.value) < 8 {
        assert Issue("newPassword", TooShort) in NewPasswordIssues(n);
      } else if !HasLower(n.value) {
        assert Issue("newPassword", NoLower) in NewPasswordIssues(n);
      } else {
        assert Issue("newPassword", NoDigit) in NewPasswordIssues(n);
      }
    }
  }

  /** An empty or absent new password never blocks the form. */
  lemma EmptyNewPasswordPasses(v: ProfileValues, isEmail: string -> bool)
    requires v.newPassword.None? || v.newPassword == Some("")
    ensures On(ProfileIssues(v, isEmail), "newPassword") == []
  {
    var a := Present("name", v.name, (s: string) => MinLength("name", s, 2, "Name must be at least 2 characters."));
    var b := Present("email", v.email, (s: string) => EmailField("email", s, isEmail, "Please enter a valid email address."));
    assert NewPasswordIssues(v.newPassword) == [];
    assert forall k :: 0 <= k < |a| ==> a[k].field == "name";
    assert forall k :: 0 <= k < |b| ==> b[k].field == "email";
    assert ProfileIssues(v, isEmail) == a + b + [];
    NoneOn(a + b + [], "newPassword");
  }

  // ---------------------------------------------------------- strength meter

  datatype Strength = Strength(score: int, feedback: seq<string>)

  const ShortHint := "At least 8 characters"
  const LowerHint := "One lowercase letter"

  /**
   * `getPasswordStrength(password)`: 20 points per passed check (length of
   * 8 or more, a lower-case letter), and a hint for every failed one.
   */
  function PasswordStrength(p: string): (r: Strength)
    ensures p == "" ==> r == Strength(0, [])
    ensures p != "" ==> r.score + 20 * |r.feedback| == 40
    ensures ShortHint in r.feedback <==> p != "" && Utf16Length(p) < 8
    ensures LowerHint in r.feedback <==> p != "" && !HasLower(p)
    ensures |r.feedback| == 2 ==> r.feedback == [ShortHint, LowerHint]
    ensures 0 <= r.score <= 40
  {
    if p == "" then Strength(0, [])
    else
      var length := if Utf16Length(p) >= 8 then Strength(20, []) else Strength(0, [ShortHint]);
      if HasLower(p) then Strength(length.score + 20, length.feedback)
      else Strength(length.score, length.feedback + [LowerHint])
  }

  datatype Label = Label(text: string, color: string)

  /** `getStrengthText(score)`. */
  function StrengthText(score: int): (r: Label)
    ensures r.text == "" <==> score == 0
    ensures r.text == "" <==> r.color == ""
  {
    if score == 0 then Label("", "")
    else if score <= 40 then Label("Weak", "text-red-500")
    else if score <= 60 then Label("Fair", "text-yellow-500")
    else if score <= 80 then Label("Good", "text-blue-500")
    else Label("Strong", "text-green-500")
  }

  /**
   * The meter never gets past "Weak": the label is empty exactly when the
   * password is empty or fails both checks, and "Weak" otherwise.
   */
  lemma OnlyWeakReachable(p: string)
    ensures var t := StrengthText(PasswordStrength(p).score).text;
      && (t == "" || t == "Weak")
      && (t == "" <==> p == "" || (Utf16Length(p) < 8 && !HasLower(p)))
  {
  }

  /** A new password the schema accepts scores the full 40 with no hints. */
  lemma AcceptedPasswordFullScore(p: string)
    requires NewPasswordOk(Some(p)) && p != ""
    ensures PasswordStrength(p) == Strength(40, [])
  {
  }

  /** Eight lower-case letters reach the full score, yet the schema refuses them for want of a digit. */
  lemma FullScoreNotAccepted()
    ensures PasswordStrength("abcdefgh").score == 40
    ensures !NewPasswordOk(Some("abcdefgh"))
  {
    var p := "abcdefgh";
    assert forall i :: 0 <= i < |p| ==> 'a' <= p[i] <= 'z';
    LowerOnly(p);
    assert Utf16Length(p) == 8;
  }

  /** Text of lower-case letters alone has one code unit per letter and no digit. */
  lemma LowerOnly(p: string)
    requires p != [] && forall i :: 0 <= i < |p| ==> 'a' <= p[i] <= 'z'
    ensures InBmp(p) && HasLower(p) && !HasDigit(p)
  {
    assert 'a' <= p[0] <= 'z';
  }

  // ----------------------------------------------------------------- submit

  /** The requests the submit handler issues. */
  datatype Call = LoginCall(email: string, password: string)
                | UpdateCall(name: string, email: string, newPassword: Option<string>)

  /** How `updateProfile` settled: a response with its `success` flag, or a throw. */
  datatype Outcome = Answered(success: bool) | Threw

  datatype FormState = FormState(values: ProfileValues, isLoading: bool)

  datatype Submitted = Submitted(calls: seq<Call>, state: FormState, toast: Option<string>)

  /**
   * `form.handleSubmit(onSubmit)`: a form the schema refuses issues no
   * request; otherwise a login with the current password when one is given
   * (its failure is swallowed), then the update. The loading flag is
   * cleared on success and on a throw only; after an answered update with a
   * new password the three password fields are emptied.
   */
  function Submit(st: FormState, isEmail: string -> bool, outcome: Outcome): (r: Submitted)
    ensures ProfileIssues(st.values, isEmail) != [] ==> r == Submitted([], st, None)
    ensures ProfileIssues(st.values, isEmail) == [] ==>
      && |r.calls| >= 1
      && r.calls[|r.calls| - 1] == UpdateCall(st.values.name.value, st.values.email.value, st.values.newPassword)
      && (|r.calls| == 2 <==> Given(st.values.currentPassword))
      && (r.state.isLoading <==> outcome == Answered(false))
      && (r.toast == Some("Profile updated successfully!") <==> outcome == Answered(true))
      && (outcome.Answered? && Given(st.values.newPassword) ==>
            r.state.values == st.values.(currentPassword := Some(""), newPassword := Some(""), confirmPassword := Some("")))
      && (outcome.Threw? || !Given(st.values.newPassword) ==> r.state.values == st.values)
  {
    if ProfileIssues(st.values, isEmail) != [] then Submitted([], st, None)
    else
      var v := st.values;
      var login := if Given(v.currentPassword) then [LoginCall(v.email.value, v.currentPassword.value)] else [];
      var calls := login + [UpdateCall(v.name.value, v.email.value, v.newPassword)];
      match outcome
      case Threw => Submitted(calls, FormState(v, false), Some("Something went wrong!"))
      case Answered(success) =>
        var v' := if Given(v.newPassword)
          then v.(currentPassword := Some(""), newPassword := Some(""), confirmPassword := Some(""))
          else v;
        Submitted(calls, FormState(v', !success), if success then Some("Profile updated successfully!") else None)
  }

  /** `form.watch("newPassword") || ""`. */
  function Watched(v: Option<string>): (r: string)
    ensures Given(v) ==> r == v.value
    ensures !Given(v) ==> r == ""
  {
    if v.Some? then v.value else ""
  }

  /** The "Passwords match" hint under the confirmation field. */
  predicate PasswordsMatch(v: ProfileValues) {
    var confirm := Watched(v.confirmPassword);
    confirm != "" && Watched(v.newPassword) != "" && confirm == Watched(v.newPassword)
  }

  /** The hint shows exactly when both fields hold the same non-empty text. */
  lemma MatchIffSameText(v: ProfileValues)
    ensures PasswordsMatch(v) <==> Given(v.newPassword) && Given(v.confirmPassword) && v.newPassword == v.confirmPassword
  {
  }

  /** After an answered update with a new password the hint is gone and the meter is blank. */
  lemma SubmitClearsPasswordHints(st: FormState, isEmail: string -> bool, success: bool)
    requires ProfileIssues(st.values, isEmail) == [] && Given(st.values.newPassword)
    ensures var r := Submit(st, isEmail, Answered(success));
      && !PasswordsMatch(r.state.values)
      && PasswordStrength(Watched(r.state.values.newPassword)) == Strength(0, [])
  {
  }
}

=== FILE: public_books_api.dfy ===
/**
 * services/bookspublic.service.ts: `BookService.getBooks`, the public
 * catalogue request. Page and limit are always sent first; author, date
 * and rating only when set. A response that is not OK, or whose envelope
 * says `success: false`, becomes a thrown error.
 */
module PublicBooksApi {
  import opened Wrappers
  import opened Text
  import opened Query
  import Decimal

  /** The destructured argument; `None` takes the default. */
  datatype PublicParams = PublicParams(
    author: Option<string>, date: Option<string>, rating: Option<real>,
    page: Option<int>, limit: Option<int>)

  /** The argument with its defaults: "", "", 0, 1 and 12. */
  datatype Effective = Effective(author: string, date: string, rating: real, page: int, limit: int)

  function Defaults(p: PublicParams): (e: Effective)
    ensures e.author == p.author.GetOr("") && e.date == p.date.GetOr("")
    ensures e.rating == p.rating.GetOr(0.0) && e.page == p.page.GetOr(1) && e.limit == p.limit.GetOr(12)
  {
    Effective(p.author.GetOr(""), p.date.GetOr(""), p.rating.GetOr(0.0), p.page.GetOr(1), p.limit.GetOr(12))
  }

  /** `value && value.trim() !== ""`. */
  predicate NotBlank(s: string) {
    s != "" && Trim(s) != ""
  }

  function PublicSlots(e: Effective, show: real -> string): (r: seq<Slot<string>>)
    ensures SlotKeys(r) == ["page", "limit", "author", "date", "rating"] && DistinctKeys(r)
    ensures r[0].guard && r[1].guard
  {
    [ Slot("page", true, Decimal.IntToString(e.page)),
      Slot("limit", true, Decimal.IntToString(e.limit)),
      Slot("author", NotBlank(e.author), e.author),
      Slot("date", NotBlank(e.date), e.date),
      Slot("rating", e.rating > 0.0, show(e.rating)) ]
  }

  /**
   * The query of the request. `show` is the text of a number. The author is
   * sent as given, untrimmed.
   */
  function PublicQuery(p: PublicParams, show: real -> string): (q: Pairs)
    ensures |q| >= 2
    ensures q[0] == ("page", Decimal.IntToString(p.page.GetOr(1)))
    ensures q[1] == ("limit", Decimal.IntToString(p.limit.GetOr(12)))
    ensures Subsequence(Keys(q), ["page", "limit", "author", "date", "rating"])
  {
    var slots := PublicSlots(Defaults(p), show);
    AssembleFromSlots(slots);
    assert Assemble(slots) == [(slots[0].key, slots[0].value)] + Assemble(slots[1..]);
    assert Assemble(slots[1..]) == [(slots[1].key, slots[1].value)] + Assemble(slots[2..]);
    Assemble(slots)
  }

  /** Author and date are sent, as given, exactly when not blank; the rating exactly when positive. */
  lemma FiltersSent(p: PublicParams, show: real -> string)
    ensures var q := PublicQuery(p, show);
      && Lookup(q, "author") == (if NotBlank(p.author.GetOr("")) then p.author else None)
      && Lookup(q, "date") == (if NotBlank(p.date.GetOr("")) then p.date else None)
      && Lookup(q, "rating") == (if p.rating.GetOr(0.0) > 0.0 then Some(show(p.rating.value)) else None)
  {
    var slots := PublicSlots(Defaults(p), show);
    assert slots[2].key == "author" && slots[3].key == "date" && slots[4].key == "rating";
    AssembleLookup(slots, 2); AssembleLookup(slots, 3); AssembleLookup(slots, 4);
  }

  /** An author of white space only is not sent. */
  lemma BlankAuthorOmitted(p: PublicParams, show: real -> string)
    requires p.author.Some? && AllWs(p.author.value)
    ensures Lookup(PublicQuery(p, show), "author") == None
  {
    FiltersSent(p, show);
    TrimBlank(p.author.value);
  }

  /** An author with blanks around it is sent with them. */
  lemma AuthorUntrimmed(p: PublicParams, show: real -> string)
    requires p.author == Some(" Tolkien ")
    ensures Lookup(PublicQuery(p, show), "author") == Some(" Tolkien ")
  {
    FiltersSent(p, show);
    var a := " Tolkien ";
    assert !IsWs(a[1]) && a[1] in a;
    TrimNonBlank(a, 1);
  }

  /** What `fetch` gave: a network failure, or a response with its envelope's flag and message. */
  datatype Reply<T> = NetworkError(error: string) | Http(ok: bool, status: int, success: bool, message: string, data: T)

  /** The outcome: the envelope, or the message of the error thrown. */
  function Outcome<T>(reply: Reply<T>): (r: Result<T, string>)
    ensures reply.NetworkError? ==> r == Err(reply.error)
    ensures reply.Http? && !reply.ok ==> r == Err("HTTP " + Decimal.IntToString(reply.status) + ": Failed to fetch books")
    ensures reply.Http? && reply.ok && !reply.success ==>
      r == Err(if reply.message != "" then reply.message else "API returned unsuccessful response")
    ensures r.Ok? <==> reply.Http? && reply.ok && reply.success
    ensures r.Ok? ==> r.value == reply.data
  {
    match reply
    case NetworkError(e) => Err(e)
    case Http(ok, status, success, message, data) =>
      if !ok then Err("HTTP " + Decimal.IntToString(status) + ": Failed to fetch books")
      else if !success then Err(if message != "" then message else "API returned unsuccessful response")
      else Ok(data)
  }
}

=== FILE: query.dfy ===
/**
 * A query string as `URLSearchParams` holds it before encoding, and a
 * multipart `FormData`: key/value pairs in the order they were appended.
 * The services build theirs from a fixed list of candidate keys, each
 * appended only when its guard holds.
 */
module Query {
  import opened Wrappers

  type Pairs = seq<(string, string)>

  /** `params.get(key)`: the value of the first pair with that key. */
  function Lookup<V>(q: seq<(string, V)>, key: string): Option<V> {
    if q == [] then None
    else if q[0].0 == key then Some(q[0].1)
    else Lookup(q[1..], key)
  }

  /** A key is found exactly when some pair carries it, and what is found is one of its pairs. */
  lemma {:induction false} LookupFinds<V>(q: seq<(string, V)>, key: string)
    ensures Lookup(q, key).None? <==> forall i :: 0 <= i < |q| ==> q[i].0 != key
    ensures Lookup(q, key).Some? ==> (key, Lookup(q, key).value) in q
  {
    if q != [] && q[0].0 != key {
      LookupFinds(q[1..], key);
      assert forall i :: 1 <= i < |q| ==> q[i] == q[1..][i - 1];
    }
  }

  /** The keys, in order. */
  function Keys<V>(q: seq<(string, V)>): (r: seq<string>)
    ensures |r| == |q|
    ensures forall i :: 0 <= i < |q| ==> r[i] == q[i].0
  {
    if q == [] then [] else [q[0].0] + Keys(q[1..])
  }

  /** `xs` is `ys` with some elements left out. */
  predicate Subsequence(xs: seq<string>, ys: seq<string>)
    decreases |ys|
  {
    xs == [] || (ys != [] && ((xs[0] == ys[0] && Subsequence(xs[1..], ys[1..])) || Subsequence(xs, ys[1..])))
  }

  /** One candidate `if (guard) params.append(key, value)`. */
  datatype Slot<V> = Slot(key: string, guard: bool, value: V)

  function SlotKeys<V>(slots: seq<Slot<V>>): (r: seq<string>)
    ensures |r| == |slots|
    ensures forall i :: 0 <= i < |slots| ==> r[i] == slots[i].key
  {
    if slots == [] then [] else [slots[0].key] + SlotKeys(slots[1..])
  }

  predicate DistinctKeys<V>(slots: seq<Slot<V>>) {
    forall i, j :: 0 <= i < j < |slots| ==> slots[i].key != slots[j].key
  }

  /** Candidates carrying a list of distinct keys have distinct keys. */
  lemma KeysDistinct<V>(slots: seq<Slot<V>>, keys: seq<string>)
    requires SlotKeys(slots) == keys
    requires forall a, b :: 0 <= a < b < |keys| ==> keys[a] != keys[b]
    ensures DistinctKeys(slots)
  {
    forall a, b | 0 <= a < b < |slots|
      ensures slots[a].key != slots[b].key
    {
      assert keys[a] == slots[a].key && keys[b] == slots[b].key;
    }
  }

  /** The candidates appended in order, those whose guard fails left out. */
  function Assemble<V>(slots: seq<Slot<V>>): (r: seq<(string, V)>)
    ensures |r| <= |slots|
  {
    if slots == [] then []
    else
      var rest := Assemble(slots[1..]);
      if slots[0].guard then [(slots[0].key, slots[0].value)] + rest else rest
  }

  /** The keys sent are candidates' keys in candidate order, and each pair sent is a candidate whose guard held. */
  lemma {:induction false} AssembleFromSlots<V>(slots: seq<Slot<V>>)
    ensures Subsequence(Keys(Assemble(slots)), SlotKeys(slots))
    ensures forall p :: p in Assemble(slots) ==>
      exists i :: 0 <= i < |slots| && slots[i].guard && p == (slots[i].key, slots[i].value)
  {
    if slots != [] {
      var rest := Assemble(slots[1..]);
      AssembleFromSlots(slots[1..]);
      assert SlotKeys(slots)[1..] == SlotKeys(slots[1..]);
      forall p | p in rest
        ensures exists i :: 0 <= i < |slots| && slots[i].guard && p == (slots[i].key, slots[i].value)
      {
        var j :| 0 <= j < |slots[1..]| && slots[1..][j].guard && p == (slots[1..][j].key, slots[1..][j].value);
        assert slots[j + 1] == slots[1..][j];
      }
      if slots[0].guard {
        var r := [(slots[0].key, slots[0].value)] + rest;
        assert Keys(r)[1..] == Keys(rest);
      }
    }
  }

  /** Each key is sent exactly when its guard holds, with its value. */
  lemma {:induction false} AssembleLookup<V>(slots: seq<Slot<V>>, i: nat)
    requires DistinctKeys(slots) && i < |slots|
    ensures Lookup(Assemble(slots), slots[i].key) == if slots[i].guard then Some(slots[i].value) else None
  {
    var rest := Assemble(slots[1..]);
    if i == 0 {
      if !slots[0].guard {
        AssembleFromSlots(slots[1..]);
        LookupFinds(rest, slots[0].key);
        forall p | p in rest
          ensures p.0 != slots[0].key
        {
          var j :| 0 <= j < |slots[1..]| && slots[1..][j].guard && p == (slots[1..][j].key, slots[1..][j].value);
          assert slots[1..][j] == slots[j + 1];
        }
        assert forall k :: 0 <= k < |rest| ==> rest[k] in rest;
      }
    } else {
      AssembleLookup(slots[1..], i - 1);
      assert slots[1..][i - 1] == slots[i];
    }
  }

  /** Keys taken in order from a list of distinct keys are distinct. */
  lemma {:induction false} SubsequenceDistinct(xs: seq<string>, ys: seq<string>)
    requires Subsequence(xs, ys)
    requires forall i, j :: 0 <= i < j < |ys| ==> ys[i] != ys[j]
    ensures forall i, j :: 0 <= i < j < |xs| ==> xs[i] != xs[j]
    ensures forall x :: x in xs ==> x in ys
    decreases |ys|
  {
    if xs != [] {
      if xs[0] == ys[0] && Subsequence(xs[1..], ys[1..]) {
        SubsequenceDistinct(xs[1..], ys[1..]);
        assert forall k :: 1 <= k < |xs| ==> xs[k] in xs[1..];
      } else {
        SubsequenceDistinct(xs, ys[1..]);
      }
    }
  }

  /** A key that is not a candidate is never sent. */
  lemma NoStrayKey<V>(slots: seq<Slot<V>>, key: string)
    requires forall i :: 0 <= i < |slots| ==> slots[i].key != key
    ensures Lookup(Assemble(slots), key) == None
  {
    var r := Assemble(slots);
    AssembleFromSlots(slots);
    LookupFinds(r, key);
    forall k | 0 <= k < |r|
      ensures r[k].0 != key
    {
      assert r[k] in r;
    }
  }
}

=== FILE: route_gate.dfy ===
/**
 * middleware.ts of the frontend: the page gate. Paths beginning with a
 * public prefix pass; any other path needs a non-empty `accessToken`
 * cookie or is redirected to /login. The cookie's presence is all that is
 * checked. Next.js runs the gate only on the matcher's paths.
 */
module RouteGate {
  import opened Wrappers
  import opened Text

  const PublicPaths := ["/login", "/register", "/api"]

  /** The matcher's bases; `/base/:path*` matches the base and everything below it. */
  const Matched := ["/dashboard", "/profile", "/books"]

  datatype Decision = Next | Redirect(location: string)

  /** `middleware(req)`, `token` the `accessToken` cookie's value if it is set. */
  function Gate(pathname: string, token: Option<string>): (r: Decision)
    ensures StartsWithAny(pathname, PublicPaths) ==> r == Next
    ensures !StartsWithAny(pathname, PublicPaths) ==> (r == Next <==> Given(token))
    ensures r != Next ==> r == Redirect("/login")
  {
    if StartsWithAny(pathname, PublicPaths) then Next
    else if !Given(token) then Redirect("/login")
    else Next
  }

  /** `/base/:path*` for one base: the base itself or a path below it. */
  predicate Under(pathname: string, base: string) {
    pathname == base || StartsWith(pathname, base + "/")
  }

  predicate InMatcher(pathname: string) {
    exists i :: 0 <= i < |Matched| && Under(pathname, Matched[i])
  }

  /** What a page request meets: the gate on the matcher's paths, nothing elsewhere. */
  function Guarded(pathname: string, token: Option<string>): (r: Decision)
    ensures !InMatcher(pathname) ==> r == Next
    ensures InMatcher(pathname) ==> r == Gate(pathname, token)
  {
    if InMatcher(pathname) then Gate(pathname, token) else Next
  }

  /** "/apix" is not an API route, yet the raw prefix test lets it through. */
  lemma ApixPasses()
    ensures Gate("/apix", None) == Next
  {
    assert StartsWith("/apix", PublicPaths[2]);
  }

  /** No matched path begins with a public prefix: under the matcher only the cookie decides. */
  lemma MatchedNeverPublic(pathname: string)
    requires InMatcher(pathname)
    ensures !StartsWithAny(pathname, PublicPaths)
    ensures Guarded(pathname, None) == Redirect("/login") && Guarded(pathname, Some("")) == Redirect("/login")
  {
    var b :| b in Matched && Under(pathname, b);
    forall i | 0 <= i < |PublicPaths|
      ensures !StartsWith(pathname, PublicPaths[i])
    {
      var p := PublicPaths[i];
      assert pathname[1] == b[1] && p[1] != b[1];
      assert p[1] == pathname[1] || !(p <= pathname);
    }
  }

  /** Any token at all, valid or not, opens a matched page. */
  lemma AnyTokenPasses(pathname: string, token: string)
    requires token != ""
    ensures Guarded(pathname, Some(token)) == Next
  {
  }

  /** The login page is not gated, so a redirect cannot loop. */
  lemma LoginNotGated(token: Option<string>)
    ensures Guarded("/login", token) == Next
  {
    assert !Under("/login", Matched[0]) && !Under("/login", Matched[1]) && !Under("/login", Matched[2]);
  }
}

=== FILE: star_rating.dfy ===
/**
 * components/book/star-rating.tsx: five stars for a rating, full below
 * `Math.floor(rating)`, half at it when the rating has a fraction
 * (`rating % 1 !== 0`), empty otherwise.
 */
module StarRating {
  datatype Star = Full | Half | Empty

  /** A rating with no fractional part. */
  predicate Integral(rating: real) {
    rating.Floor as real == rating
  }

  /** The kind of star `i` for `fullStars` and `hasHalfStar`. */
  function Kind(i: int, fullStars: int, hasHalfStar: bool): (s: Star)
    ensures s == Full <==> i < fullStars
    ensures s == Half <==> i == fullStars && hasHalfStar
  {
    if i < fullStars then Full
    else if i == fullStars && hasHalfStar then Half
    else Empty
  }

  function StarAt(i: int, rating: real): Star {
    Kind(i, rating.Floor, !Integral(rating))
  }

  /** Stars `0 .. n-1`. */
  function StarsUpTo(n: nat, fullStars: int, hasHalfStar: bool): (r: seq<Star>)
    ensures |r| == n
    ensures forall i :: 0 <= i < n ==> r[i] == Kind(i, fullStars, hasHalfStar)
  {
    if n == 0 then [] else StarsUpTo(n - 1, fullStars, hasHalfStar) + [Kind(n - 1, fullStars, hasHalfStar)]
  }

  /** The five stars drawn. */
  function Stars(rating: real): (r: seq<Star>)
    ensures |r| == 5
    ensures forall i :: 0 <= i < 5 ==> r[i] == StarAt(i, rating)
  {
    StarsUpTo(5, rating.Floor, !Integral(rating))
  }

  function Count(s: seq<Star>, k: Star): (n: nat)
    ensures n <= |s|
  {
    if s == [] then 0 else (if s[|s| - 1] == k then 1 else 0) + Count(s[..|s| - 1], k)
  }

  function Clamp(x: int, lo: int, hi: int): int {
    if x < lo then lo else if x > hi then hi else x
  }

  /** Any row of stars drawn by `Kind`: the full ones are the floor clamped to `[0, |r|]`. */
  lemma {:induction false} FullCount(r: seq<Star>, fullStars: int, hasHalfStar: bool)
    requires forall i :: 0 <= i < |r| ==> r[i] == Kind(i, fullStars, hasHalfStar)
    ensures Count(r, Full) == Clamp(fullStars, 0, |r|)
  {
    if r != [] {
      var p := r[..|r| - 1];
      assert forall i :: 0 <= i < |p| ==> p[i] == r[i];
      FullCount(p, fullStars, hasHalfStar);
      ClampStep(Count(p, Full), |r|, fullStars, r[|r| - 1] == Full);
    }
  }

  /** One more star raises the clamped count exactly when it is below the floor. */
  lemma ClampStep(c: int, n: int, fullStars: int, full: bool)
    requires n >= 1 && c == Clamp(fullStars, 0, n - 1) && (full <==> n - 1 < fullStars)
    ensures c + (if full then 1 else 0) == Clamp(fullStars, 0, n)
  {
  }

  /** Any row drawn by `Kind` has one half star exactly when the fraction falls in range. */
  lemma {:induction false} HalfCount(r: seq<Star>, fullStars: int, hasHalfStar: bool)
    requires forall i :: 0 <= i < |r| ==> r[i] == Kind(i, fullStars, hasHalfStar)
    ensures Count(r, Half) == if hasHalfStar && 0 <= fullStars < |r| then 1 else 0
  {
    if r != [] {
      var p := r[..|r| - 1];
      assert forall i :: 0 <= i < |p| ==> p[i] == r[i];
      HalfCount(p, fullStars, hasHalfStar);
    }
  }

  /** The number of full stars among the first `n` is the floor clamped to `[0, n]`. */
  lemma FullCountUpTo(n: nat, fullStars: int, hasHalfStar: bool)
    ensures Count(StarsUpTo(n, fullStars, hasHalfStar), Full) == Clamp(fullStars, 0, n)
  {
    FullCount(StarsUpTo(n, fullStars, hasHalfStar), fullStars, hasHalfStar);
  }

  /** At most one half star among the first `n`, and one exactly when the fraction falls in range. */
  lemma HalfCountUpTo(n: nat, fullStars: int, hasHalfStar: bool)
    ensures Count(StarsUpTo(n, fullStars, hasHalfStar), Half) == if hasHalfStar && 0 <= fullStars < n then 1 else 0
  {
    HalfCount(StarsUpTo(n, fullStars, hasHalfStar), fullStars, hasHalfStar);
  }

  /**
   * The five stars: the full ones are `floor(rating)` clamped to `[0, 5]`, at
   * most one is half and an integral rating has none; the rest are empty.
   */
  lemma StarCounts(rating: real)
    ensures Count(Stars(rating), Full) == Clamp(rating.Floor, 0, 5)
    ensures Count(Stars(rating), Half) <= 1
    ensures Integral(rating) ==> Count(Stars(rating), Half) == 0
    ensures Count(Stars(rating), Full) + Count(Stars(rating), Half) + Count(Stars(rating), Empty) == 5
  {
    FullCountUpTo(5, rating.Floor, !Integral(rating));
    HalfCountUpTo(5, rating.Floor, !Integral(rating));
    CountsAddUp(Stars(rating));
  }

  lemma {:induction false} CountsAddUp(s: seq<Star>)
    ensures Count(s, Full) + Count(s, Half) + Count(s, Empty) == |s|
  {
    if s != [] {
      CountsAddUp(s[..|s| - 1]);
    }
  }

  /** 3.5 shows three full stars, one half star and one empty star. */
  lemma ThreeAndAHalf()
    ensures Stars(3.5) == [Full, Full, Full, Half, Empty]
  {
    assert (3.5).Floor == 3;
  }
}

=== FILE: string_sort.dfy ===
/**
 * `[...new Set(xs)]` and `Array.prototype.sort()` on strings: duplicates
 * dropped, then ascending by `Text.LexLe`. The sort is an insertion sort;
 * `SortedUnique` shows that any sort gives the same result on distinct
 * strings.
 */
module StringSort {
  import opened Text

  predicate Sorted(s: seq<string>) {
    forall i, j :: 0 <= i < j < |s| ==> LexLe(s[i], s[j])
  }

  predicate Distinct(s: seq<string>) {
    forall i, j :: 0 <= i < j < |s| ==> s[i] != s[j]
  }

  /** `[...new Set(s)]`: each string once, in order of first occurrence. */
  function Dedup(s: seq<string>): (r: seq<string>)
    ensures Distinct(r) && |r| <= |s|
    ensures forall x :: x in r <==> x in s
  {
    if s == [] then []
    else
      var p := Dedup(s[..|s| - 1]);
      assert s == s[..|s| - 1] + [s[|s| - 1]];
      if s[|s| - 1] in p then p else p + [s[|s| - 1]]
  }

  /** `x` placed before the first element it does not exceed. */
  function Insert(x: string, s: seq<string>): (r: seq<string>)
    ensures |r| == |s| + 1 && multiset(r) == multiset(s) + multiset{x}
    ensures forall y :: y in r <==> y == x || y in s
  {
    if s == [] then [x]
    else if LexLe(x, s[0]) then [x] + s
    else
      assert s == [s[0]] + s[1..];
      [s[0]] + Insert(x, s[1..])
  }

  lemma {:induction false} InsertSorted(x: string, s: seq<string>)
    requires Sorted(s)
    ensures Sorted(Insert(x, s))
  {
    if s == [] {
    } else if LexLe(x, s[0]) {
      forall j | 0 < j < |s|
        ensures LexLe(x, s[j])
      {
        LexLeTransitive(x, s[0], s[j]);
      }
      var r := Insert(x, s);
      assert forall j :: 0 < j < |r| ==> r[j] == s[j - 1];
    } else {
      LexLeTotal(x, s[0]);
      var t := Insert(x, s[1..]);
      InsertSorted(x, s[1..]);
      assert forall y :: y in s[1..] ==> LexLe(s[0], y);
      forall k | 0 <= k < |t|
        ensures LexLe(s[0], t[k])
      {
        assert t[k] in t;
      }
      var r := Insert(x, s);
      assert r == [s[0]] + t;
      assert forall j :: 0 < j < |r| ==> r[j] == t[j - 1];
    }
  }

  lemma {:induction false} InsertDistinct(x: string, s: seq<string>)
    requires Distinct(s) && x !in s
    ensures Distinct(Insert(x, s))
  {
    if s != [] && !LexLe(x, s[0]) {
      assert s == [s[0]] + s[1..];
      InsertDistinct(x, s[1..]);
      var t := Insert(x, s[1..]);
      assert s[0] !in t;
      var r := Insert(x, s);
      assert forall j :: 0 < j < |r| ==> r[j] == t[j - 1];
    }
  }

  /** Insertion sort. */
  function Sort(s: seq<string>): (r: seq<string>)
    ensures |r| == |s| && multiset(r) == multiset(s)
    ensures forall y :: y in r <==> y in s
  {
    if s == [] then []
    else
      assert s == [s[0]] + s[1..];
      Insert(s[0], Sort(s[1..]))
  }

  /** The sort puts the strings in order and keeps them distinct when they were. */
  lemma {:induction false} SortSorted(s: seq<string>)
    ensures Sorted(Sort(s))
    ensures Distinct(s) ==> Distinct(Sort(s))
  {
    if s != [] {
      SortSorted(s[1..]);
      InsertSorted(s[0], Sort(s[1..]));
      if Distinct(s) {
        assert Distinct(s[1..]);
        assert s[0] !in s[1..];
        InsertDistinct(s[0], Sort(s[1..]));
      }
    }
  }

  /** Two sorted sequences of distinct strings holding the same strings are equal. */
  lemma {:induction false} SortedUnique(a: seq<string>, b: seq<string>)
    requires Sorted(a) && Distinct(a) && Sorted(b) && Distinct(b)
    requires forall x :: x in a <==> x in b
    ensures a == b
  {
    if a == [] {
      assert forall k :: 0 <= k < |b| ==> b[k] in b;
    } else {
      assert a[0] in b && b[0] in b;
      var i :| 0 <= i < |a| && a[i] == b[0];
      var j :| 0 <= j < |b| && b[j] == a[0];
      if a[0] != b[0] {
        assert LexLe(a[0], a[i]) && LexLe(b[0], b[j]);
        LexLeAntisymmetric(a[0], b[0]);
      }
      assert a[0] == b[0];
      forall x
        ensures x in a[1..] <==> x in b[1..]
      {
        if x in a[1..] {
          var k :| 1 <= k < |a| && a[k] == x;
          assert x in b;
        }
        if x in b[1..] {
          var k :| 1 <= k < |b| && b[k] == x;
          assert x in a;
        }
      }
      SortedUnique(a[1..], b[1..]);
      assert a == [a[0]] + a[1..] && b == [b[0]] + b[1..];
    }
  }
}

=== FILE: text.dfy ===
/**
 * String helpers shared by the backend and the frontend models: the
 * JavaScript notion of white space (as used by `String.prototype.trim` and
 * the `\s` regular-expression class), prefix and substring tests, the
 * UTF-16 length, ASCII case mapping, `split` on a one-character separator
 * and a first-occurrence `replace`. Strings are sequences of Unicode scalar values.
 */
module Text {
  import opened Wrappers

  /**
   * JavaScript WhiteSpace and LineTerminator code points (ECMA-262 sections
   * 12.2 and 12.3); U+0009..U+000D are tab, line feed, vertical tab, form
   * feed and carriage return.
   */
  predicate IsWs(c: char) {
    c == ' ' || '\t' <= c <= '\r' || c == '\U{00A0}' || c == '\U{1680}' || '\U{2000}' <= c <= '\U{200A}'
    || c == '\U{2028}' || c == '\U{2029}' || c == '\U{202F}' || c == '\U{205F}' || c == '\U{3000}' || c == '\U{FEFF}'
  }

  /** True when every character of `s` is white space (so also for ""). */
  predicate AllWs(s: string) {
    forall i :: 0 <= i < |s| ==> IsWs(s[i])
  }

  /** White space followed by white space is white space. */
  lemma AllWsConcat(a: string, b: string)
    requires AllWs(a) && AllWs(b)
    ensures AllWs(a + b)
  {
    forall i | 0 <= i < |a + b|
      ensures IsWs((a + b)[i])
    {
      if i < |a| {
        assert (a + b)[i] == a[i];
      } else {
        assert (a + b)[i] == b[i - |a|];
      }
    }
  }

  /** The index just past the run of white space that starts at `from`. */
  function SkipWs(s: string, from: nat): (i: nat)
    requires from <= |s|
    ensures from <= i <= |s|
    ensures forall k :: from <= k < i ==> IsWs(s[k])
    ensures i < |s| ==> !IsWs(s[i])
    decreases |s| - from
  {
    if from < |s| && IsWs(s[from]) then SkipWs(s, from + 1) else from
  }

  /** The index where the run of white space that ends at `hi` begins, going no lower than `lo`. */
  function SkipWsBack(s: string, lo: nat, hi: nat): (j: nat)
    requires lo <= hi <= |s|
    ensures lo <= j <= hi
    ensures forall k :: j <= k < hi ==> IsWs(s[k])
    ensures j > lo ==> !IsWs(s[j - 1])
    decreases hi
  {
    if hi > lo && IsWs(s[hi - 1]) then SkipWsBack(s, lo, hi - 1) else hi
  }

  /** Removes leading white space. */
  function TrimStart(s: string): (r: string)
    ensures |r| <= |s|
    ensures r == [] || !IsWs(r[0])
  {
    s[SkipWs(s, 0)..]
  }

  /** A run of white space from `from` up to a character that is not white space ends at `to`. */
  lemma {:induction false} SkipWsRun(s: string, from: nat, to: nat)
    requires from <= to <= |s|
    requires forall k :: from <= k < to ==> IsWs(s[k])
    requires to == |s| || !IsWs(s[to])
    ensures SkipWs(s, from) == to
    decreases |s| - from
  {
    if from < to {
      SkipWsRun(s, from + 1, to);
    }
  }

  /** Leading white space before a character that is not white space is dropped, and nothing more. */
  lemma TrimStartSkips(ws: string, u: string)
    requires AllWs(ws) && (u == [] || !IsWs(u[0]))
    ensures TrimStart(ws + u) == u
  {
    var s := ws + u;
    assert forall k :: 0 <= k < |ws| ==> s[k] == ws[k];
    assert u != [] ==> s[|ws|] == u[0];
    SkipWsRun(s, 0, |ws|);
    assert s[|ws|..] == u;
  }

  /**
   * `String.prototype.trim`: white space dropped at both ends, so the
   * result neither starts nor ends with white space. `TrimWindow` says
   * where it sits in `s`; `TrimBlank` when it is empty.
   */
  function Trim(s: string): (r: string)
    ensures |r| <= |s|
    ensures r == [] || (!IsWs(r[0]) && !IsWs(r[|r| - 1]))
  {
    var i := SkipWs(s, 0);
    s[i..SkipWsBack(s, i, |s|)]
  }

  /** The trimmed string is the window of `s` between two runs of white space. */
  lemma TrimWindow(s: string)
    ensures var i := |s| - |TrimStart(s)|; var r := Trim(s);
      i + |r| <= |s| && r == s[i..i + |r|] && AllWs(s[..i]) && AllWs(s[i + |r|..])
  {
    var i := SkipWs(s, 0);
    var j := SkipWsBack(s, i, |s|);
    assert |TrimStart(s)| == |s| - i;
    forall k | 0 <= k < i
      ensures IsWs(s[..i][k])
    {
      assert s[..i][k] == s[k];
    }
    forall k | 0 <= k < |s| - j
      ensures IsWs(s[j..][k])
    {
      assert s[j..][k] == s[j + k];
    }
  }

  /** Trimming leaves nothing exactly when the string is all white space. */
  lemma TrimBlank(s: string)
    ensures Trim(s) == [] <==> AllWs(s)
  {
    var i := SkipWs(s, 0);
    var j := SkipWsBack(s, i, |s|);
    if AllWs(s) {
      assert i == |s|;
    }
    if j == i {
      assert forall k :: 0 <= k < |s| ==> IsWs(s[k]);
    }
  }

  /** A character that is not white space survives trimming, so the result is not empty. */
  lemma TrimNonBlank(s: string, k: nat)
    requires k < |s| && !IsWs(s[k])
    ensures Trim(s) != ""
  {
    TrimBlank(s);
  }

  /** A string with no white space at either end is left alone by trimming. */
  lemma TrimNoWsEnds(s: string)
    requires s != [] && !IsWs(s[0]) && !IsWs(s[|s| - 1])
    ensures Trim(s) == s
  {
    assert SkipWs(s, 0) == 0 && SkipWsBack(s, 0, |s|) == |s|;
  }

  /** A string field that is present and truthy, i.e. not empty. */
  predicate Given(v: Option<string>) {
    v.Some? && v.value != ""
  }

  /** `s.startsWith(p)`. */
  predicate StartsWith(s: string, p: string) {
    p <= s
  }

  /** `prefixes.some(p => s.startsWith(p))`. */
  predicate StartsWithAny(s: string, prefixes: seq<string>) {
    exists i :: 0 <= i < |prefixes| && StartsWith(s, prefixes[i])
  }

  /** `t` occurs in `s` starting at index `j`. */
  predicate MatchAt(s: string, t: string, j: int) {
    0 <= j <= |s| - |t| && s[j..j + |t|] == t
  }

  /**
   * Index of the first occurrence of `t` in `s` at or after `from`, or -1:
   * `s.indexOf(t)` for `from == 0`.
   */
  function IndexOfFrom(s: string, t: string, from: nat): (r: int)
    requires from <= |s|
    ensures r == -1 || (from <= r && MatchAt(s, t, r))
    ensures r >= 0 ==> forall j :: from <= j < r ==> !MatchAt(s, t, j)
    ensures r == -1 ==> forall j :: from <= j ==> !MatchAt(s, t, j)
    decreases |s| - from
  {
    if |s| - from < |t| then -1
    else if s[from..from + |t|] == t then from
    else if from == |s| then -1
    else IndexOfFrom(s, t, from + 1)
  }

  function IndexOf(s: string, t: string): (r: int)
    ensures r == -1 || MatchAt(s, t, r)
    ensures r >= 0 ==> forall j :: 0 <= j < r ==> !MatchAt(s, t, j)
    ensures r == -1 ==> forall j :: !MatchAt(s, t, j)
  {
    IndexOfFrom(s, t, 0)
  }

  /** The first window equal to `t` is the one `IndexOf` finds. */
  lemma FirstMatch(s: string, t: string, k: int)
    requires MatchAt(s, t, k)
    requires forall j :: 0 <= j < k ==> !MatchAt(s, t, j)
    ensures IndexOf(s, t) == k
  {
    var r := IndexOf(s, t);
    assert r != -1;
  }

  /** `s.includes(t)`: some window of `s` equals `t`. */
  predicate Contains(s: string, t: string) {
    IndexOf(s, t) >= 0
  }

  /** A string containing `t` between any prefix and suffix contains `t`. */
  lemma ContainsWitness(a: string, t: string, b: string)
    ensures Contains(a + t + b, t)
  {
    var s := a + t + b;
    assert s[|a|..|a| + |t|] == t;
    assert MatchAt(s, t, |a|);
  }

  /** A window whose first two characters differ from those of `t` is no match. */
  lemma NoMatchAt(s: string, t: string, j: int)
    requires 0 <= j && j + |t| <= |s| && |t| >= 2
    requires s[j] != t[0] || s[j + 1] != t[1]
    ensures !MatchAt(s, t, j)
  {
    assert s[j..j + |t|][0] == s[j] && s[j..j + |t|][1] == s[j + 1];
  }

  /** Text found in `s` is also found in `a + s`. */
  lemma ContainsAfter(a: string, s: string, t: string)
    requires Contains(s, t)
    ensures Contains(a + s, t)
  {
    var j := IndexOf(s, t);
    MatchShift(a, s, t, j);
    MatchFound(a + s, t, |a| + j);
  }

  /** A match in `s` is a match in `a + s`, |a| further on. */
  lemma MatchShift(a: string, s: string, t: string, j: int)
    requires MatchAt(s, t, j)
    ensures MatchAt(a + s, t, |a| + j)
  {
    AppendSlice(a, s, j, j + |t|);
  }

  lemma AppendSlice(a: string, s: string, lo: int, hi: int)
    requires 0 <= lo <= hi <= |s|
    ensures (a + s)[|a| + lo..|a| + hi] == s[lo..hi]
  {
  }

  lemma PrefixSlice(x: string, y: string, lo: int, hi: int)
    requires 0 <= lo <= hi <= |x|
    ensures (x + y)[lo..hi] == x[lo..hi]
  {
  }

  /** Any window equal to `t` means `IndexOf` finds one at or before it. */
  lemma MatchFound(s: string, t: string, k: int)
    requires MatchAt(s, t, k)
    ensures 0 <= IndexOf(s, t) <= k
  {
  }

  /** `s.replace(pat, rep)` with a string pattern: only the first occurrence is replaced. */
  function ReplaceFirst(s: string, pat: string, rep: string): (r: string)
    ensures IndexOf(s, pat) == -1 ==> r == s
    ensures IndexOf(s, pat) >= 0 ==>
      var i := IndexOf(s, pat); r == s[..i] + rep + s[i + |pat|..]
  {
    var i := IndexOf(s, pat);
    if i < 0 then s else s[..i] + rep + s[i + |pat|..]
  }

  /** Every character lies in the Basic Multilingual Plane, so it is one UTF-16 code unit. */
  predicate InBmp(s: string) {
    forall i :: 0 <= i < |s| ==> s[i] as int < 0x1_0000
  }

  /**
   * JavaScript's `length`, which Zod's `min` also counts: UTF-16 code units,
   * so a character outside the Basic Multilingual Plane counts twice.
   */
  function Utf16Length(s: string): (n: nat)
    ensures |s| <= n <= 2 * |s|
    ensures InBmp(s) ==> n == |s|
    ensures !InBmp(s) ==> n > |s|
  {
    if s == [] then 0
    else
      assert InBmp(s) <==> s[0] as int < 0x1_0000 && InBmp(s[1..]) by {
        if InBmp(s) {
          assert forall i :: 0 <= i < |s[1..]| ==> s[1..][i] == s[i + 1];
        }
        if s[0] as int < 0x1_0000 && InBmp(s[1..]) {
          assert forall i :: 1 <= i < |s| ==> s[i] == s[1..][i - 1];
        }
      }
      Utf16Length(s[1..]) + (if s[0] as int < 0x1_0000 then 1 else 2)
  }

  /** ASCII case mapping; every other character is left as it is. */
  function LowerChar(c: char): char {
    if 'A' <= c <= 'Z' then (c as int + 32) as char else c
  }

  function UpperChar(c: char): char {
    if 'a' <= c <= 'z' then (c as int - 32) as char else c
  }

  function Lower(s: string): (r: string)
    ensures |r| == |s| && forall i :: 0 <= i < |s| ==> r[i] == LowerChar(s[i])
  {
    seq(|s|, i requires 0 <= i < |s| => LowerChar(s[i]))
  }

  function Upper(s: string): (r: string)
    ensures |r| == |s| && forall i :: 0 <= i < |s| ==> r[i] == UpperChar(s[i])
  {
    seq(|s|, i requires 0 <= i < |s| => UpperChar(s[i]))
  }

  /** Case-insensitive substring test (ASCII case folding). */
  predicate ContainsInsensitive(s: string, t: string) {
    Contains(Lower(s), Lower(t))
  }

  /** `s.split(sep)` for a one-character separator, with `cur` the piece read so far. */
  function SplitFrom(s: string, sep: char, cur: string): (r: seq<string>)
    ensures |r| >= 1
    decreases |s|
  {
    if s == [] then [cur]
    else if s[0] == sep then [cur] + SplitFrom(s[1..], sep, [])
    else SplitFrom(s[1..], sep, cur + [s[0]])
  }

  /**
   * `s.split(sep)`: pieces free of the separator that join back to `s`.
   * With JoinSplit these two facts pin the pieces down.
   */
  function Split(s: string, sep: char): (r: seq<string>)
    ensures |r| >= 1
    ensures Join(r, sep) == s
    ensures forall k :: 0 <= k < |r| ==> sep !in r[k]
  {
    SplitJoin(s, sep, []);
    SplitPiecesFree(s, sep, []);
    SplitFrom(s, sep, [])
  }

  /** `parts.join(sep)`: the pieces with one separator between neighbours. */
  function Join(parts: seq<string>, sep: char): string
    decreases |parts|
  {
    if parts == [] then []
    else if |parts| == 1 then parts[0]
    else parts[0] + [sep] + Join(parts[1..], sep)
  }

  /** Splitting loses nothing: the pieces joined by the separator give the text back. */
  lemma {:induction false} SplitJoin(s: string, sep: char, cur: string)
    ensures Join(SplitFrom(s, sep, cur), sep) == cur + s
    decreases |s|
  {
    if s == [] {
      assert cur + s == cur;
    } else if s[0] == sep {
      var rest := SplitFrom(s[1..], sep, []);
      SplitJoin(s[1..], sep, []);
      assert ([cur] + rest)[1..] == rest;
      assert [] + s[1..] == s[1..];
      assert s == [sep] + s[1..];
      assert cur + [sep] + s[1..] == cur + s;
    } else {
      SplitJoin(s[1..], sep, cur + [s[0]]);
      assert s == [s[0]] + s[1..];
      assert cur + [s[0]] + s[1..] == cur + s;
    }
  }

  /** The text before the first separator is the first piece, and the rest splits on its own. */
  lemma {:induction false} SplitPrefix(a: string, b: string, sep: char, cur: string)
    requires sep !in a
    ensures SplitFrom(a + [sep] + b, sep, cur) == [cur + a] + SplitFrom(b, sep, [])
    decreases |a|
  {
    var s := a + [sep] + b;
    if a == [] {
      assert s == [sep] + b && s[1..] == b;
      assert cur + a == cur;
    } else {
      assert a[0] in a && s[0] == a[0];
      assert s[1..] == a[1..] + [sep] + b;
      SplitPrefix(a[1..], b, sep, cur + [a[0]]);
      assert a == [a[0]] + a[1..];
      assert cur + [a[0]] + a[1..] == cur + a;
    }
  }

  /** Joining separator-free pieces and splitting again gives the same pieces. */
  lemma {:induction false} JoinSplit(parts: seq<string>, sep: char)
    requires |parts| >= 1
    requires forall k :: 0 <= k < |parts| ==> sep !in parts[k]
    ensures Split(Join(parts, sep), sep) == parts
    decreases |parts|
  {
    if |parts| == 1 {
      SplitWithoutSep(parts[0], sep, []);
      assert [] + parts[0] == parts[0];
      assert parts == [parts[0]];
    } else {
      var rest := parts[1..];
      assert forall k :: 0 <= k < |rest| ==> rest[k] == parts[k + 1];
      JoinSplit(rest, sep);
      assert sep !in parts[0];
      SplitPrefix(parts[0], Join(rest, sep), sep, []);
      assert [] + parts[0] == parts[0];
      assert parts == [parts[0]] + rest;
    }
  }

  /** A string without the separator splits into itself alone. */
  lemma {:induction false} SplitWithoutSep(s: string, sep: char, cur: string)
    requires sep !in s
    ensures SplitFrom(s, sep, cur) == [cur + s]
    decreases |s|
  {
    if s != [] {
      assert s[0] in s && s == [s[0]] + s[1..];
      SplitWithoutSep(s[1..], sep, cur + [s[0]]);
      assert cur + [s[0]] + s[1..] == cur + s;
    } else {
      assert cur + s == cur;
    }
  }

  /** No piece produced by `split` contains the separator. */
  lemma {:induction false} SplitPiecesFree(s: string, sep: char, cur: string)
    requires sep !in cur
    ensures forall k :: 0 <= k < |SplitFrom(s, sep, cur)| ==> sep !in SplitFrom(s, sep, cur)[k]
    decreases |s|
  {
    if s == [] {
    } else if s[0] == sep {
      SplitPiecesFree(s[1..], sep, []);
    } else {
      SplitPiecesFree(s[1..], sep, cur + [s[0]]);
    }
  }

  /** Lexicographic order on code points, as JavaScript's default `sort` compares strings. */
  predicate LexLe(a: string, b: string)
    decreases |a|
  {
    a == [] || (b != [] && (a[0] < b[0] || (a[0] == b[0] && LexLe(a[1..], b[1..]))))
  }

  lemma {:induction false} LexLeTotal(a: string, b: string)
    ensures LexLe(a, b) || LexLe(b, a)
    decreases |a|
  {
    if a != [] && b != [] && a[0] == b[0] {
      LexLeTotal(a[1..], b[1..]);
    }
  }

  lemma {:induction false} LexLeAntisymmetric(a: string, b: string)
    requires LexLe(a, b) && LexLe(b, a)
    ensures a == b
    decreases |a|
  {
    if a != [] {
      LexLeAntisymmetric(a[1..], b[1..]);
      assert a == [a[0]] + a[1..] && b == [b[0]] + b[1..];
    }
  }

  lemma {:induction false} LexLeTransitive(a: string, b: string, c: string)
    requires LexLe(a, b) && LexLe(b, c)
    ensures LexLe(a, c)
    decreases |a|
  {
    if a != [] && a[0] == b[0] && b[0] == c[0] {
      LexLeTransitive(a[1..], b[1..], c[1..]);
    }
  }
}

=== FILE: token_service.dfy ===
/**
 * services/token.service.ts: refresh tokens are random strings of which
 * only the sha256 is stored, with the owner and a seven-day expiry. The
 * fresh token and the clock are parameters. The table's hash column is
 * unique (it is looked up with `findUnique`), and its user column refers
 * to a user.
 */
module TokenService {
  import opened Wrappers
  import opened Db
  import opened Effects

  /** A refresh token lives seven days. */
  const RefreshTtlMs: nat := 7 * 24 * 60 * 60 * 1000

  /**
   * `createRefreshToken(userId)` with `token` standing for
   * `randomBytes(40)` in hex: stores one row and returns the plaintext. A
   * hash already in the table violates the unique constraint; a user id
   * with no user violates the foreign key. A refused insert writes nothing.
   */
  function CreateRefreshToken(s: Store, userId: nat, token: string, now: int): (r: Step<string>)
    ensures r.mails == []
    ensures FindByHash(s.refreshTokens, Sha256(token)).Some? ==> r == Step(s, Err(Orm(UniqueViolation)), [])
    ensures FindByHash(s.refreshTokens, Sha256(token)).None? && UserById(s.users, userId).None? ==>
      r == Step(s, Err(Orm(ForeignKeyViolation)), [])
    ensures r.result.Ok? <==> FindByHash(s.refreshTokens, Sha256(token)).None? && UserById(s.users, userId).Some?
    ensures r.result.Ok? ==>
      && r.result == Ok(token)
      && r.store == s.(refreshTokens := s.refreshTokens + [TokenRow(s.nextId, userId, Sha256(token), now + RefreshTtlMs)],
                       nextId := s.nextId + 1)
  {
    if FindByHash(s.refreshTokens, Sha256(token)).Some? then Step(s, Err(Orm(UniqueViolation)), [])
    else if UserById(s.users, userId).None? then Step(s, Err(Orm(ForeignKeyViolation)), [])
    else
      var row := NewRow(s, userId, Sha256(token), now + RefreshTtlMs);
      Step(s.(refreshTokens := s.refreshTokens + [row], nextId := s.nextId + 1), Ok(token), [])
  }

  /**
   * `verifyRefreshToken(token)`: the owner of the row with the token's
   * hash, unless there is none or it expired before `now`. It only reads
   * the store, so a token verifies as long as its row stays and lives.
   */
  function VerifyRefreshToken(s: Store, token: string, now: int): (r: Option<nat>)
    ensures r.Some? <==> exists x :: x in s.refreshTokens && x.tokenHash == Sha256(token) && x.expiresAt >= now
                                     && x == FindByHash(s.refreshTokens, Sha256(token)).value
    ensures r.Some? ==> r.value == FindByHash(s.refreshTokens, Sha256(token)).value.userId
    ensures (forall x :: x in s.refreshTokens ==> x.tokenHash != Sha256(token)) ==> r.None?
  {
    match FindByHash(s.refreshTokens, Sha256(token))
    case None => None
    case Some(rec) => if rec.expiresAt < now then None else Some(rec.userId)
  }

  /** `revokeRefreshToken(token)`: deletes every row with the token's hash. */
  function RevokeRefreshToken(s: Store, token: string): (r: Store)
    ensures forall x :: x in r.refreshTokens <==> x in s.refreshTokens && x.tokenHash != Sha256(token)
    ensures r.users == s.users && r.verifications == s.verifications && r.resets == s.resets
    ensures r.books == s.books && r.nextId == s.nextId
  {
    s.(refreshTokens := DeleteRowsWithHash(s.refreshTokens, Sha256(token)))
  }

  /** Deleting one hash's rows leaves the first row of every other hash where it was found. */
  lemma {:induction false} FindByOtherHash(rows: seq<TokenRow>, h: Digest, other: Digest)
    requires h != other
    ensures FindByHash(DeleteRowsWithHash(rows, h), other) == FindByHash(rows, other)
  {
    if rows != [] {
      FindByOtherHash(rows[1..], h, other);
    }
  }

  /** A token just created verifies to its owner until it expires. */
  lemma CreateThenVerify(s: Store, userId: nat, token: string, now: int, later: int)
    requires CreateRefreshToken(s, userId, token, now).result.Ok?
    requires later <= now + RefreshTtlMs
    ensures VerifyRefreshToken(CreateRefreshToken(s, userId, token, now).store, token, later) == Some(userId)
  {
    var row := TokenRow(s.nextId, userId, Sha256(token), now + RefreshTtlMs);
    FindByHashAppend(s.refreshTokens, row);
  }

  lemma {:induction false} FindByHashAppend(rows: seq<TokenRow>, row: TokenRow)
    requires forall x :: x in rows ==> x.tokenHash != row.tokenHash
    ensures FindByHash(rows + [row], row.tokenHash) == Some(row)
  {
    if rows != [] {
      assert (rows + [row])[1..] == rows[1..] + [row];
      FindByHashAppend(rows[1..], row);
    }
  }

  /** A revoked token no longer verifies, at any time. */
  lemma RevokeThenVerify(s: Store, token: string, now: int)
    ensures VerifyRefreshToken(RevokeRefreshToken(s, token), token, now).None?
  {
  }

  /** Revoking twice is revoking once; revoking an unknown token changes nothing. */
  lemma {:induction false} RevokeIdempotent(s: Store, token: string)
    ensures RevokeRefreshToken(RevokeRefreshToken(s, token), token) == RevokeRefreshToken(s, token)
    ensures FindByHash(s.refreshTokens, Sha256(token)).None? ==> RevokeRefreshToken(s, token) == s
  {
    DeleteHashTwice(s.refreshTokens, Sha256(token));
    if FindByHash(s.refreshTokens, Sha256(token)).None? {
      DeleteAbsentHash(s.refreshTokens, Sha256(token));
    }
  }

  lemma {:induction false} DeleteHashTwice(rows: seq<TokenRow>, h: Digest)
    ensures DeleteRowsWithHash(DeleteRowsWithHash(rows, h), h) == DeleteRowsWithHash(rows, h)
  {
    if rows != [] {
      DeleteHashTwice(rows[1..], h);
    }
  }

  lemma {:induction false} DeleteAbsentHash(rows: seq<TokenRow>, h: Digest)
    requires forall x :: x in rows ==> x.tokenHash != h
    ensures DeleteRowsWithHash(rows, h) == rows
  {
    if rows != [] {
      DeleteAbsentHash(rows[1..], h);
    }
  }

  /** Revoking one token leaves every other token's verification as it was. */
  lemma RevokeLeavesOthers(s: Store, token: string, other: string, now: int)
    requires other != token
    ensures VerifyRefreshToken(RevokeRefreshToken(s, token), other, now) == VerifyRefreshToken(s, other, now)
  {
    FindByOtherHash(s.refreshTokens, Sha256(token), Sha256(other));
  }
}

=== FILE: user_controller.dfy ===
/**
 * controllers/user.controller.ts: the authenticated user's profile, its
 * partial update and the avatar upload. The user id is the one the
 * access-token middleware set (`None` is NaN). Uploaded files are a set of
 * stored paths; the upload itself is stored before the handler runs.
 */
module UserController {
  import opened Wrappers
  import opened Text
  import opened Db
  import opened Effects
  import opened Envelope

  /** The `select` of `getProfile`: everything but the password. */
  function ProfileOf(u: User): (p: Profile)
    ensures p.id == u.id && p.name == u.name && p.email == u.email
    ensures p.avatar == u.avatar && p.createdAt == u.createdAt
  {
    Profile(u.id, u.name, u.email, u.avatar, u.createdAt)
  }

  /** The `select` of `updateProfile` and `uploadAvatar`. */
  function ViewOf(u: User): (v: UserView)
    ensures v.id == u.id && v.name == u.name && v.email == u.email && v.avatar == u.avatar
  {
    UserView(u.id, u.name, u.email, u.avatar)
  }

  /** `getProfile(req, res)`: 404 for a missing user, otherwise the profile. */
  function GetProfile(s: Store, userId: Option<real>): (r: Response)
    ensures r.status in {200, 404, 500}
    ensures r.status == 500 <==> IntId(userId).None?
    ensures r.status == 404 <==> IntId(userId).Some? && UserById(s.users, IntId(userId).value).None?
    ensures r.status == 404 ==> r.body == Error("User not found", Undefined)
    ensures r.status == 200 ==>
      r.body == Success("Profile fetched successfully", Value(ProfileRecord(ProfileOf(UserById(s.users, IntId(userId).value).value))))
  {
    match IntId(userId)
    case None => Response(500, Error("Failed to fetch profile", Undefined))
    case Some(id) =>
      match UserById(s.users, id)
      case None => Response(404, Error("User not found", Undefined))
      case Some(u) => Response(200, Success("Profile fetched successfully", Value(ProfileRecord(ProfileOf(u)))))
  }

  /** The profile response does not depend on the stored password. */
  lemma ProfileHidesPassword(s: Store, userId: Option<real>, u: User, p: PasswordHash)
    requires Valid(s) && u in s.users
    ensures GetProfile(s, userId) == GetProfile(s.(users := ReplaceUser(s.users, u.(password := p))), userId)
  {
    if IntId(userId).Some? {
      var id := IntId(userId).value;
      UserByIdReplace(s.users, u.(password := p), id);
      UserByIdOfMember(s.users, u);
    }
  }

  datatype ProfileBody = ProfileBody(name: Option<string>, email: Option<string>, password: Option<string>)

  /** The `data` of `updateProfile`: only the truthy fields, a password as its bcrypt. */
  function ApplyProfile(u: User, b: ProfileBody): (r: User)
    ensures r.id == u.id && r.avatar == u.avatar && r.emailVerified == u.emailVerified && r.createdAt == u.createdAt
    ensures r.name == (if Given(b.name) then b.name.value else u.name)
    ensures r.email == (if Given(b.email) then b.email.value else u.email)
    ensures r.password == (if Given(b.password) then Bcrypt(b.password.value) else u.password)
  {
    u.(name := if Given(b.name) then b.name.value else u.name,
       email := if Given(b.email) then b.email.value else u.email,
       password := if Given(b.password) then Bcrypt(b.password.value) else u.password)
  }

  /** Some other user than `id` has the address `email`: the unique constraint refuses it. */
  predicate EmailTakenByOther(users: seq<User>, id: int, email: string) {
    exists i :: 0 <= i < |users| && users[i].id != id && users[i].email == email
  }

  /**
   * `updateProfile(req, res)`. A missing user, or a new address that
   * belongs to somebody else, makes the update fail, answered with 500 and
   * the ORM's message; otherwise only that user's record changes.
   */
  function UpdateProfile(s: Store, userId: Option<real>, b: ProfileBody): (r: (Store, Response))
    ensures r.1.status in {200, 500}
    ensures r.1.status == 500 ==> r.0 == s && !r.1.body.success && r.1.body.message == "Failed to update profile"
    ensures r.1.status == 200 <==>
      && IntId(userId).Some? && UserById(s.users, IntId(userId).value).Some?
      && !(Given(b.email) && EmailTakenByOther(s.users, IntId(userId).value, b.email.value))
    ensures r.1.status == 200 ==>
      var u := ApplyProfile(UserById(s.users, IntId(userId).value).value, b);
      && r.0 == s.(users := ReplaceUser(s.users, u))
      && r.1.body == Success("Profile updated successfully", Value(UserRecord(ViewOf(u))))
  {
    match IntId(userId)
    case None => (s, Response(500, Error("Failed to update profile", Value(Cause(Message(Orm(InvalidValue)))))))
    case Some(id) =>
      if Given(b.email) && EmailTakenByOther(s.users, id, b.email.value) && UserById(s.users, id).Some? then
        (s, Response(500, Error("Failed to update profile", Value(Cause(Message(Orm(UniqueViolation)))))))
      else
        match UpdateUser(s, id, (u: User) => ApplyProfile(u, b))
        case Err(e) => (s, Response(500, Error("Failed to update profile", Value(Cause(Message(Orm(e)))))))
        case Ok((s1, u)) => (s1, Response(200, Success("Profile updated successfully", Value(UserRecord(ViewOf(u))))))
  }

  /** Replacing a user by itself changes nothing when ids are unique. */
  lemma {:induction false} ReplaceBySelf(users: seq<User>, u: User)
    requires UserById(users, u.id) == Some(u)
    requires forall i, j :: 0 <= i < j < |users| ==> users[i].id != users[j].id
    ensures ReplaceUser(users, u) == users
  {
    if users[0].id != u.id {
      ReplaceBySelf(users[1..], u);
    } else {
      assert forall k :: 1 <= k < |users| ==> users[k].id != u.id;
      ReplaceNone(users[1..], u);
    }
  }

  lemma {:induction false} ReplaceNone(users: seq<User>, u: User)
    requires forall k :: 0 <= k < |users| ==> users[k].id != u.id
    ensures ReplaceUser(users, u) == users
  {
    if users != [] {
      ReplaceNone(users[1..], u);
    }
  }

  /** An update with no truthy field leaves the store as it was. */
  lemma EmptyUpdateChangesNothing(s: Store, userId: Option<real>)
    requires Valid(s)
    ensures UpdateProfile(s, userId, ProfileBody(None, None, None)).0 == s
  {
    var r := UpdateProfile(s, userId, ProfileBody(None, None, None));
    if r.1.status == 200 {
      var u := UserById(s.users, IntId(userId).value).value;
      assert ApplyProfile(u, ProfileBody(None, None, None)) == u;
      ReplaceBySelf(s.users, u);
    }
  }

  /** Every other user's record is untouched by a profile update. */
  lemma UpdateTouchesOnlySelf(s: Store, userId: Option<real>, b: ProfileBody, other: int)
    requires IntId(userId).Some? && other != IntId(userId).value
    ensures UserById(UpdateProfile(s, userId, b).0.users, other) == UserById(s.users, other)
  {
    var r := UpdateProfile(s, userId, b);
    if r.1.status == 200 {
      var u := ApplyProfile(UserById(s.users, IntId(userId).value).value, b);
      UserByIdReplace(s.users, u, other);
    }
  }

  /** `avatar` is truthy. */
  predicate HasAvatar(u: User) {
    u.avatar.Some? && u.avatar.value != ""
  }

  /**
   * `uploadAvatar(req, res)` with the stored files and the upload's file
   * name. No file is answered with 400 and a missing user with 404, both
   * before any change. Otherwise the previous avatar's file (if any) is
   * removed and the avatar becomes the new upload's path.
   */
  function UploadAvatar(s: Store, files: set<string>, userId: Option<real>, file: Option<string>)
    : (r: (Store, set<string>, Response))
    ensures r.2.status in {200, 400, 404, 500}
    ensures r.2.status != 200 ==> r.0 == s && r.1 == files
    ensures file.None? ==> r.2 == Response(400, Error("Avatar file is required", Undefined))
    ensures file.Some? && IntId(userId).Some? && UserById(s.users, IntId(userId).value).None? ==>
      r.2 == Response(404, Error("User not found", Undefined))
    ensures r.2.status == 200 <==> file.Some? && IntId(userId).Some? && UserById(s.users, IntId(userId).value).Some?
    ensures r.2.status == 200 ==>
      var prev := UserById(s.users, IntId(userId).value).value;
      var u := prev.(avatar := Some("/uploads/" + file.value));
      && r.0 == s.(users := ReplaceUser(s.users, u))
      && r.1 == (if HasAvatar(prev) then files - {prev.avatar.value} else files)
      && r.2.body == Success("Avatar uploaded successfully", Value(UserRecord(ViewOf(u))))
  {
    if file.None? then (s, files, Response(400, Error("Avatar file is required", Undefined)))
    else match IntId(userId)
      case None => (s, files, Response(500, Error("Failed to upload avatar", Value(Cause(Message(Orm(InvalidValue)))))))
      case Some(id) =>
        match UserById(s.users, id)
        case None => (s, files, Response(404, Error("User not found", Undefined)))
        case Some(prev) =>
          var files' := if HasAvatar(prev) then files - {prev.avatar.value} else files;
          var u := prev.(avatar := Some("/uploads/" + file.value));
          (s.(users := ReplaceUser(s.users, u)), files', Response(200, Success("Avatar uploaded successfully", Value(UserRecord(ViewOf(u))))))
  }

  /**
   * After an upload the profile shows the new avatar, the previous file is gone
   * and every other file is kept.
   */
  lemma UploadThenProfile(s: Store, files: set<string>, userId: Option<real>, name: string)
    requires IntId(userId).Some? && UserById(s.users, IntId(userId).value).Some?
    ensures var r := UploadAvatar(s, files, userId, Some(name));
      var prev := UserById(s.users, IntId(userId).value).value;
      && GetProfile(r.0, userId).body.data.v.profile.avatar == Some("/uploads/" + name)
      && (HasAvatar(prev) ==> prev.avatar.value !in r.1)
      && (forall f :: f in files && !(HasAvatar(prev) && f == prev.avatar.value) ==> f in r.1)
  {
    var id := IntId(userId).value;
    var prev := UserById(s.users, id).value;
    UserByIdReplace(s.users, prev.(avatar := Some("/uploads/" + name)), id);
  }
}

=== FILE: user_service.dfy ===
/**
 * services/user.service.ts: `getUsers`, the user list filtered by
 * verification state and a search over name and e-mail.
 */
module UserService {
  import opened Wrappers
  import opened Text
  import opened Db

  /** The `select` of `getUsers`: id, name, e-mail and verification stamp. */
  datatype UserSummary = UserSummary(id: nat, name: string, email: string, emailVerified: Option<int>)

  function Summary(u: User): (r: UserSummary)
    ensures r.id == u.id && r.name == u.name && r.email == u.email && r.emailVerified == u.emailVerified
  {
    UserSummary(u.id, u.name, u.email, u.emailVerified)
  }

  /** The verification constraint: none when `isVerified` is undefined. */
  predicate VerifiedOk(x: UserSummary, isVerified: Option<bool>) {
    isVerified.None? || (isVerified.value <==> x.emailVerified.Some?)
  }

  /** The search constraint: none for an empty search, else name or e-mail contains it, ignoring case. */
  predicate SearchOk(x: UserSummary, search: Option<string>) {
    !Given(search) || ContainsInsensitive(x.name, search.value) || ContainsInsensitive(x.email, search.value)
  }

  /** `getUsers({ isVerified, search })`: the summaries of the users meeting both constraints, in table order. */
  function GetUsers(users: seq<User>, isVerified: Option<bool>, search: Option<string>): (r: seq<UserSummary>)
    ensures |r| <= |users|
    ensures forall x :: x in r ==> VerifiedOk(x, isVerified) && SearchOk(x, search)
    ensures forall u :: u in users && VerifiedOk(Summary(u), isVerified) && SearchOk(Summary(u), search) ==> Summary(u) in r
    ensures forall x :: x in r ==> exists u :: u in users && x == Summary(u)
  {
    if users == [] then []
    else
      var x := Summary(users[0]);
      var rest := GetUsers(users[1..], isVerified, search);
      assert forall u :: u in users[1..] ==> u in users;
      if VerifiedOk(x, isVerified) && SearchOk(x, search) then [x] + rest else rest
  }

  /** With neither filter every user is listed, in order. */
  lemma {:induction false} NoFilterListsAll(users: seq<User>)
    ensures |GetUsers(users, None, None)| == |users|
    ensures forall i :: 0 <= i < |users| ==> GetUsers(users, None, None)[i] == Summary(users[i])
  {
    if users != [] {
      NoFilterListsAll(users[1..]);
    }
  }

  /** The two filters combine conjunctively: the result is what both filters alone keep. */
  lemma Conjunctive(users: seq<User>, isVerified: Option<bool>, search: Option<string>, x: UserSummary)
    ensures x in GetUsers(users, isVerified, search) <==>
      x in GetUsers(users, isVerified, None) && x in GetUsers(users, None, search)
  {
    if x in GetUsers(users, isVerified, None) && x in GetUsers(users, None, search) {
      var u :| u in users && x == Summary(u);
    }
  }

  /** `isVerified = true` keeps exactly the verified users, `false` exactly the others. */
  lemma VerifiedSplit(users: seq<User>, u: User)
    requires u in users
    ensures Summary(u) in GetUsers(users, Some(true), None) <==> u.emailVerified.Some?
    ensures Summary(u) in GetUsers(users, Some(false), None) <==> u.emailVerified.None?
  {
  }
}

=== FILE: users_api.dfy ===
/**
 * services/user.service.ts of the frontend: `getUsers` sends search,
 * isVerified, page and limit, each only when truthy, to `/users?`; a
 * `role` parameter is accepted and never sent.
 */
module UsersApi {
  import opened Wrappers
  import opened Text
  import opened Query
  import Decimal

  datatype UsersParams = UsersParams(
    search: Option<string>, isVerified: Option<string>, role: Option<string>,
    page: Option<int>, limit: Option<int>)

  predicate Truthy(n: Option<int>) {
    n.Some? && n.value != 0
  }

  function UsersSlots(p: UsersParams): (r: seq<Slot<string>>)
    ensures SlotKeys(r) == ["search", "isVerified", "page", "limit"] && DistinctKeys(r)
  {
    [ Slot("search", Given(p.search), p.search.GetOr("")),
      Slot("isVerified", Given(p.isVerified), p.isVerified.GetOr("")),
      Slot("page", Truthy(p.page), if p.page.Some? then Decimal.IntToString(p.page.value) else ""),
      Slot("limit", Truthy(p.limit), if p.limit.Some? then Decimal.IntToString(p.limit.value) else "") ]
  }

  /** The request path of `getUsers(params)`: `/users?` and the query, here still as pairs. */
  datatype Request = Request(path: string, query: Pairs)

  function GetUsers(p: UsersParams): (r: Request)
    ensures r.path == "/users?"
    ensures Subsequence(Keys(r.query), ["search", "isVerified", "page", "limit"])
    ensures Lookup(r.query, "search") == (if Given(p.search) then p.search else None)
    ensures Lookup(r.query, "isVerified") == (if Given(p.isVerified) then p.isVerified else None)
    ensures Lookup(r.query, "page") == (if Truthy(p.page) then Some(Decimal.IntToString(p.page.value)) else None)
    ensures Lookup(r.query, "limit") == (if Truthy(p.limit) then Some(Decimal.IntToString(p.limit.value)) else None)
    ensures Lookup(r.query, "role") == None
  {
    var slots := UsersSlots(p);
    AssembleFromSlots(slots);
    assert slots[0].key == "search" && slots[1].key == "isVerified" && slots[2].key == "page" && slots[3].key == "limit";
    AssembleLookup(slots, 0); AssembleLookup(slots, 1); AssembleLookup(slots, 2); AssembleLookup(slots, 3);
    NoStrayKey(slots, "role");
    Request("/users?", Assemble(slots))
  }

  /** The role makes no difference to the request. */
  lemma RoleIgnored(p: UsersParams, role: Option<string>)
    ensures GetUsers(p.(role := role)) == GetUsers(p)
  {
  }
}

=== FILE: users_table.dfy ===
/**
 * components/data-table/users-table.tsx: the parameters `fetchUsers` hands
 * to `getUsers`, how a fetch settles, and the one filter it offers, e-mail
 * status. The pagination transitions are those of `DataTable`.
 */
module UsersTable {
  import opened Wrappers
  import opened Text
  import opened Query
  import Decimal
  import DataTable
  import UsersApi

  /** The values the "Email Status" select offers besides the table's own "all". */
  const VerifiedOptions := ["true", "false"]

  /**
   * The argument of `getUsers`: the current search as it is, `isVerified`
   * as the filter map holds it, the 1-based page and the page size.
   */
  function FetchParams(p: DataTable.Pagination, search: string, f: DataTable.Filters): (r: UsersApi.UsersParams)
    ensures r.search == Some(search) && r.role == None
    ensures r.isVerified == (if "isVerified" in f then Some(f["isVerified"]) else None)
    ensures r.page == Some(p.pageIndex + 1) && r.limit == Some(p.pageSize)
  {
    UsersApi.UsersParams(Some(search), if "isVerified" in f then Some(f["isVerified"]) else None,
                         None, Some(p.pageIndex + 1), Some(p.pageSize))
  }

  /** The filter map holds for e-mail status only a value the select offers. */
  predicate OfferedOnly(f: DataTable.Filters) {
    "isVerified" in f ==> f["isVerified"] in VerifiedOptions
  }

  /** Picking any entry of the select, "all" included, keeps the map to offered values. */
  lemma PickKeepsOffered(f: DataTable.Filters, value: string)
    requires OfferedOnly(f) && (value == "all" || value in VerifiedOptions)
    ensures OfferedOnly(DataTable.FilterChange(f, "isVerified", value))
    ensures OfferedOnly(DataTable.ClearFilters())
  {
  }

  /**
   * What reaches the server: the page and size on a valid pager, the search
   * only when non-empty, and an e-mail status of "true", "false" or none.
   */
  lemma FetchQuery(p: DataTable.Pagination, search: string, f: DataTable.Filters)
    requires p.pageIndex >= 0 && p.pageSize >= 1 && OfferedOnly(f)
    ensures var q := UsersApi.GetUsers(FetchParams(p, search, f)).query;
      && Lookup(q, "page") == Some(Decimal.IntToString(p.pageIndex + 1))
      && Lookup(q, "limit") == Some(Decimal.IntToString(p.pageSize))
      && Lookup(q, "search") == (if search != "" then Some(search) else None)
      && Lookup(q, "isVerified") in {None, Some("true"), Some("false")}
      && (Lookup(q, "isVerified") == None <==> "isVerified" !in f)
  {
  }

  /** The table's rows and state. */
  datatype Table<U> = Table(users: seq<U>, pagination: DataTable.Pagination, loading: bool)

  /** The part of a `getUsers` reply the table reads. */
  datatype Page<U> = Page(users: seq<U>, pageCount: int, total: int)

  /**
   * `fetchUsers` settling: a reply replaces the rows and the page count and
   * total; a failure is only logged, leaving everything else. Loading ends
   * either way.
   */
  function FetchSettled<U>(t: Table<U>, reply: Option<Page<U>>): (r: Table<U>)
    ensures !r.loading
    ensures reply.Some? ==> (r.users == reply.value.users
      && r.pagination == DataTable.Fetched(t.pagination, reply.value.pageCount, reply.value.total))
    ensures reply.None? ==> r == t.(loading := false)
  {
    if reply.Some? then Table(reply.value.users, DataTable.Fetched(t.pagination, reply.value.pageCount, reply.value.total), false)
    else t.(loading := false)
  }

  /** A fetch never moves the user's page or page size. */
  lemma FetchKeepsPage<U>(t: Table<U>, reply: Option<Page<U>>)
    ensures FetchSettled(t, reply).pagination.pageIndex == t.pagination.pageIndex
    ensures FetchSettled(t, reply).pagination.pageSize == t.pagination.pageSize
  {
  }
}

=== FILE: wrappers.dfy ===
/** The failure-compatible datatypes the rest of the model returns. */
module Wrappers {

  /** A value that may be absent: JavaScript's `undefined`/`null`, or a missing row. */
  datatype Option<+T> = None | Some(value: T) {
    function GetOr(default: T): T {
      match this
      case Some(v) => v
      case None => default
    }
  }

  /** The outcome of an operation that may throw: a value or the thrown error. */
  datatype Result<+T, +E> = Ok(value: T) | Err(error: E)
}
